=== FILE: README.md ===
# unicode-db merge engine, modelled in Dafny

This project models the merge engine of the unicode-db data builder. It
builds one record per Unicode codepoint and enriches it from several
plain-text Unicode data files. Each stage is a pure function over an
immutable `map<string, CodepointData>`, and each line-driven stage is a fold
of one step function over the lines of its file.

- **Records** (`records.dfy`) is the per-codepoint record. It has nine
  required strings and nine optional string lists, plus `caseVariants`,
  `mirror` and `oldname`. It also holds the "create the list if absent, then
  push" operation that every enricher uses.
- **Repertoire** (`repertoire.dfy`) derives a record from one `<char>`
  element of the flattened UCD XML repertoire and builds the map.
  - Tags come from a fixed flag table and a numeric-type switch.
  - The name is resolved from `na`, then `na1`, then the first alias, with
    the `#` placeholder expanded.
  - It then applies typed name aliases, case variants, decomposition and
    bracket notes.
  - The two crash paths of the source are modelled as a `Failure`.
- **IndexEnricher**, **NamesList** and **ScriptExtensions**
  (`index_enricher.dfy`, `names_list.dfy`, `script_extensions.dfy`) are the
  three enrichers.
  - The index file is a tab-split filter with a deny-list.
  - The names list is a cursor state machine with a one-character dispatch,
    including the `%` fall-through into `:`.
  - The script-extensions file expands inclusive hex ranges into
    zero-padded upper-case keys.
  - None of them adds keys. Each appends only to its own list fields.
- **LineFold** (`fold.dfy`) is the generic line fold. Line numbers start at
  1 and warnings are collected in a log.
- **Finalise** (`finalise.dfy`) covers the rest of `main`:
  - `removeEmpty`;
  - the sort by the hexadecimal value of `code`;
  - the fixed order: load or build, then index, names list and script
    extensions.
- **Emoji** (`emoji.dfy`) models the emoji table builder in `emoji.py`:
  - `to_hex` and `to_handle`;
  - the test-file merge into an insertion-ordered dictionary;
  - the data-file range expansion and merge.
- Helpers:
  - **Text** and **Hex** (`text.dfy`, `hex.dfy`) model the JavaScript and
    Python string and number primitives the source relies on: `split`,
    `trim`, `strip`, `indexOf`, `slice`, `padStart`, `parseInt(s, 16)`,
    `toString(16)` and `int(s, 16)`.
  - **Wrappers** and **Diagnostics** hold `Option`/`Result` and the typed
    warnings and crashes.

Regex matches, the XML parser, the clock and all file I/O are not modelled.
They enter as inputs: matched groups, attribute bags, and line sequences.

Where the source has a defect (see "## Findings"), the pipeline models the
code as written: a record stores the case variants the source stores, and
the emoji test file looks for the marker the source looks for. The
corrected definition sits beside it, with its intended property proved and
a lemma relating the two.

## Model

| member | source | states |
|---|---|---|
| Records.RecordExtensionality | src/CodepointData.ts:1-23 | a record is fully determined by its scalar fields (the nine required strings, `caseVariants`, `mirror`, `oldname`) and its nine optional string lists |
| Records.With | src/CodepointData.ts:3-22 | replacing one optional list field gives that field the new value and leaves every other list field and every scalar unchanged |
| Records.Push | src/ProcessIndexTxt.ts:39-42 | "create the list if absent, then push": the result is present, and it is the old contents (or nothing) followed by the pushed items |
| Records.PushThenAccumulate | src/ProcessNamesListTxt.ts:46-79 | a push followed by further pushes is one accumulation of all the items, in order |
| Records.AccumulateTwice | src/ProcessScriptExtensionsTxt.ts:55-58 | two runs of pushes accumulate their items in order; nothing is overwritten |
| Records.PushAt | src/ProcessIndexTxt.ts:29-42 | pushing onto one field of one record keeps the keys, every other record, every other field and the scalars |
| Records.PreservesRecordsTransitive | src/main.ts:62-66 | "same keys, same scalars" composes across stages |
| Repertoire.FlagTags | src/XmlToMap.ts:57-140 | the flag tags are drawn only from the table's labels |
| Repertoire.FlagTagsMember | src/XmlToMap.ts:58-140 | a tag is emitted exactly when some table row carries it and that row's attribute is "Y" |
| Repertoire.LabelsDisjoint | src/XmlToMap.ts:57-140 | the numeric and lowercase labels belong to their own groups only |
| Repertoire.NumericTagExclusive | src/XmlToMap.ts:74-84 | Decimal, Digit and Numeric are each emitted exactly when `nt` is De, Di or Nu; so at most one is emitted, and none for any other value |
| Repertoire.CaseTagsLower | src/XmlToMap.ts:86-97 | within the case rows, both Lowercase and Other_Lowercase are emitted exactly when `Lower` is "Y" |
| Repertoire.LowercaseTag | src/XmlToMap.ts:89-91 | Lowercase is a tag exactly when `Lower` is "Y" |
| Repertoire.OtherLowercaseTag | src/XmlToMap.ts:95-97 | Other_Lowercase is a tag exactly when `Lower` is "Y", reproducing the source's test |
| Repertoire.LowercaseTagsCoincide | src/XmlToMap.ts:89-97 | Other_Lowercase is present exactly when Lowercase is |
| Repertoire.NameSource | src/XmlToMap.ts:142-148 | the name source fails exactly when `na` and `na1` are falsy and the alias is a single object or an empty array (indexing `[0]` crashes) |
| Repertoire.ExpandPlaceholder | src/XmlToMap.ts:150-153 | a name ending in "#" becomes its prefix followed by the codepoint; any other name is unchanged |
| Repertoire.AliasStep | src/XmlToMap.ts:160-184 | one alias changes the name only when it is an abbreviation, warns exactly for an unknown type, and appends at most one note, keeping earlier notes |
| Repertoire.AliasKinds | src/XmlToMap.ts:161-183 | correction: one "Corrected from:" note and one "Corrected" tag. Figment: one note and one "Figment" tag. Alternate: one note. Control: a note unless the alias equals the name or occurs as "alias (" in it. Unknown type: no change to name, notes or tags |
| Repertoire.AliasNotesAppended | src/XmlToMap.ts:158-185 | the alias loop keeps the notes it starts with and adds at most one note per alias |
| Repertoire.AliasTagsAppended | src/XmlToMap.ts:158-185 | the alias loop appends exactly one tag per correction or figment, in entry order, whatever the name does |
| Repertoire.AliasWarningsAppended | src/XmlToMap.ts:179-183 | the loop warns once per alias of unknown type and for nothing else |
| Repertoire.AbbreviatedHasParen | src/XmlToMap.ts:164-166 | a name rewritten by an abbreviation contains "(" |
| Repertoire.AbbreviationRewritesOnce | src/XmlToMap.ts:164-169 | after the loop, the name is the original with the first abbreviation appended in parentheses when the original had no "(", and otherwise unchanged; so at most one abbreviation rewrites it |
| Repertoire.CaseAssignments | src/XmlToMap.ts:195-213 | after the six assignments in source order, each kind holds its full value, else its simple one, and is absent when it has neither |
| Repertoire.CaseVariants | src/XmlToMap.ts:195-213 | `caseVariants` is absent exactly when none of suc/slc/stc/uc/lc/tc has a value (non-empty, not "#"), and its keys are among uppercase/lowercase/titlecase |
| Repertoire.FullMappingOverridesSimple | src/XmlToMap.ts:195-213 | for each kind, the full mapping split on spaces wins over the simple mapping; the kind is present exactly when one of them has a value |
| Repertoire.CaseVariantsAsWritten | src/XmlToMap.ts:195-213 | the source's map (simple branch storing ucp/lcp/tcp) only uses the three kind keys |
| Repertoire.SimpleCaseStoresUndefined | src/XmlToMap.ts:196-198 | for an entry with only `suc`, the code as written stores `[undefined]` while the corrected map stores `[suc]` |
| Repertoire.AsWrittenPerKind | src/XmlToMap.ts:195-213 | as written, each kind is present when its simple or full mapping has a value, and holds the stored attribute when only the simple one does |
| Repertoire.KindAgrees | src/XmlToMap.ts:196-213 | when the stored attribute is the tested one, the as-written kind is the corrected kind |
| Repertoire.CaseVariantsAgreeWhenPresent | src/XmlToMap.ts:195-213 | where ucp/lcp/tcp equal suc/slc/stc, the as-written and corrected maps agree, and either both are absent or both are present |
| Repertoire.Decomposition | src/XmlToMap.ts:214-217 | `decomposition` is present exactly when `dm` has a value, and joining it with spaces gives `dm` back |
| Repertoire.BracketNotes | src/XmlToMap.ts:219-222 | exactly two notes when `bpt` is non-empty and not "n", none otherwise; the first says "Open" exactly when `bpt` is "o" |
| Repertoire.DeriveRecord | src/XmlToMap.ts:48-246 | an entry is skipped exactly when `cp` is missing or empty; a derived record's code is its `cp` |
| Repertoire.StoredCaseVariants | src/XmlToMap.ts:195-231 | the stored `caseVariants` is absent exactly when none of suc/slc/stc/uc/lc/tc has a value, and is otherwise the map as the source writes it |
| Repertoire.CaseKeysAgree | src/XmlToMap.ts:195-213 | the as-written and corrected maps have the same kinds, because both test the same attributes |
| Repertoire.StoredAgreesWhenPresent | src/XmlToMap.ts:195-231 | where ucp/lcp/tcp equal suc/slc/stc, the stored case variants are the corrected ones, kind by kind, with every element present |
| Repertoire.DerivedFields | src/XmlToMap.ts:191-244 | a derived record copies the required attributes; carries the case variants as the source stores them and the derived decomposition; ends its notes with the bracket notes, preceded by the "Hangul Syllable Type:" note exactly when `JSN` is non-empty, preceded by at most one note per alias; has `mirror`/`oldname` absent when empty; has the four enricher lists present and empty |
| Repertoire.CrashIff | src/XmlToMap.ts:142-153 | an entry crashes exactly when it has a codepoint, its primary name is falsy, and either the alias cannot be indexed or there is no alias, `na` is falsy and `na1` is absent |
| Repertoire.SkipRule | src/XmlToMap.ts:50-55 | an entry without a codepoint is skipped, with a warning exactly when `first-cp` is also falsy |
| Repertoire.DerivedName | src/XmlToMap.ts:142-226 | name = (na, else na1, else first alias) with "#" expanded, then the first abbreviation in parentheses when there is no "("; title = na1 if non-empty, else that name; tags = property tags followed by the alias tags |
| Repertoire.BuildMap | src/XmlToMap.ts:48-247 | the loop fails exactly when some entry crashes; on success the keys are the prior keys plus every entry codepoint, and every record is stored under its own code |
| Repertoire.StoreAll | src/XmlToMap.ts:48-247 | given each entry's outcome, the loop fails exactly when some outcome is a crash; on success the keys are the prior keys plus every entry codepoint |
| Repertoire.StoreAllCodes | src/XmlToMap.ts:224-246 | the loop stores every derived record under its own code |
| Repertoire.XmlToMap | src/XmlToMap.ts:46-247 | the built map's keys are exactly the entries' codepoints and each record's `code` equals its key |
| Text.Split | src/ProcessIndexTxt.ts:17 | `split(sep)` yields at least one field; no field contains the separator; joining the fields with it gives the line back |
| Text.SplitSingleIff | src/ProcessIndexTxt.ts:17-21 | a line splits into fewer than two fields exactly when it has no separator |
| Text.SplitPrefix | src/ProcessIndexTxt.ts:17-23 | with two or more fields, the line starts with field 0, the separator, and field 1 |
| Text.SplitFirstTwo | src/ProcessIndexTxt.ts:17-23 | fields 0 and 1 of `split` are the first two fields: the line starts with them around the separator, neither holds it, and field 1 ends at the line's end or the next separator |
| Text.JoinFirstTwoFields | src/ProcessScriptExtensionsTxt.ts:18-27 | fields without the separator, glued with it, read back as their first two fields |
| Text.FirstTwoFieldsUnique | src/ProcessNamesListTxt.ts:25-29 | for a one-character separator, the first two fields of a line are unique: two readings that both meet the field description coincide |
| Text.TrimEmptyIff | src/ProcessIndexTxt.ts:14 | `trim()` leaves nothing exactly when every character is white space |
| Text.IndexOfFrom | src/XmlToMap.ts:165-171 | `indexOf` returns the first occurrence at or after the start, or none when there is none |
| Text.Slice | src/ProcessNamesListTxt.ts:42 | `slice(start, end)` clamps both bounds to the length: its length is `min(end, |s|) - start` when positive and 0 otherwise, and its characters are those of the string from `start`, offsets counted in scalar values |
| Text.SliceFrom | src/ProcessNamesListTxt.ts:43 | `slice(3)` is the suffix from offset 3, or empty for a shorter line, offsets counted in scalar values |
| Text.PadStart | src/ProcessScriptExtensionsTxt.ts:46 | `padStart(4, "0")` leaves a long enough string alone and otherwise left-pads it to exactly the width |
| Text.AsciiLower | emoji.py:73 | lower-casing maps each ASCII upper-case letter and keeps every other character, preserving length |
| Text.ReplaceChar | emoji.py:73 | `replace(' ', '_')` changes exactly the spaces, preserving length |
| Hex.HexLower | src/ProcessScriptExtensionsTxt.ts:46 | `toString(16)` is non-empty lower-case hex with no leading zero (except "0"), whose value is the number |
| Hex.HexPrefix | src/ProcessScriptExtensionsTxt.ts:35-39 | `parseInt(s, 16)` reads the longest hex-digit prefix, stopping at the first non-hex character |
| Hex.ParseAllHex | src/ProcessScriptExtensionsTxt.ts:35-39 | parsing a non-empty all-hex string gives its value |
| Hex.FormatKey | src/ProcessScriptExtensionsTxt.ts:46 | a key of a non-negative number is upper-case hex of at least 4 digits, exactly 4 below 0x10000, with no leading zero beyond the padding |
| Hex.FormatKeyValue | src/ProcessScriptExtensionsTxt.ts:46 | a key is all hexadecimal digits and has the number's value |
| Hex.FormatKeyRoundTrip | src/ProcessScriptExtensionsTxt.ts:35-46 | hex-parsing the key of a number gives the number back |
| Hex.FormatKeyInjective | src/ProcessScriptExtensionsTxt.ts:46 | distinct numbers get distinct keys, so a range visits each key at most once |
| LineFold.FoldSplit | src/ProcessIndexTxt.ts:12-44 | folding a file in two parts is folding it whole; line numbers carry on and the warnings concatenate |
| LineFold.FoldInvariant | src/ProcessNamesListTxt.ts:16-89 | an invariant every step keeps holds after the fold, and every warning is of a kind some step gives |
| LineFold.FoldAccumulates | src/ProcessScriptExtensionsTxt.ts:13-60 | when every step only appends a line's items to one field, the fold appends every line's items in file order and changes nothing else |
| IndexEnricher.Parse | src/ProcessIndexTxt.ts:14-23 | blank or "#" lines are ignored; a line without a tab is malformed; otherwise the phrase and code are the first two tab fields: the line starts with them around a tab, neither holds a tab, and the code ends at the line's end or the next tab |
| IndexEnricher.EntryFields | src/ProcessIndexTxt.ts:17-23 | conversely, a line that is not ignored reads as the entry of any phrase and code that are its first two tab fields |
| IndexEnricher.Step | src/ProcessIndexTxt.ts:13-43 | one line keeps keys and scalars, warns at most once, appends its phrase to the target's `indexEntries` only, and changes no other field |
| IndexEnricher.SkippedLines | src/ProcessIndexTxt.ts:14-21 | blank and comment lines change nothing silently; a line with fewer than two fields changes nothing and is reported |
| IndexEnricher.DenyListSkipped | src/ProcessIndexTxt.ts:25-27 | BOOP, DOOD and DEAF are skipped even when they are keys |
| IndexEnricher.MissWarnsUnlessRangeStart | src/ProcessIndexTxt.ts:29-37 | a missing code changes nothing and warns exactly when it does not end in "0" |
| IndexEnricher.Apply | src/ProcessIndexTxt.ts:13-43 | for any reading of a line: keys and scalars kept, at most one warning, and the entry's phrase appended to its target's `indexEntries` only |
| IndexEnricher.ApplyWarnings | src/ProcessIndexTxt.ts:18-37 | for any reading of a line, every warning is the line's own malformed report or a missing, non-"0"-ending, non-joke code |
| IndexEnricher.StepWarnings | src/ProcessIndexTxt.ts:18-37 | every warning is the line's own malformed report or a missing, non-"0"-ending, non-joke code |
| IndexEnricher.StepKeepsRecords | src/ProcessIndexTxt.ts:22-42 | from any map with the same keys and scalars, a step keeps them |
| IndexEnricher.EnrichFrom | src/ProcessIndexTxt.ts:12-44 | the file adds no key, changes no scalar, and gives at most one warning per line, each of an index kind |
| IndexEnricher.Enrich | src/ProcessIndexTxt.ts:6-49 | the whole index file keeps keys and scalars |
| IndexEnricher.EnrichAccumulates | src/ProcessIndexTxt.ts:39-42 | each record ends with its prior `indexEntries` followed by every phrase the file gives it, duplicates included; other fields are untouched |
| IndexEnricher.DenyListNeverGains | src/ProcessIndexTxt.ts:25-27 | a joke code gains no entry whatever the file says |
| IndexEnricher.EnrichSplit | src/ProcessIndexTxt.ts:12-13 | processing the file in two parts equals processing it whole, including warnings |
| NamesList.Current | src/ProcessNamesListTxt.ts:39-41 | the selected record is the cursor when it names a key |
| NamesList.Parse | src/ProcessNamesListTxt.ts:18-43 | block ends are blank, ";" or "@" lines; any other line not starting with a tab is a header: without a tab its code is the whole line, with one its code and description are the first two tab fields (code and description hold no tab, and the description ends at the line's end or the next tab); an annotation's type is offset 1 and its payload is the trimmed text from offset 3, offsets counted in scalar values |
| NamesList.Dispatch | src/ProcessNamesListTxt.ts:44-87 | only `* = x ~ # %` append, and only to comments, related, variants or approximations (comments only from `* = %`); ":" does nothing; every other type is unknown |
| NamesList.DispatchCases | src/ProcessNamesListTxt.ts:45-74 | `*` appends the payload to comments, `=` "Formal Alias: " + payload to comments, `x` to related, `~` to variants, `#` to approximations |
| NamesList.CorrectedNameFallsThrough | src/ProcessNamesListTxt.ts:75-82 | `%` appends "Corrected name: " + payload to comments and then falls into `:`, which adds nothing |
| NamesList.HeaderFields | src/ProcessNamesListTxt.ts:25-29 | conversely, a header line reads as any code and description that are its first two tab fields |
| NamesList.Step | src/ProcessNamesListTxt.ts:18-87 | one line keeps keys and scalars, sets the cursor as the line kind dictates, warns at most once, and appends only what the dispatch gives to the selected record |
| NamesList.ResetLine | src/ProcessNamesListTxt.ts:18-24 | a block-end line clears the cursor and changes no data |
| NamesList.HeaderLine | src/ProcessNamesListTxt.ts:25-38 | a header changes no data and selects its code when it is a key, else nothing; it warns exactly when the code is missing and the description is not "<not a character>" or "<reserved>" |
| NamesList.OrphanAnnotation | src/ProcessNamesListTxt.ts:39-41 | an annotation with no selected record changes nothing |
| NamesList.UnknownTypeWarns | src/ProcessNamesListTxt.ts:83-87 | an unknown type changes nothing and warns with the selected record's code |
| NamesList.Apply | src/ProcessNamesListTxt.ts:18-87 | for any reading of a line: keys and scalars kept, the cursor set as the line kind dictates, at most one warning, and only the dispatched values appended to the selected record |
| NamesList.StepKeepsRecords | src/ProcessNamesListTxt.ts:46-87 | from any map with the same keys and scalars, a step keeps them; `code` never changes |
| NamesList.EnrichFrom | src/ProcessNamesListTxt.ts:16-89 | the file adds no key, changes no scalar, and gives at most one warning per line |
| NamesList.Enrich | src/ProcessNamesListTxt.ts:14-89 | the whole names list, starting with no cursor, keeps keys and scalars |
| NamesList.EnrichAccumulates | src/ProcessNamesListTxt.ts:46-79 | each field of each record ends with its prior contents followed by every append the lines give it under the cursor they set; appends are cumulative across blocks |
| NamesList.OnlyNamesFields | src/ProcessNamesListTxt.ts:44-87 | the names list never appends to a field other than comments, related, variants and approximations |
| NamesList.EnrichSplit | src/ProcessNamesListTxt.ts:16-17 | processing the file in two parts, the cursor carried across, equals processing it whole |
| ScriptExtensions.ScriptList | src/ProcessScriptExtensionsTxt.ts:27 | the script list is at least one item, and joined by spaces it is field 1 cut at its first "#" and trimmed |
| ScriptExtensions.Bounds | src/ProcessScriptExtensionsTxt.ts:32-41 | a field 0 with ".." gives both halves parsed as hex; otherwise start and end are the same parse |
| ScriptExtensions.Parse | src/ProcessScriptExtensionsTxt.ts:15-41 | blank or "#" lines are ignored; a line without ";" is malformed; an entry's codes are field 0 trimmed, its bounds are `Bounds` of those codes and its scripts are `ScriptList` of field 1, fields 0 and 1 being the line's first two ";" fields; at least one script |
| ScriptExtensions.EntryFields | src/ProcessScriptExtensionsTxt.ts:18-41 | conversely, a line that is not ignored reads as the trimmed codes, bounds and scripts of any two strings that are its first two ";" fields |
| ScriptExtensions.Visit | src/ProcessScriptExtensionsTxt.ts:46-58 | a number whose key is present gets all scripts pushed; a missing key warns and changes nothing |
| ScriptExtensions.VisitEffect | src/ProcessScriptExtensionsTxt.ts:47-58 | a visit appends the scripts to `scriptExtensions` of the one record whose key is the number's, and changes no other field |
| ScriptExtensions.VisitRange | src/ProcessScriptExtensionsTxt.ts:45-59 | a range keeps keys and scalars, gives at most one warning per number, and changes nothing when start > end |
| ScriptExtensions.VisitRangeAccumulates | src/ProcessScriptExtensionsTxt.ts:45-59 | each record gains the range's appends in ascending order, and no other field changes |
| ScriptExtensions.RangeHitsOnce | src/ProcessScriptExtensionsTxt.ts:45-46 | the record keyed by n gains the scripts exactly once when start <= n <= end, and nothing otherwise |
| ScriptExtensions.RangeMisses | src/ProcessScriptExtensionsTxt.ts:45-53 | a key that no number of the range formats to gains nothing |
| ScriptExtensions.Apply | src/ProcessScriptExtensionsTxt.ts:32-59 | a parsed line appends its range's scripts to `scriptExtensions` only; a NaN bound appends nothing |
| ScriptExtensions.Step | src/ProcessScriptExtensionsTxt.ts:14-59 | ignored lines change nothing; a line without ";" is reported and changes nothing; otherwise only `scriptExtensions` grows, by the line's scripts |
| ScriptExtensions.EnrichFrom | src/ProcessScriptExtensionsTxt.ts:13-60 | the file keeps keys and scalars |
| ScriptExtensions.Enrich | src/ProcessScriptExtensionsTxt.ts:4-65 | the whole script-extensions file keeps keys and scalars |
| ScriptExtensions.EnrichAccumulates | src/ProcessScriptExtensionsTxt.ts:55-58 | each record ends with its prior `scriptExtensions` followed by every script every line gives it, with no deduplication |
| Finalise.Prune | src/main.ts:25-27 | a list is deleted exactly when it is present and empty; otherwise it is kept as it is |
| Finalise.RemoveEmpty | src/main.ts:24-43 | comments, indexEntries, notes, related, tags and variants are pruned; approximations, scriptExtensions, decomposition and every scalar are untouched |
| Finalise.RemoveEmptyDeletes | src/main.ts:24-43 | `removeEmpty` deletes a field exactly when it is one of the six and present with length 0 |
| Finalise.RemoveEmptyFixedPoints | src/main.ts:24-43 | the result has nothing left to prune; a record is unchanged exactly when it had nothing to prune; `removeEmpty` is idempotent |
| Finalise.CompareKeys | src/main.ts:69-73 | the comparator is <= 0 / < 0 exactly when the first code's value is <= / < the second's, and 0 when either code is NaN |
| Finalise.Insert | src/main.ts:69-73 | inserting an element gives a permutation of the list plus that element |
| Finalise.InsertSorted | src/main.ts:69-73 | inserting a keyed element into a sorted keyed list keeps it sorted |
| Finalise.SortBy | src/main.ts:68-73 | the sort returns a permutation of its input |
| Finalise.SortBySorted | src/main.ts:68-73 | when every key parses, the sort's result is ascending |
| Finalise.SortByCode | src/main.ts:68-73 | sorting the records by code is a permutation of them |
| Finalise.ListingSize | src/main.ts:68 | a duplicate-free listing of the keys has exactly one entry per key |
| Finalise.Values | src/main.ts:68 | `Object.values` lists each key's record in the listing's order |
| Finalise.PruneAll | src/main.ts:74-76 | each output element is its record with `removeEmpty` applied |
| Finalise.PruneKeepsOrder | src/main.ts:68-76 | pruning after sorting keeps the length, every code and sortedness |
| Finalise.PruneAllClean | src/main.ts:74-76 | every pruned record has nothing left to prune |
| Finalise.SortedWhenKeyed | src/main.ts:68-73 | when every code parses as hex, the sorted values are ascending by code |
| Finalise.Output | src/main.ts:68-76 | the output has one element per record, none has an empty prunable list, and it is sorted when every code parses |
| Finalise.OutputIsPermutation | src/main.ts:68-76 | the output is the pruned sort of the values; the sorted values are a permutation of the map's values, and every record occurs |
| Finalise.BaseMap | src/main.ts:50-59 | a saved map is loaded as it is; otherwise the map is built from the repertoire, which fails exactly when some entry crashes |
| Finalise.EnrichAll | src/main.ts:62-66 | the three enrichers together keep keys and scalars |
| Finalise.Pipeline | src/main.ts:50-77 | the enriched map has the saved map's keys, scalars and size; a cached map is used as saved; an uncached run fails exactly when some entry crashes |
| Finalise.RunFrom | src/main.ts:59-65 | the saved map is the base map, and the enriched map is the three enrichers applied to it |
| Finalise.PipelineKeepsCodes | src/main.ts:57-66 | after a fresh build and enrichment, the keys are the repertoire's codepoints and each record's code is its key |
| Finalise.RestartFromSaved | src/main.ts:50-60 | re-running from the saved map gives the same saved and enriched maps |
| Finalise.Stages | src/main.ts:62-66 | index first (indexEntries only), then names list (its four fields only), then script extensions (scriptExtensions only) |
| Finalise.IndexEntriesAfterAll | src/main.ts:62 | after all three stages, `indexEntries` is the saved list plus the index file's phrases |
| Finalise.NamesFieldAfterAll | src/main.ts:64 | after all three stages, each names-list field is the saved list plus the names list's appends |
| Finalise.ScriptsAfterAll | src/main.ts:66 | after all three stages, `scriptExtensions` is the saved list plus every line's scripts |
| Finalise.UntouchedAfterAll | src/main.ts:62-66 | notes, tags and decomposition are untouched by the enrichers |
| Emoji.ToHex | emoji.py:35-39 | lower-case hex of at least 4 digits whose value is the number; exactly 4 digits up to 0xFFFF and unpadded above |
| Emoji.ToHexRoundTrip | emoji.py:35-39 | `int(to_hex(i), 16) == i` |
| Emoji.ToHexInjective | emoji.py:35-39 | distinct numbers get distinct strings |
| Emoji.PyInt16 | emoji.py:136 | `int(s, 16)` succeeds exactly when `s` stripped is non-empty hex, and then gives its value |
| Emoji.Squash | emoji.py:42 | `re.sub('[^a-z]+', '_', s)` leaves only a–z and "_", never "__", and keeps the letters in order |
| Emoji.SquashWords | emoji.py:42 | squashing keeps the words, the maximal runs of a–z: only the runs between them shrink to one "_" or vanish |
| Emoji.StripUnderscore | emoji.py:42 | `strip('_')` of a squashed string is a handle with the same letters |
| Emoji.ToHandle | emoji.py:41-42 | `to_handle` gives only a–z and "_", with no "__" and no leading or trailing "_", and keeps exactly the letters of the lower-cased, stripped input |
| Emoji.DropLeadingWords | emoji.py:42 | `strip('_')` at the start drops no word |
| Emoji.TrailingSeparatorWords | emoji.py:42 | a trailing non-letter adds no word |
| Emoji.DropTrailingWords | emoji.py:42 | `strip('_')` at the end drops no word |
| Emoji.JoinWordsFrom | emoji.py:42 | a string of letters and single "_" that does not end in "_" is its words joined with "_" |
| Emoji.HandleIsJoinedWords | emoji.py:41-42 | a handle is its words joined with "_" |
| Emoji.ToHandleWords | emoji.py:41-42 | `to_handle(s)` is the words (maximal a–z runs) of `s` stripped and lower-cased, joined with one "_" between each two |
| Emoji.SquashIdentity | emoji.py:42 | squashing a string that is already squashed changes nothing |
| Emoji.HandleFixedPoint | emoji.py:41-42 | a handle is its own handle |
| Emoji.HandleIdempotent | emoji.py:41-42 | `to_handle(to_handle(s)) == to_handle(s)` |
| Emoji.AppendOrdered | emoji.py:75-86 | inserting a new key at the end keeps the dictionary's order a duplicate-free listing of its keys |
| Emoji.UpdateOrdered | emoji.py:141-157 | changing the entry of an existing key keeps the order a listing |
| Emoji.Underscored | emoji.py:73 | `replace(' ', '_')` leaves no space, keeps the length, and changes nothing but spaces: reading "_" as a space gives the input back |
| Emoji.Upsert | emoji.py:75-89 | a new key gets its created entry at the end of the order; an existing key keeps everything but `fully-qualified`, which is set when given; other keys are unchanged |
| Emoji.MergeTest | emoji.py:73-89 | a test line adds its key, appended to the order when new; keeps the order a listing; leaves every other entry unchanged |
| Emoji.MergeTestFirstWins | emoji.py:75-86 | the first line for a key stores its own codepoints, version, name and handle; later lines change nothing but `fully-qualified` |
| Emoji.MergeTestQualifies | emoji.py:88-89 | `fully-qualified` is group 1 stripped, lower-cased and "_"-joined exactly when group 1 holds the marker; otherwise it keeps its value |
| Emoji.NoLetterOMarker | emoji.py:50 | group 1 of the test pattern can never contain " FEOF" |
| Emoji.AsWrittenNeverQualifies | emoji.py:88-89 | as written, no test line ever sets `fully-qualified` |
| Emoji.MergeTestKeeps | emoji.py:73-89 | one merged line, for either marker, only adds keys, only extends the order, keeps every entry's data but `fully-qualified`, and keeps the order a listing |
| Emoji.TestLineFirstWins | emoji.py:61-89 | one test line, as written, only adds keys, only extends the order, keeps each entry's data, and keeps the order a listing |
| Emoji.TestLineNeverQualifies | emoji.py:61-89 | one test line, as written, keeps every entry's `fully-qualified` and gives a new entry none |
| Emoji.TestFileNeverQualifies | emoji.py:50-89 | across the whole test file, as written, no entry gains a `fully-qualified` |
| Emoji.FirstWinsTransitive | emoji.py:73-89 | "keys kept, first data kept, order extended, listing kept" composes from line to line |
| Emoji.TestFileFirstWins | emoji.py:56-89 | across the whole test file, entries keep their first line's data, keys are only added and the order only extended |
| Emoji.ParseHex | emoji.py:136 | the hex parse succeeds exactly when `int(s, 16)` does, with the same value |
| Emoji.ExpandRange | emoji.py:134-137 | the range A..B has B − A + 1 codepoints, and none when A > B |
| Emoji.DataCodepoints | emoji.py:130-137 | a field without ".." gives itself stripped and lower-cased; a range succeeds exactly when both bounds parse |
| Emoji.RangeReadsBack | emoji.py:134-137 | the i-th codepoint of a range reads back as A + i |
| Emoji.RangeDistinct | emoji.py:134-137 | no codepoint of a range repeats |
| Emoji.RangeCodepoints | emoji.py:130-137 | a range whose two bounds parse as A and B expands to `to_hex` of A, …, B |
| Emoji.AddName | emoji.py:153-156 | `d[name] = True` on the property dictionary: the names become the old ones plus the new, the old ones keep their order at the front, and none repeats |
| Emoji.Mark | emoji.py:153-157 | a hit adds the property after the entry's existing ones and sets the version, and changes no other field |
| Emoji.Visit | emoji.py:139-157 | a codepoint succeeds exactly when it is a key or names a character; it adds only its own key, at the end of the order when new |
| Emoji.VisitMarks | emoji.py:141-157 | a successful visit marks its codepoint's entry and changes no other entry |
| Emoji.VisitNewEntry | emoji.py:143-151 | an unseen codepoint gets a "component-only" entry holding its character, then marked |
| Emoji.VisitKeepsOrdered | emoji.py:141-151 | a visit keeps the order a listing |
| Emoji.VisitAll | emoji.py:139-157 | on success no key is lost and the order stays a listing |
| Emoji.VisitAllMarks | emoji.py:139-157 | on success every codepoint of the line is a key marked with the line's property and version |
| Emoji.VisitAllKeeps | emoji.py:139-157 | on success every key was already there or is named by the line, and the entries of keys the line does not name are unchanged |
| Emoji.VisitAllSucceeds | emoji.py:139-151 | a line succeeds exactly when each of its codepoints is a known key or names a character |
| Emoji.ZeroVersionSkipped | emoji.py:127-128 | a line whose version starts with "E0.0" leaves the table as it is |
| Emoji.RangeMarked | emoji.py:130-157 | a successful range line marks `to_hex(n)` for every n from A to B |
| Emoji.DataFile | emoji.py:109-157 | the data file only adds keys and keeps the order a listing |
| Emoji.DataExtendsTransitive | emoji.py:109-157 | "only grown, new entries from the data" composes across lines |
| Emoji.MarkExtends | emoji.py:139-157 | marking one entry, old or newly created, and keeping the others only grows the table |
| Emoji.VisitExtends | emoji.py:139-157 | a visit only grows the entry it marks, or creates a "component-only" one |
| Emoji.VisitAllExtends | emoji.py:139-157 | a data line only grows old entries and creates "component-only" ones |
| Emoji.DataLineExtends | emoji.py:114-157 | the same for any data-file line, skipped or not |
| Emoji.DataFileExtends | emoji.py:109-157 | the data file keeps every entry's codepoints, names, handles, `fully-qualified`, character and status; its property names only gain names at the end; every entry it adds is a "component-only" character with no names |
| Emoji.BuildTable | emoji.py:44-157 | the finished dictionary's order lists each key exactly once |
| Emoji.NeverQualified | emoji.py:44-157 | as written, no entry of the finished dictionary has `fully-qualified` |

## Left out

- File and process I/O are not modelled; files arrive as line sequences. This covers:
  - `fs.open`/`readLines`/`access`/`writeFile` and `process.exit`;
  - `saveMap`, the cached-map `JSON.parse` and `SaveJsonLines`;
  - argparse, `open`/`write` and `json.dumps` in `emoji.py`.
  - A cached map is taken to be exactly the map that was saved.
- The XML parser is not modelled. Each `<char>` element arrives as a `CharAttrs` attribute bag, and a single alias child arrives as the bare object the parser gives.
- Regular-expression matching in `emoji.py` is not modelled. A matched line arrives with its groups, and an unmatched line arrives with none.
- Console logging, progress dots, counters and timestamps are not modelled. Warnings are kept as typed values without their message text.
- The `async`/`await` plumbing is not modelled. Each enricher is a sequential fold, which is how the source awaits them.
- The try/catch around the alias loop (src/XmlToMap.ts:157-189) is not modelled. Once a name has resolved to a string, nothing inside the loop can throw.
- The `Object.values` order is an input: any duplicate-free listing of the keys.
- Finalise.SortBy: `Array.prototype.sort` is modelled as a stable insertion sort.
  - Only the outcome is stated: a permutation, ascending when every code parses.
  - When a code is NaN the source's comparator is inconsistent and the engine's order is implementation-defined, so nothing is promised then.
- Hex.FormatKey: JavaScript numbers are modelled as unbounded integers. `parseInt` precision loss above 2^53 is not modelled.
- Emoji.ToHandle: Python's `lower()` is modelled as ASCII lower-casing. Python also maps U+212A KELVIN SIGN to "k" and U+0130 to "i" plus a combining dot, so a name holding those letters would gain letters in the source that the model drops.
- Text.AsciiLower: lower-cases ASCII letters only, where Python's `lower()` is full Unicode lower-casing; in the test-file key this only meets the characters `[A-F0-9 ]`, where the two agree.
- Emoji.PyInt16: Python's `int(s, 16)` is modelled for strings of hex digits and white space only. Signs, a "0x" prefix and underscores are left out because the data-file pattern admits only `[.A-F0-9 ]`.
- Text.Slice: offsets count Unicode scalar values, while JavaScript's `slice` counts UTF-16 code units. The two agree when the characters before the offsets are in the Basic Multilingual Plane; a line such as "\t*" followed by an astral character differs.
- Text.SliceFrom: offsets count scalar values, as for Text.Slice.
- IndexEnricher.Step: a code is looked up among the map's own keys. The source's map is a plain object literal, so `cpMap[code]` also finds inherited members such as `constructor` or `toString`; for such a code the source stays silent and pushes onto the inherited member, where the model warns that the code is not found. Inherited property names are out of scope.
- NamesList.Step: a header's code is looked up among the map's own keys, as for IndexEnricher.Step. A header such as `__proto__` selects the object prototype in the source, whose list fields every record without its own list would then share; the model selects nothing.
- NamesList.Parse: the type at offset 1 and the payload from offset 3 are taken in scalar values, as for Text.Slice; a line with an astral character in its first three positions would be read differently.
- Emoji.VisitNewEntry: `chr(int(cp, 16))` is kept as the code point number rather than the one-character string.
- The dead `if False:` blocks of `emoji.py` (lines 175-220 and 229-244), its commented-out lines, and the unused groups 2 and 3 of the test-file pattern are not modelled.
- `src/SaveJsonLines.ts` is not part of this model.

## Findings

| source | as written | input that shows it | evidently intended | confidence | as-written member | corrected member |
|---|---|---|---|---|---|---|
| src/XmlToMap.ts:196-204 | the simple-mapping branches test `suc`/`slc`/`stc` but store `ucp`/`lcp`/`tcp`, attributes the flattened repertoire does not define, so the stored list is `[undefined]` | an entry with `suc="0041"` and no `uc` (Repertoire.SimpleOnlyUppercase) | store the tested simple mapping `[suc]` (likewise `slc`, `stc`) | medium, not executed (a full mapping, when present, overrides the faulty value) | Repertoire.CaseVariantsAsWritten, Repertoire.SimpleCaseStoresUndefined, Repertoire.StoredCaseVariants | Repertoire.CaseVariants, Repertoire.FullMappingOverridesSimple |
| emoji.py:88 | the variation-selector test looks for `" FEOF"` with the letter O, which group 1 (`[A-F0-9 ]+`, emoji.py:50) can never contain, so `fully-qualified` is never set | a test line whose group 1 is `"263A FE0F"` | look for `" FE0F"` (digit zero), as line 73 does | high, not executed | Emoji.TestStepAsWritten, Emoji.AsWrittenNeverQualifies, Emoji.NeverQualified | Emoji.TestStep, Emoji.MergeTestQualifies |

=== FILE: diagnostics.dfy ===
/** The diagnostic channel: warnings the merge engine reports while it keeps
    going, and the two exceptions that escape the repertoire loop and end the
    run. */
module Diagnostics {
  import opened Wrappers

  datatype Warning =
    /** A repertoire entry with neither `cp` nor `first-cp`. */
    | EntryWithoutCodePoint
    /** The name was taken from the first name alias. */
    | NameFromAlias(cp: string, name: string)
    /** A name alias whose type is none of the five known ones. */
    | UnknownAliasType(cp: string, kind: string)
    /** A data line with fewer than two fields (line numbers start at 1). */
    | MalformedLine(lineNo: nat, line: string)
    /** An index line naming a codepoint absent from the map. */
    | IndexCodeNotFound(code: string)
    /** A names-list block header naming a codepoint absent from the map;
        the description is the header's second field, when there is one. */
    | NamesListCodeNotFound(code: string, description: Option<string>)
    /** A names-list annotation line of an unknown type. */
    | UnknownLineType(lineType: string, code: string)
    /** A script-extensions codepoint absent from the map. */
    | ScriptExtensionCodeNotFound(code: string)

  datatype Crash =
    /** `charData['name-alias'][0].alias` read through a single alias object
        or an empty alias array: a TypeError. */
    | AliasNotIndexable(cp: string)
    /** `name.endsWith('#')` with no name resolved: a TypeError. */
    | NameUndefined(cp: string)
}

=== FILE: emoji.dfy ===
/** The emoji table builder: the `to_hex` and `to_handle` helpers, the merge
    of the emoji test file (one entry per key, the first line wins), and the
    merge of the emoji data file (ranges expanded, properties and versions
    recorded). The table is an insertion-ordered dictionary. Regular
    expression matching is not modelled: each line comes with the groups the
    pattern matched, or None. */
module Emoji {
  import opened Wrappers
  import opened Text
  import opened Hex

  // ---------------------------------------------------------------- to_hex

  /** Python `"%x" % i` above 0xFFFF and `"%04x" % i` otherwise; for a
      negative `i` the width of four includes the minus sign. */
  function ToHex(i: int): (r: string)
    ensures i >= 0 ==> |r| >= 4 && AllHex(r) && ValueOf(r) == i
    ensures i >= 0 ==> forall j | 0 <= j < |r| :: IsLowerHexDigit(r[j])
    ensures 0 <= i <= 0xFFFF ==> |r| == 4
    ensures i > 0xFFFF ==> r[0] != '0'
    ensures i < 0 ==> |r| >= 4 && r[0] == '-'
  {
    FourDigitRange(if i >= 0 then i else -i);
    if i > 0xFFFF then HexLower(i)
    else if i >= 0 then
      var d := HexLower(i);
      ValueOfZeroPadding(4 - |d|, d);
      PadStart(d, 4, '0')
    else "-" + PadStart(HexLower(-i), 3, '0')
  }

  /** Python `int(s, 16)` on the characters the emoji-data pattern admits
      (hexadecimal digits, '.', ' '): surrounding white space is ignored and
      what remains must be a non-empty run of digits, or it is a ValueError
      (None). */
  function PyInt16(s: string): (r: Option<nat>)
    ensures r.Some? ==> |PyStrip(s)| >= 1 && AllHex(PyStrip(s)) && r.value == ValueOf(PyStrip(s))
    ensures r.None? <==> PyStrip(s) == [] || !AllHex(PyStrip(s))
  {
    var t := PyStrip(s);
    if |t| >= 1 && AllHex(t) then Some(ValueOf(t)) else None
  }

  /** Hexadecimal digits are not white space, so stripping leaves them. */
  lemma StripHex(s: string)
    requires AllHex(s)
    ensures PyStrip(s) == s
  {
    if s != [] {
      assert IsHexDigit(s[0]) && IsHexDigit(s[|s| - 1]);
      assert !IsPySpace(s[0]) && !IsPySpace(s[|s| - 1]);
    }
    StripNothing(s, IsPySpace);
  }

  /** `int(to_hex(i), 16) == i`: the helper's output reads back. */
  lemma ToHexRoundTrip(i: nat)
    ensures PyInt16(ToHex(i)) == Some(i)
  {
    StripHex(ToHex(i));
  }

  /** Distinct non-negative numbers get distinct strings. */
  lemma ToHexInjective(a: nat, b: nat)
    requires ToHex(a) == ToHex(b)
    ensures a == b
  {
    ToHexRoundTrip(a);
    ToHexRoundTrip(b);
  }

  // ---------------------------------------------------------------- to_handle

  predicate IsLetter(c: char) {
    'a' <= c <= 'z'
  }

  predicate HandleChar(c: char) {
    IsLetter(c) || c == '_'
  }

  /** No two underscores in a row. */
  predicate NoDoubleUnderscore(s: string) {
    forall i, j {:trigger s[i], s[j]} | 0 <= i < |s| && 0 <= j < |s| && j == i + 1 :: !(s[i] == '_' && s[j] == '_')
  }

  /** What `to_handle` promises of its result. */
  predicate IsHandle(h: string) {
    && (forall i | 0 <= i < |h| :: HandleChar(h[i]))
    && NoDoubleUnderscore(h)
    && (h == [] || (h[0] != '_' && h[|h| - 1] != '_'))
  }

  /** The letters a–z of `s`, in order. */
  function Letters(s: string): string
    decreases |s|
  {
    if s == [] then [] else (if IsLetter(s[0]) then [s[0]] else []) + Letters(s[1..])
  }

  lemma {:induction false} LettersAppend(a: string, b: string)
    ensures Letters(a + b) == Letters(a) + Letters(b)
    decreases |a|
  {
    if a != [] {
      assert (a + b)[1..] == a[1..] + b;
      LettersAppend(a[1..], b);
    } else {
      assert a + b == b;
    }
  }

  /** `re.sub('[^a-z]+', '_', s)`: each maximal run of characters other than
      a–z becomes one '_'. `inRun` says the character before `s` already
      opened a run. */
  function Squash(s: string, inRun: bool): (r: string)
    ensures forall i | 0 <= i < |r| :: HandleChar(r[i])
    ensures NoDoubleUnderscore(r)
    ensures inRun ==> r == [] || IsLetter(r[0])
    ensures s != [] && !inRun ==> r != [] && (r[0] == '_' <==> !IsLetter(s[0]))
    ensures Letters(r) == Letters(s)
    decreases |s|
  {
    if s == [] then []
    else if IsLetter(s[0]) then [s[0]] + Squash(s[1..], false)
    else if inRun then Squash(s[1..], true)
    else "_" + Squash(s[1..], true)
  }

  /** Letters and single underscores only. */
  predicate Squashed(s: string) {
    (forall i | 0 <= i < |s| :: HandleChar(s[i])) && NoDoubleUnderscore(s)
  }

  /** A squashed string stays squashed when cut down to a slice. */
  lemma SquashedSlice(s: string, a: nat, b: nat)
    requires Squashed(s) && a <= b <= |s|
    ensures Squashed(s[a..b])
  {
    var t := s[a..b];
    forall i, j | 0 <= i < |t| && 0 <= j < |t| && j == i + 1
      ensures !(t[i] == '_' && t[j] == '_')
    {
      assert t[i] == s[a + i] && t[j] == s[a + j];
    }
  }

  /** Dropping leading underscores keeps the letters. */
  lemma {:induction false} DropLeadingLetters(s: string)
    ensures Letters(DropLeading(s, Is('_'))) == Letters(s)
    decreases |s|
  {
    if s != [] && Is('_')(s[0]) {
      DropLeadingLetters(s[1..]);
    }
  }

  /** Dropping trailing underscores keeps the letters. */
  lemma {:induction false} DropTrailingLetters(s: string)
    ensures Letters(DropTrailing(s, Is('_'))) == Letters(s)
    decreases |s|
  {
    if s != [] && Is('_')(s[|s| - 1]) {
      var init := s[..|s| - 1];
      DropTrailingLetters(init);
      assert s == init + [s[|s| - 1]];
      LettersAppend(init, [s[|s| - 1]]);
    }
  }

  /** Python `s.strip('_')` of a squashed string is a handle with the same
      letters. */
  lemma StripUnderscore(s: string)
    requires Squashed(s)
    ensures IsHandle(StripChar(s, '_'))
    ensures Letters(StripChar(s, '_')) == Letters(s)
  {
    StripUnderscoreShape(s);
    DropLeadingLetters(s);
    DropTrailingLetters(DropLeading(s, Is('_')));
  }

  /** Stripping the underscores of a squashed string leaves a handle. */
  lemma StripUnderscoreShape(s: string)
    requires Squashed(s)
    ensures IsHandle(StripChar(s, '_'))
  {
    var d := DropLeading(s, Is('_'));
    var r := DropTrailing(d, Is('_'));
    assert Squashed(d) by {
      SquashedSlice(s, |s| - |d|, |s|);
    }
    assert Squashed(r) by {
      SquashedSlice(d, 0, |r|);
    }
    assert r == [] || (r[0] != '_' && r[|r| - 1] != '_') by {
      if r != [] {
        assert r[0] == d[0];
      }
    }
    SquashedHandle(r);
  }

  /** A squashed string that neither starts nor ends with '_' is a handle. */
  lemma SquashedHandle(r: string)
    requires Squashed(r)
    requires r == [] || (r[0] != '_' && r[|r| - 1] != '_')
    ensures IsHandle(r)
  {
  }

  /** `to_handle(s)`: strip, lower-case, squash every run of non-letters
      into '_', strip underscores. */
  function ToHandle(s: string): (r: string)
    ensures IsHandle(r)
    ensures Letters(r) == Letters(AsciiLower(PyStrip(s)))
  {
    var q := Squash(AsciiLower(PyStrip(s)), false);
    StripUnderscore(q);
    StripChar(q, '_')
  }

  /** Squashing a string that already has only letters and single
      underscores changes nothing. */
  lemma {:induction false} SquashIdentity(h: string, inRun: bool)
    requires forall i | 0 <= i < |h| :: HandleChar(h[i])
    requires NoDoubleUnderscore(h)
    requires inRun ==> h == [] || h[0] != '_'
    ensures Squash(h, inRun) == h
    decreases |h|
  {
    if h != [] {
      SquashIdentity(h[1..], !IsLetter(h[0]));
      assert h == [h[0]] + h[1..];
    }
  }

  /** A handle is its own handle, so `to_handle` is idempotent. */
  lemma HandleFixedPoint(h: string)
    requires IsHandle(h)
    ensures ToHandle(h) == h
  {
    StripHandle(h);
    assert AsciiLower(h) == h;
    SquashIdentity(h, false);
    var p := Is('_');
    assert DropLeading(h, p) == h;
    assert DropTrailing(h, p) == h;
  }

  /** A handle has no white space to strip. */
  lemma StripHandle(h: string)
    requires forall i | 0 <= i < |h| :: HandleChar(h[i])
    ensures PyStrip(h) == h
  {
    if h != [] {
      assert HandleChar(h[0]) && HandleChar(h[|h| - 1]);
      assert !IsPySpace(h[0]) && !IsPySpace(h[|h| - 1]);
    }
    StripNothing(h, IsPySpace);
  }

  lemma HandleIdempotent(s: string)
    ensures ToHandle(ToHandle(s)) == ToHandle(s)
  {
    HandleFixedPoint(ToHandle(s));
  }

  // ---------------------------------------------------------------- words

  /** The words of `s` after an open run `cur`: the maximal runs of letters
      a–z, in order, the first of them continuing `cur`. */
  function WordsFrom(s: string, cur: string): (r: seq<string>)
    ensures forall i | 0 <= i < |r| :: r[i] != []
    decreases |s|
  {
    if s == [] then (if cur == [] then [] else [cur])
    else if IsLetter(s[0]) then WordsFrom(s[1..], cur + [s[0]])
    else (if cur == [] then [] else [cur]) + WordsFrom(s[1..], [])
  }

  /** The maximal runs of letters a–z of `s`, in order. */
  function Words(s: string): seq<string> {
    WordsFrom(s, [])
  }

  /** Squashing keeps the words: it only shortens or drops the runs between
      them. */
  lemma {:induction false} SquashWords(s: string, inRun: bool, cur: string)
    requires inRun ==> cur == []
    ensures WordsFrom(Squash(s, inRun), cur) == WordsFrom(s, cur)
    decreases |s|
  {
    if s != [] {
      var q := Squash(s, inRun);
      if IsLetter(s[0]) {
        assert q[1..] == Squash(s[1..], false);
        SquashWords(s[1..], false, cur + [s[0]]);
      } else if inRun {
        SquashWords(s[1..], true, []);
      } else {
        assert q[1..] == Squash(s[1..], true);
        SquashWords(s[1..], true, []);
      }
    }
  }

  /** Leading underscores carry no word. */
  lemma {:induction false} DropLeadingWords(s: string)
    ensures Words(DropLeading(s, Is('_'))) == Words(s)
    decreases |s|
  {
    if s != [] && Is('_')(s[0]) {
      DropLeadingWords(s[1..]);
    }
  }

  /** A trailing non-letter closes the last run and adds no word. */
  lemma {:induction false} TrailingSeparatorWords(s: string, c: char, cur: string)
    requires !IsLetter(c)
    ensures WordsFrom(s + [c], cur) == WordsFrom(s, cur)
    decreases |s|
  {
    if s == [] {
      assert s + [c] == [c];
    } else {
      assert (s + [c])[1..] == s[1..] + [c];
      TrailingSeparatorWords(s[1..], c, if IsLetter(s[0]) then cur + [s[0]] else []);
    }
  }

  /** Trailing underscores carry no word. */
  lemma {:induction false} DropTrailingWords(s: string)
    ensures Words(DropTrailing(s, Is('_'))) == Words(s)
    decreases |s|
  {
    if s != [] && Is('_')(s[|s| - 1]) {
      var init := s[..|s| - 1];
      DropTrailingWords(init);
      assert s == init + ['_'];
      TrailingSeparatorWords(init, '_', []);
    }
  }

  /** Letters and single underscores, not ending in '_', after an open run
      `cur` (or not starting with '_' when no run is open): the words joined
      with '_' give back `cur` followed by the string. */
  lemma {:induction false} JoinWordsFrom(h: string, cur: string)
    requires Squashed(h)
    requires h == [] || h[|h| - 1] != '_'
    requires cur == [] ==> h == [] || h[0] != '_'
    ensures Join(WordsFrom(h, cur), "_") == cur + h
    decreases |h|
  {
    if h != [] {
      var t := h[1..];
      SquashedSlice(h, 1, |h|);
      if IsLetter(h[0]) {
        JoinWordsFrom(t, cur + [h[0]]);
        assert cur + [h[0]] + t == cur + h;
      } else {
        assert h[0] == '_' && cur != [] && |h| >= 2;
        assert t[0] == h[1] != '_';
        JoinWordsFrom(t, []);
        var w := WordsFrom(t, []);
        assert w != [];
        assert WordsFrom(h, cur) == [cur] + w;
        assert ([cur] + w)[1..] == w;
        assert Join([cur] + w, "_") == cur + "_" + Join(w, "_");
        assert h == "_" + t;
      }
    }
  }

  /** A handle is its words joined with '_'. */
  lemma HandleIsJoinedWords(h: string)
    requires IsHandle(h)
    ensures Join(Words(h), "_") == h
  {
    JoinWordsFrom(h, []);
  }

  /** `to_handle(s)` is the words of `s`, stripped and lower-cased, joined
      with one '_' between each two. */
  lemma ToHandleWords(s: string)
    ensures ToHandle(s) == Join(Words(AsciiLower(PyStrip(s))), "_")
  {
    var x := AsciiLower(PyStrip(s));
    var q := Squash(x, false);
    SquashWords(x, false, []);
    DropLeadingWords(q);
    DropTrailingWords(DropLeading(q, Is('_')));
    HandleIsJoinedWords(ToHandle(s));
  }

  // ---------------------------------------------------------------- the table

  /** One emoji; each optional field is a dictionary key that may be
      absent. `property` maps names to True, so it is kept as its keys in
      the order they were first set, which is the order JSON writes them. */
  datatype EmojiEntry = EmojiEntry(
    codepoints: string,
    version: Option<string>,
    names: Option<seq<string>>,
    handles: Option<seq<string>>,
    fullyQualified: Option<string>,
    chars: Option<nat>,
    status: Option<string>,
    property: Option<seq<string>>)

  /** The insertion-ordered dictionary: its entries, and its keys in the
      order they were first inserted. */
  datatype Table = Table(entries: map<string, EmojiEntry>, order: seq<string>)

  /** `order` lists every key exactly once. */
  predicate Ordered(t: Table) {
    && (forall i | 0 <= i < |t.order| :: t.order[i] in t.entries)
    && (forall k | k in t.entries :: k in t.order)
    && (forall i, j | 0 <= i < j < |t.order| :: t.order[i] != t.order[j])
  }

  const EmptyTable: Table := Table(map[], [])

  /** Inserting a new key at the end keeps the order a listing. */
  lemma AppendOrdered(t: Table, k: string, e: EmojiEntry)
    ensures Ordered(t) && k !in t.entries ==> Ordered(Table(t.entries[k := e], t.order + [k]))
  {
    if Ordered(t) && k !in t.entries {
      var r := Table(t.entries[k := e], t.order + [k]);
      assert forall i | 0 <= i < |t.order| :: r.order[i] == t.order[i];
    }
  }

  /** Replacing the entry of a present key keeps the order a listing. */
  lemma UpdateOrdered(t: Table, k: string, e: EmojiEntry)
    ensures Ordered(t) && k in t.entries ==> Ordered(Table(t.entries[k := e], t.order))
  {
  }

  /** Every field but `fullyQualified` agrees. */
  predicate SameData(a: EmojiEntry, b: EmojiEntry) {
    a.(fullyQualified := None) == b.(fullyQualified := None)
  }

  // ---------------------------------------------------------------- the test file

  /** Groups 1, 4 and 5 of a matched test-file line: the codepoints, the
      version after 'E', and the name. */
  datatype TestGroups = TestGroups(codes: string, version: string, name: string)

  /** The characters group 1 of the test-file pattern admits. */
  predicate TestCodesChars(codes: string) {
    forall i | 0 <= i < |codes| :: 'A' <= codes[i] <= 'F' || '0' <= codes[i] <= '9' || codes[i] == ' '
  }

  /** The stored codepoints: group 1 without " FE0F", stripped, lower-cased. */
  function TestCodepoints(codes: string): string {
    AsciiLower(PyStrip(Replace(codes, " FE0F", "")))
  }

  /** `replace(' ', '_')`: no space is left, and only spaces changed, so
      reading '_' and ' ' alike the result is its input. */
  function Underscored(x: string): (r: string)
    ensures |r| == |x|
    ensures forall i | 0 <= i < |r| :: r[i] != ' '
    ensures ReplaceChar(r, '_', ' ') == ReplaceChar(x, '_', ' ')
  {
    ReplaceChar(x, ' ', '_')
  }

  /** The dictionary key: the stored codepoints with spaces turned into '_'. */
  function TestKey(codes: string): string {
    Underscored(TestCodepoints(codes))
  }

  /** The entry the first line for a key creates. */
  function NewTestEntry(g: TestGroups): EmojiEntry {
    EmojiEntry(TestCodepoints(g.codes), Some(g.version), Some([g.name]), Some([ToHandle(g.name)]),
               None, None, None, None)
  }

  /** The marker the source looks for (letter O) and the one it means
      (digit 0). */
  const AsWrittenMarker: string := " FEOF"
  const IntendedMarker: string := " FE0F"

  /** Insert-if-absent, then optionally set `fully-qualified`: the entry
      for `key` is `created` appended at the end of the order when the key is
      new, and is otherwise left as it was, except that `qualified`, when
      present, becomes its `fully-qualified`. */
  function Upsert(t: Table, key: string, created: EmojiEntry, qualified: Option<string>): (r: Table)
    ensures r.entries.Keys == t.entries.Keys + {key}
    ensures r.order == if key in t.entries then t.order else t.order + [key]
    ensures Ordered(t) ==> Ordered(r)
    ensures forall k | k in t.entries && k != key :: r.entries[k] == t.entries[k]
    ensures SameData(r.entries[key], if key in t.entries then t.entries[key] else created)
    ensures r.entries[key].fullyQualified ==
      if qualified.Some? then qualified else if key in t.entries then t.entries[key].fullyQualified else created.fullyQualified
  {
    AppendOrdered(t, key, created);
    var t1 := if key in t.entries then t else Table(t.entries[key := created], t.order + [key]);
    if qualified.Some? then
      var e := t1.entries[key].(fullyQualified := qualified);
      UpdateOrdered(t1, key, e);
      Table(t1.entries[key := e], t1.order)
    else t1
  }

  /** One matched test-file line, for a given variation-selector marker:
      the first line for a key creates its entry at the end of the order;
      a later line finds it and changes nothing but, when group 1 holds the
      marker, `fully-qualified`. */
  function MergeTest(t: Table, g: TestGroups, marker: string): (r: Table)
    ensures r.entries.Keys == t.entries.Keys + {TestKey(g.codes)}
    ensures r.order == if TestKey(g.codes) in t.entries then t.order else t.order + [TestKey(g.codes)]
    ensures Ordered(t) ==> Ordered(r)
    ensures forall k | k in t.entries && k != TestKey(g.codes) :: r.entries[k] == t.entries[k]
  {
    Upsert(t, TestKey(g.codes), NewTestEntry(g),
           if Contains(g.codes, marker) then Some(ReplaceChar(AsciiLower(PyStrip(g.codes)), ' ', '_')) else None)
  }

  /** The first line for a key wins: a later line leaves every field but
      `fully-qualified` as it was, and a first line stores its own groups. */
  lemma MergeTestFirstWins(t: Table, g: TestGroups, marker: string)
    ensures var key := TestKey(g.codes); var r := MergeTest(t, g, marker);
      SameData(r.entries[key], if key in t.entries then t.entries[key] else NewTestEntry(g))
  {
  }

  /** `fully-qualified` is set, to group 1 stripped, lower-cased and with
      '_' for spaces, exactly when group 1 holds the marker; otherwise it
      keeps what the entry had. */
  lemma MergeTestQualifies(t: Table, g: TestGroups, marker: string)
    ensures var key := TestKey(g.codes);
      MergeTest(t, g, marker).entries[key].fullyQualified ==
        if Contains(g.codes, marker) then Some(ReplaceChar(AsciiLower(PyStrip(g.codes)), ' ', '_'))
        else if key in t.entries then t.entries[key].fullyQualified
        else None
  {
  }

  /** The test-file merge as written: it looks for " FEOF". */
  function TestStepAsWritten(t: Table, g: TestGroups): Table {
    MergeTest(t, g, AsWrittenMarker)
  }

  /** The test-file merge as intended: it looks for " FE0F". */
  function TestStep(t: Table, g: TestGroups): Table {
    MergeTest(t, g, IntendedMarker)
  }

  /** " FEOF" holds the letter O, which group 1 cannot contain. */
  lemma NoLetterOMarker(codes: string)
    requires TestCodesChars(codes)
    ensures !Contains(codes, AsWrittenMarker)
  {
    forall j ensures !OccursAt(codes, AsWrittenMarker, j) {
      if 0 <= j && j + |AsWrittenMarker| <= |codes| {
        assert codes[j..j + |AsWrittenMarker|][3] == codes[j + 3];
        assert AsWrittenMarker[3] == 'O';
        assert 0 <= j + 3 < |codes|;
      }
    }
    ContainsIff(codes, AsWrittenMarker);
  }

  /** As written, the test file never sets `fully-qualified`: every entry
      keeps the value it had, and a new one has none. */
  lemma AsWrittenNeverQualifies(t: Table, g: TestGroups)
    requires TestCodesChars(g.codes)
    ensures var r := TestStepAsWritten(t, g);
      forall k | k in r.entries :: r.entries[k].fullyQualified ==
        if k in t.entries then t.entries[k].fullyQualified else None
  {
    NoLetterOMarker(g.codes);
    MergeTestQualifies(t, g, AsWrittenMarker);
  }

  /** A line that is blank or a comment once stripped. */
  predicate Ignored(raw: string) {
    var line := PyStrip(raw);
    |line| == 0 || line[0] == '#'
  }

  /** A test-file line: blank and comment lines (after stripping) and lines
      the pattern does not match change nothing. */
  function TestLine(t: Table, raw: string, groups: Option<TestGroups>): Table {
    if Ignored(raw) then t
    else match groups
      case None => t
      case Some(g) => TestStepAsWritten(t, g)
  }

  /** The whole test file, each line with the pattern's groups if it
      matched. */
  function TestFile(t: Table, lines: seq<(string, Option<TestGroups>)>): Table
    decreases |lines|
  {
    if lines == [] then t else TestFile(TestLine(t, lines[0].0, lines[0].1), lines[1..])
  }

  /** One line of the test file: keys are only added, the order is only
      extended, every entry keeps all but `fully-qualified`, and the order
      stays a listing. */
  lemma TestLineFirstWins(t: Table, raw: string, groups: Option<TestGroups>)
    ensures var r := TestLine(t, raw, groups);
      && t.entries.Keys <= r.entries.Keys
      && (forall k | k in t.entries :: SameData(r.entries[k], t.entries[k]))
      && |t.order| <= |r.order| && r.order[..|t.order|] == t.order
      && (Ordered(t) ==> Ordered(r))
  {
    TestLineCases(t, raw, groups);
    if !Ignored(raw) && groups.Some? {
      MergeTestKeeps(t, groups.value, AsWrittenMarker);
    }
  }

  /** A line is skipped, or merged as written. */
  lemma TestLineCases(t: Table, raw: string, groups: Option<TestGroups>)
    ensures TestLine(t, raw, groups) ==
      if Ignored(raw) || groups.None? then t else MergeTest(t, groups.value, AsWrittenMarker)
  {
  }

  /** One merged line only adds keys, only extends the order, and keeps all
      but `fully-qualified` of every entry. */
  lemma MergeTestKeeps(t: Table, g: TestGroups, marker: string)
    ensures var r := MergeTest(t, g, marker);
      && t.entries.Keys <= r.entries.Keys
      && (forall k | k in t.entries :: SameData(r.entries[k], t.entries[k]))
      && |t.order| <= |r.order| && r.order[..|t.order|] == t.order
      && (Ordered(t) ==> Ordered(r))
  {
    var key := TestKey(g.codes);
    var r := MergeTest(t, g, marker);
    MergeTestFirstWins(t, g, marker);
    if key !in t.entries {
      assert r.order[..|t.order|] == t.order;
    }
    forall k | k in t.entries
      ensures SameData(r.entries[k], t.entries[k])
    {
      if k != key {
        assert r.entries[k] == t.entries[k];
      }
    }
  }

  /** `r` keeps the keys and the first data of `t` and extends its order,
      and is a listing when `t` is. */
  predicate FirstWins(t: Table, r: Table) {
    && t.entries.Keys <= r.entries.Keys
    && (forall k | k in t.entries :: SameData(r.entries[k], t.entries[k]))
    && |t.order| <= |r.order| && r.order[..|t.order|] == t.order
    && (Ordered(t) ==> Ordered(r))
  }

  lemma FirstWinsTransitive(a: Table, b: Table, c: Table)
    requires FirstWins(a, b) && FirstWins(b, c)
    ensures FirstWins(a, c)
  {
    assert c.order[..|b.order|][..|a.order|] == a.order;
  }

  /** The first line for a key wins: whatever follows, an entry keeps its
      codepoints, version, names and handles, keys are only added, the
      order is only extended, and it stays a listing. */
  lemma {:induction false} TestFileFirstWins(t: Table, lines: seq<(string, Option<TestGroups>)>)
    ensures var r := TestFile(t, lines);
      && t.entries.Keys <= r.entries.Keys
      && (forall k | k in t.entries :: SameData(r.entries[k], t.entries[k]))
      && |t.order| <= |r.order| && r.order[..|t.order|] == t.order
      && (Ordered(t) ==> Ordered(r))
    decreases |lines|
  {
    if lines != [] {
      var t1 := TestLine(t, lines[0].0, lines[0].1);
      TestLineFirstWins(t, lines[0].0, lines[0].1);
      TestFileFirstWins(t1, lines[1..]);
      var r := TestFile(t, lines);
      assert r == TestFile(t1, lines[1..]);
      assert FirstWins(t, t1);
      assert FirstWins(t1, r);
      FirstWinsTransitive(t, t1, r);
    }
  }

  /** Every matched line's group 1 is drawn from the pattern's characters. */
  predicate TestLinesMatch(lines: seq<(string, Option<TestGroups>)>) {
    forall i | 0 <= i < |lines| && lines[i].1.Some? :: TestCodesChars(lines[i].1.value.codes)
  }

  /** As written, no line of the test file sets `fully-qualified`: every
      entry keeps the value it had, and an entry the file creates has
      none. */
  lemma {:induction false} TestFileNeverQualifies(t: Table, lines: seq<(string, Option<TestGroups>)>)
    requires TestLinesMatch(lines)
    ensures var r := TestFile(t, lines);
      forall k | k in r.entries :: r.entries[k].fullyQualified ==
        if k in t.entries then t.entries[k].fullyQualified else None
    decreases |lines|
  {
    if lines != [] {
      var t1 := TestLine(t, lines[0].0, lines[0].1);
      TestLineNeverQualifies(t, lines[0].0, lines[0].1);
      assert TestLinesMatch(lines[1..]) by {
        forall i | 0 <= i < |lines[1..]| && lines[1..][i].1.Some?
          ensures TestCodesChars(lines[1..][i].1.value.codes)
        {
          assert lines[1..][i] == lines[i + 1];
        }
      }
      TestFileNeverQualifies(t1, lines[1..]);
      TestLineFirstWins(t, lines[0].0, lines[0].1);
      assert TestFile(t, lines) == TestFile(t1, lines[1..]);
    }
  }

  /** One test-file line as written leaves every `fully-qualified` as it was
      and gives a new entry none. */
  lemma TestLineNeverQualifies(t: Table, raw: string, groups: Option<TestGroups>)
    requires groups.Some? ==> TestCodesChars(groups.value.codes)
    ensures var r := TestLine(t, raw, groups);
      forall k | k in r.entries :: r.entries[k].fullyQualified ==
        if k in t.entries then t.entries[k].fullyQualified else None
  {
    TestLineCases(t, raw, groups);
    if !Ignored(raw) && groups.Some? {
      AsWrittenNeverQualifies(t, groups.value);
    }
  }

  // ---------------------------------------------------------------- the data file

  /** Groups 1, 2 and 3 of a matched data-file line: the codepoint or
      range, the property name, and the version. */
  datatype DataGroups = DataGroups(codes: string, property: string, version: string)

  /** The two ways the data merge raises: `int(x, 16)` of a string that is
      not hexadecimal, and `chr` of a number beyond U+10FFFF. */
  datatype EmojiError = NotHex(text: string) | NotACodepoint(value: int)

  function ParseHex(s: string): (r: Result<nat, EmojiError>)
    ensures r.Success? <==> PyInt16(s).Some?
    ensures r.Success? ==> r.value == PyInt16(s).value
  {
    match PyInt16(s)
    case None => Failure(NotHex(s))
    case Some(n) => Success(n)
  }

  /** `[to_hex(i) for i in range(lo, hi + 1)]`. */
  function ExpandRange(lo: int, hi: int): (r: seq<string>)
    ensures |r| == if lo <= hi then hi - lo + 1 else 0
  {
    seq(if lo <= hi then hi - lo + 1 else 0, j => ToHex(lo + j))
  }

  /** The codepoints a line names: the lower-cased field when it has no
      "..", else every number of the range, through `to_hex`. Either bound
      that is not hexadecimal raises. */
  function DataCodepoints(codes: string): (r: Result<seq<string>, EmojiError>)
    ensures !Contains(PyStrip(codes), "..") ==> r == Success([AsciiLower(PyStrip(codes))])
    ensures Contains(PyStrip(codes), "..") ==>
      (r.Success? <==> PyInt16(Split(PyStrip(codes), "..")[0]).Some? && PyInt16(Split(PyStrip(codes), "..")[1]).Some?)
  {
    var str := PyStrip(codes);
    if !Contains(str, "..") then Success([AsciiLower(str)])
    else
      var parts := Split(str, "..");
      SplitSingleIff(str, "..");
      var lo :- ParseHex(parts[0]);
      var hi :- ParseHex(parts[1]);
      Success(ExpandRange(lo, hi))
  }

  /** The j-th codepoint of a range is `to_hex(lo + j)`. */
  lemma ExpandRangeAt(lo: int, hi: int, j: int)
    requires 0 <= j < |ExpandRange(lo, hi)|
    ensures ExpandRange(lo, hi)[j] == ToHex(lo + j)
  {
  }

  /** Every number of a range, ascending, each once: the i-th codepoint
      reads back as `lo + i`. */
  lemma RangeReadsBack(lo: nat, hi: int)
    ensures forall j | 0 <= j < |ExpandRange(lo, hi)| :: PyInt16(ExpandRange(lo, hi)[j]) == Some(lo + j)
  {
    var e := ExpandRange(lo, hi);
    forall j | 0 <= j < |e|
      ensures PyInt16(e[j]) == Some(lo + j)
    {
      assert e[j] == ToHex(lo + j);
      ToHexRoundTrip(lo + j);
    }
  }

  /** No codepoint of a range repeats. */
  lemma RangeDistinct(lo: nat, hi: int)
    ensures forall i, j | 0 <= i < j < |ExpandRange(lo, hi)| :: ExpandRange(lo, hi)[i] != ExpandRange(lo, hi)[j]
  {
    var e := ExpandRange(lo, hi);
    RangeReadsBack(lo, hi);
    forall i, j | 0 <= i < j < |e|
      ensures e[i] != e[j]
    {
      assert PyInt16(e[i]) == Some(lo + i) && PyInt16(e[j]) == Some(lo + j);
    }
  }

  /** No name is listed twice. */
  predicate Distinct(s: seq<string>) {
    forall i, j | 0 <= i < j < |s| :: s[i] != s[j]
  }

  /** `d[name] = True` on a dictionary kept as its keys: a new name goes at
      the end, a present one keeps its place. */
  function AddName(names: seq<string>, name: string): (r: seq<string>)
    ensures forall x :: x in r <==> x in names || x == name
    ensures names <= r
    ensures Distinct(names) ==> Distinct(r)
  {
    if name in names then names else names + [name]
  }

  /** A hit records the property, after the ones the entry already has,
      and overwrites the version; every other field is kept. */
  function Mark(e: EmojiEntry, prop: string, version: string): (r: EmojiEntry)
    ensures Marked(r, prop, version)
    ensures r.property.Some? && e.property.GetOr([]) <= r.property.value
    ensures forall x :: x in r.property.value <==> x in e.property.GetOr([]) || x == prop
    ensures r.(property := e.property, version := e.version) == e
  {
    e.(property := Some(AddName(e.property.GetOr([]), prop)), version := Some(version))
  }

  predicate Marked(e: EmojiEntry, prop: string, version: string) {
    e.property.Some? && prop in e.property.value && e.version == Some(version)
  }

  /** `chr(int(codepoint, 16))` succeeds. */
  predicate ChrOk(cp: string) {
    PyInt16(cp).Some? && PyInt16(cp).value <= 0x10FFFF
  }

  /** The entry an unseen codepoint gets. */
  function NewDataEntry(cp: string, n: nat): EmojiEntry {
    EmojiEntry(cp, None, None, None, None, Some(n), Some("component-only"), None)
  }

  /** One codepoint of a data line. A known key is marked; an unseen one
      gets a "component-only" entry holding its character, at the end of
      the order, and is marked; an unseen one whose character does not
      exist raises. */
  function Visit(t: Table, cp: string, prop: string, version: string): (r: Result<Table, EmojiError>)
    ensures r.Success? <==> cp in t.entries || ChrOk(cp)
    ensures r.Success? ==> r.value.entries.Keys == t.entries.Keys + {cp}
    ensures r.Success? ==> r.value.order == if cp in t.entries then t.order else t.order + [cp]
  {
    if cp in t.entries then Success(Table(t.entries[cp := Mark(t.entries[cp], prop, version)], t.order))
    else
      var n :- ParseHex(cp);
      if n > 0x10FFFF then Failure(NotACodepoint(n))
      else Success(Table(t.entries[cp := Mark(NewDataEntry(cp, n), prop, version)], t.order + [cp]))
  }

  /** A successful visit marks its codepoint's entry and changes no other. */
  lemma VisitMarks(t: Table, cp: string, prop: string, version: string)
    requires Visit(t, cp, prop, version).Success?
    ensures Marked(Visit(t, cp, prop, version).value.entries[cp], prop, version)
    ensures forall k | k in t.entries && k != cp :: Visit(t, cp, prop, version).value.entries[k] == t.entries[k]
    ensures cp in t.entries ==> Visit(t, cp, prop, version).value.entries[cp] == Mark(t.entries[cp], prop, version)
    ensures cp !in t.entries ==> Visit(t, cp, prop, version).value.entries[cp] == Mark(NewDataEntry(cp, PyInt16(cp).value), prop, version)
  {
    VisitResult(t, cp, prop, version);
  }

  /** The table a successful visit gives. */
  lemma VisitResult(t: Table, cp: string, prop: string, version: string)
    requires Visit(t, cp, prop, version).Success?
    ensures cp in t.entries ==>
      Visit(t, cp, prop, version).value == Table(t.entries[cp := Mark(t.entries[cp], prop, version)], t.order)
    ensures cp !in t.entries ==>
      Visit(t, cp, prop, version).value ==
        Table(t.entries[cp := Mark(NewDataEntry(cp, PyInt16(cp).value), prop, version)], t.order + [cp])
  {
    if cp in t.entries {
      assert Visit(t, cp, prop, version) == Success(Table(t.entries[cp := Mark(t.entries[cp], prop, version)], t.order));
    } else {
      var n := PyInt16(cp).value;
      assert Visit(t, cp, prop, version) == Success(Table(t.entries[cp := Mark(NewDataEntry(cp, n), prop, version)], t.order + [cp]));
    }
  }

  /** An unseen codepoint's entry is "component-only", holds the character
      the codepoint reads as, and is marked. */
  lemma VisitNewEntry(t: Table, cp: string, prop: string, version: string)
    requires cp !in t.entries && Visit(t, cp, prop, version).Success?
    ensures var e := Visit(t, cp, prop, version).value.entries[cp];
      e == Mark(NewDataEntry(cp, PyInt16(cp).value), prop, version) && PyInt16(cp).value <= 0x10FFFF
  {
  }

  /** A visit keeps the order a listing. */
  lemma VisitKeepsOrdered(t: Table, cp: string, prop: string, version: string)
    ensures Visit(t, cp, prop, version).Success? && Ordered(t) ==> Ordered(Visit(t, cp, prop, version).value)
  {
  }

  /** A codepoint a visit accepts: a known key, or one that names a
      character. */
  predicate Visitable(t: Table, cp: string) {
    cp in t.entries || ChrOk(cp)
  }

  /** After a successful visit, the same codepoints are acceptable as
      before. */
  lemma VisitableAfter(t: Table, cp: string, prop: string, version: string)
    requires Visit(t, cp, prop, version).Success?
    ensures forall c :: Visitable(Visit(t, cp, prop, version).value, c) <==> Visitable(t, c)
  {
  }

  /** Every codepoint of a line, in order; the first failure raises. */
  function VisitAll(t: Table, cps: seq<string>, prop: string, version: string): (r: Result<Table, EmojiError>)
    ensures r.Success? ==> t.entries.Keys <= r.value.entries.Keys
    ensures r.Success? && Ordered(t) ==> Ordered(r.value)
    decreases |cps|
  {
    if cps == [] then Success(t)
    else
      var t1 :- Visit(t, cps[0], prop, version);
      VisitKeepsOrdered(t, cps[0], prop, version);
      VisitAll(t1, cps[1..], prop, version)
  }

  /** A non-empty line fails when its first visit fails, and otherwise is
      the rest of the line from the visited table. */
  lemma VisitAllStep(t: Table, cps: seq<string>, prop: string, version: string)
    requires cps != []
    ensures Visit(t, cps[0], prop, version).Failure? ==> VisitAll(t, cps, prop, version).Failure?
    ensures Visit(t, cps[0], prop, version).Success? ==>
      VisitAll(t, cps, prop, version) == VisitAll(Visit(t, cps[0], prop, version).value, cps[1..], prop, version)
  {
  }

  /** After a successful line every codepoint it names is a key marked with
      the line's property and version. */
  lemma {:induction false} VisitAllMarks(t: Table, cps: seq<string>, prop: string, version: string)
    requires VisitAll(t, cps, prop, version).Success?
    ensures forall i | 0 <= i < |cps| :: cps[i] in VisitAll(t, cps, prop, version).value.entries
    ensures forall i | 0 <= i < |cps| :: Marked(VisitAll(t, cps, prop, version).value.entries[cps[i]], prop, version)
    decreases |cps|
  {
    if cps != [] {
      VisitAllStep(t, cps, prop, version);
      var t1 := Visit(t, cps[0], prop, version).value;
      var r := VisitAll(t1, cps[1..], prop, version).value;
      assert VisitAll(t, cps, prop, version).value == r;
      VisitAllMarks(t1, cps[1..], prop, version);
      forall i | 0 <= i < |cps|
        ensures cps[i] in r.entries && Marked(r.entries[cps[i]], prop, version)
      {
        if i > 0 {
          assert cps[i] == cps[1..][i - 1];
        } else if cps[0] in cps[1..] {
          var j :| 0 <= j < |cps[1..]| && cps[1..][j] == cps[0];
          assert cps[0] in r.entries && Marked(r.entries[cps[1..][j]], prop, version);
        } else {
          VisitMarksOwn(t, cps[0], prop, version);
          VisitAllKeepsKey(t1, cps[1..], prop, version, cps[0]);
        }
      }
    }
  }

  /** A successful visit leaves its own key marked. */
  lemma VisitMarksOwn(t: Table, cp: string, prop: string, version: string)
    requires Visit(t, cp, prop, version).Success?
    ensures cp in Visit(t, cp, prop, version).value.entries
    ensures Marked(Visit(t, cp, prop, version).value.entries[cp], prop, version)
  {
    VisitMarks(t, cp, prop, version);
  }

  /** A key a successful line does not name keeps its entry. */
  lemma VisitAllKeepsKey(t: Table, cps: seq<string>, prop: string, version: string, k: string)
    requires VisitAll(t, cps, prop, version).Success? && k in t.entries && k !in cps
    ensures k in VisitAll(t, cps, prop, version).value.entries
    ensures VisitAll(t, cps, prop, version).value.entries[k] == t.entries[k]
  {
    VisitAllKeeps(t, cps, prop, version);
  }

  /** A successful line adds no key it does not name and leaves the entries
      of the keys it does not name untouched. */
  lemma {:induction false} VisitAllKeeps(t: Table, cps: seq<string>, prop: string, version: string)
    requires VisitAll(t, cps, prop, version).Success?
    ensures forall k | k in VisitAll(t, cps, prop, version).value.entries :: k in t.entries || k in cps
    ensures forall k | k in t.entries && k !in cps :: VisitAll(t, cps, prop, version).value.entries[k] == t.entries[k]
    decreases |cps|
  {
    if cps != [] {
      VisitAllStep(t, cps, prop, version);
      var t1 := Visit(t, cps[0], prop, version).value;
      VisitMarks(t, cps[0], prop, version);
      VisitAllKeeps(t1, cps[1..], prop, version);
    }
  }

  /** When the first codepoint is acceptable and a table accepts the same
      codepoints, the whole line is acceptable exactly when its tail is
      acceptable to that table. */
  lemma VisitableTail(t: Table, t1: Table, cps: seq<string>)
    requires cps != [] && Visitable(t, cps[0])
    requires forall c :: Visitable(t1, c) <==> Visitable(t, c)
    ensures (forall i | 0 <= i < |cps| :: Visitable(t, cps[i])) <==>
      (forall j | 0 <= j < |cps[1..]| :: Visitable(t1, cps[1..][j]))
  {
    var rest := cps[1..];
    forall j | 0 <= j < |rest|
      ensures Visitable(t1, rest[j]) <==> Visitable(t, cps[j + 1])
    {
      assert rest[j] == cps[j + 1];
    }
    if !forall i | 0 <= i < |cps| :: Visitable(t, cps[i]) {
      var i :| 0 <= i < |cps| && !Visitable(t, cps[i]);
      assert !Visitable(t1, rest[i - 1]);
    }
  }

  /** A line succeeds exactly when each of its codepoints is a known key or
      names a character. */
  lemma {:induction false} VisitAllSucceeds(t: Table, cps: seq<string>, prop: string, version: string)
    ensures VisitAll(t, cps, prop, version).Success? <==> forall i | 0 <= i < |cps| :: Visitable(t, cps[i])
    decreases |cps|
  {
    if cps != [] {
      VisitAllStep(t, cps, prop, version);
      var v := Visit(t, cps[0], prop, version);
      if v.Success? {
        VisitAllSucceeds(v.value, cps[1..], prop, version);
        VisitableAfter(t, cps[0], prop, version);
        assert Visitable(t, cps[0]);
        VisitableTail(t, v.value, cps);
      } else {
        assert !Visitable(t, cps[0]);
      }
    }
  }

  /** A data-file line. A version starting "E0.0" is skipped; otherwise
      each codepoint it names is marked with the stripped property and
      version. */
  function DataStep(t: Table, g: DataGroups): Result<Table, EmojiError> {
    if StartsWith(g.version, "E0.0") then Success(t)
    else
      var cps :- DataCodepoints(g.codes);
      VisitAll(t, cps, PyStrip(g.property), PyStrip(g.version))
  }

  /** Lines for the 0.0 version leave the table as it is. */
  lemma ZeroVersionSkipped(t: Table, g: DataGroups)
    requires StartsWith(g.version, "E0.0")
    ensures DataStep(t, g) == Success(t)
  {
  }

  /** A range line that succeeds marks every number of the range. */
  lemma RangeMarked(t: Table, g: DataGroups, lo: nat, hi: nat, n: nat)
    requires !StartsWith(g.version, "E0.0") && Contains(PyStrip(g.codes), "..")
    requires PyInt16(Split(PyStrip(g.codes), "..")[0]) == Some(lo)
    requires PyInt16(Split(PyStrip(g.codes), "..")[1]) == Some(hi)
    requires DataStep(t, g).Success? && lo <= n <= hi
    ensures ToHex(n) in DataStep(t, g).value.entries
    ensures Marked(DataStep(t, g).value.entries[ToHex(n)], PyStrip(g.property), PyStrip(g.version))
  {
    RangeCodepoints(g.codes, lo, hi);
    assert DataStep(t, g) == VisitAll(t, ExpandRange(lo, hi), PyStrip(g.property), PyStrip(g.version));
    RangeVisited(t, lo, hi, n, PyStrip(g.property), PyStrip(g.version));
  }

  /** Visiting a whole range marks each of its numbers. */
  lemma RangeVisited(t: Table, lo: nat, hi: nat, n: nat, prop: string, version: string)
    requires VisitAll(t, ExpandRange(lo, hi), prop, version).Success? && lo <= n <= hi
    ensures ToHex(n) in VisitAll(t, ExpandRange(lo, hi), prop, version).value.entries
    ensures Marked(VisitAll(t, ExpandRange(lo, hi), prop, version).value.entries[ToHex(n)], prop, version)
  {
    VisitAllMarks(t, ExpandRange(lo, hi), prop, version);
    ExpandRangeAt(lo, hi, n - lo);
  }

  /** A range whose ends both read as numbers expands to every number
      between them. */
  lemma RangeCodepoints(codes: string, lo: nat, hi: nat)
    requires Contains(PyStrip(codes), "..")
    requires PyInt16(Split(PyStrip(codes), "..")[0]) == Some(lo)
    requires PyInt16(Split(PyStrip(codes), "..")[1]) == Some(hi)
    ensures DataCodepoints(codes) == Success(ExpandRange(lo, hi))
  {
  }

  /** A data-file line: blank, comment and unmatched lines change nothing. */
  function DataLine(t: Table, raw: string, groups: Option<DataGroups>): Result<Table, EmojiError> {
    if Ignored(raw) then Success(t)
    else match groups
      case None => Success(t)
      case Some(g) => DataStep(t, g)
  }

  /** The whole data file; an error on any line ends the run. */
  function DataFile(t: Table, lines: seq<(string, Option<DataGroups>)>): (r: Result<Table, EmojiError>)
    ensures r.Success? && Ordered(t) ==> Ordered(r.value)
    ensures r.Success? ==> t.entries.Keys <= r.value.entries.Keys
    decreases |lines|
  {
    if lines == [] then Success(t)
    else
      var t1 :- DataLine(t, lines[0].0, lines[0].1);
      DataFile(t1, lines[1..])
  }

  // ---------------------------------------------------------------- what the data merge changes

  /** What the data merge may do to an entry: the property names only gain
      names at the end, the version may change, and nothing else does. */
  predicate Grown(a: EmojiEntry, b: EmojiEntry) {
    && b.(property := a.property, version := a.version) == a
    && a.property.GetOr([]) <= b.property.GetOr([])
  }

  /** An entry the data merge created: a "component-only" character with
      no names, no handles and no `fully-qualified`. */
  predicate FromData(e: EmojiEntry) {
    e.status == Some("component-only") && e.names.None? && e.handles.None? && e.fullyQualified.None?
  }

  /** `r` follows `t` by data lines: no key is lost, an old entry is only
      grown, and a new entry comes from the data. */
  predicate DataExtends(t: Table, r: Table) {
    && t.entries.Keys <= r.entries.Keys
    && (forall k | k in t.entries :: Grown(t.entries[k], r.entries[k]))
    && (forall k | k in r.entries && k !in t.entries :: FromData(r.entries[k]))
  }

  lemma DataExtendsTransitive(t: Table, m: Table, r: Table)
    requires DataExtends(t, m) && DataExtends(m, r)
    ensures DataExtends(t, r)
  {
  }

  /** A successful visit only grows the entry it marks, or creates it from
      the data. */
  lemma VisitExtends(t: Table, cp: string, prop: string, version: string)
    requires Visit(t, cp, prop, version).Success?
    ensures DataExtends(t, Visit(t, cp, prop, version).value)
  {
    VisitMarks(t, cp, prop, version);
    MarkExtends(t, Visit(t, cp, prop, version).value, cp, prop, version);
  }

  /** Marking one entry, old or new, and keeping the others extends a
      table. */
  lemma MarkExtends(t: Table, r: Table, cp: string, prop: string, version: string)
    requires r.entries.Keys == t.entries.Keys + {cp}
    requires forall k | k in t.entries && k != cp :: r.entries[k] == t.entries[k]
    requires cp in t.entries ==> r.entries[cp] == Mark(t.entries[cp], prop, version)
    requires cp !in t.entries ==> exists n: nat :: r.entries[cp] == Mark(NewDataEntry(cp, n), prop, version)
    ensures DataExtends(t, r)
  {
  }

  lemma {:induction false} VisitAllExtends(t: Table, cps: seq<string>, prop: string, version: string)
    requires VisitAll(t, cps, prop, version).Success?
    ensures DataExtends(t, VisitAll(t, cps, prop, version).value)
    decreases |cps|
  {
    if cps != [] {
      VisitAllStep(t, cps, prop, version);
      var t1 := Visit(t, cps[0], prop, version).value;
      VisitExtends(t, cps[0], prop, version);
      VisitAllExtends(t1, cps[1..], prop, version);
      DataExtendsTransitive(t, t1, VisitAll(t1, cps[1..], prop, version).value);
    }
  }

  lemma DataLineExtends(t: Table, raw: string, groups: Option<DataGroups>)
    requires DataLine(t, raw, groups).Success?
    ensures DataExtends(t, DataLine(t, raw, groups).value)
  {
    if !Ignored(raw) && groups.Some? && !StartsWith(groups.value.version, "E0.0") {
      var g := groups.value;
      var cps := DataCodepoints(g.codes).value;
      assert DataLine(t, raw, groups) == VisitAll(t, cps, PyStrip(g.property), PyStrip(g.version));
      VisitAllExtends(t, cps, PyStrip(g.property), PyStrip(g.version));
    }
  }

  /** The data file keeps what the test file built: every entry keeps its
      codepoints, names, handles, `fully-qualified`, character and status,
      and its property names, in order, only gain more; the entries it adds
      are "component-only" characters. */
  lemma {:induction false} DataFileExtends(t: Table, lines: seq<(string, Option<DataGroups>)>)
    requires DataFile(t, lines).Success?
    ensures DataExtends(t, DataFile(t, lines).value)
    decreases |lines|
  {
    if lines != [] {
      var t1 := DataLine(t, lines[0].0, lines[0].1).value;
      DataLineExtends(t, lines[0].0, lines[0].1);
      DataFileExtends(t1, lines[1..]);
      DataExtendsTransitive(t, t1, DataFile(t1, lines[1..]).value);
    }
  }

  /** As written, the finished table has no `fully-qualified` field at all:
      the test file never sets it and the data file never touches it. */
  lemma NeverQualified(testLines: seq<(string, Option<TestGroups>)>,
                       dataLines: seq<(string, Option<DataGroups>)>)
    requires TestLinesMatch(testLines)
    requires BuildTable(testLines, dataLines).Success?
    ensures var r := BuildTable(testLines, dataLines).value;
      forall k | k in r.entries :: r.entries[k].fullyQualified.None?
  {
    var t := TestFile(EmptyTable, testLines);
    TestFileNeverQualifies(EmptyTable, testLines);
    DataFileExtends(t, dataLines);
    var r := BuildTable(testLines, dataLines).value;
    forall k | k in r.entries
      ensures r.entries[k].fullyQualified.None?
    {
      if k in t.entries {
        assert Grown(t.entries[k], r.entries[k]);
      }
    }
  }

  /** The run: the test file into an empty table, then the data file. */
  function BuildTable(testLines: seq<(string, Option<TestGroups>)>,
                      dataLines: seq<(string, Option<DataGroups>)>): (r: Result<Table, EmojiError>)
    ensures r.Success? ==> Ordered(r.value)
  {
    TestFileFirstWins(EmptyTable, testLines);
    DataFile(TestFile(EmptyTable, testLines), dataLines)
  }
}

=== FILE: finalise.dfy ===
/** The last stage of the run: the record pruning applied before output,
    the numeric sort of the records by codepoint, and the fixed order in
    which the map is built (or loaded) and enriched. */
module Finalise {
  import opened Wrappers
  import opened Hex
  import opened Diagnostics
  import opened Records
  import Repertoire
  import IndexEnricher
  import NamesList
  import ScriptExtensions

  // ---------------------------------------------------------------- pruning

  /** The six list fields that are deleted when they are present and empty. */
  const PrunedFields: set<ListField> := {Comments, IndexEntries, Notes, Related, Tags, Variants}

  /** An empty list becomes absent; anything else is kept. */
  function Prune(o: Option<seq<string>>): (r: Option<seq<string>>)
    ensures r.None? <==> o.None? || o == Some([])
    ensures r.Some? ==> r == o
  {
    if o == Some([]) then None else o
  }

  /** `removeEmpty`: deletes each of the six prunable fields exactly when it
      is present with length 0. The other three list fields
      (`approximations`, `decomposition`, `scriptExtensions`), the case
      variants and every scalar are left alone. */
  function RemoveEmpty(r: CodepointData): (r': CodepointData)
    ensures SameScalars(r, r')
    ensures forall f: ListField | f in PrunedFields :: Get(r', f) == Prune(Get(r, f))
    ensures forall f: ListField | f !in PrunedFields :: Get(r', f) == Get(r, f)
  {
    r.(comments := Prune(r.comments), indexEntries := Prune(r.indexEntries), notes := Prune(r.notes),
       related := Prune(r.related), tags := Prune(r.tags), variants := Prune(r.variants))
  }

  /** No prunable field is present and empty. */
  predicate NothingToPrune(r: CodepointData) {
    forall f: ListField | f in PrunedFields :: Get(r, f) != Some([])
  }

  /** `removeEmpty` deletes a field exactly when that field is prunable and
      present with length 0. */
  lemma RemoveEmptyDeletes(r: CodepointData, f: ListField)
    ensures Get(r, f).Some? && Get(RemoveEmpty(r), f).None? <==> f in PrunedFields && Get(r, f) == Some([])
  {
  }

  /** Its fixed points are exactly the records with nothing to prune, and
      every result is one: applying it twice is applying it once. */
  lemma RemoveEmptyFixedPoints(r: CodepointData)
    ensures NothingToPrune(RemoveEmpty(r))
    ensures RemoveEmpty(r) == r <==> NothingToPrune(r)
    ensures RemoveEmpty(RemoveEmpty(r)) == RemoveEmpty(r)
  {
    var p := RemoveEmpty(r);
    if NothingToPrune(r) {
      RecordExtensionality(p, r);
    }
    if p == r {
      assert forall f: ListField | f in PrunedFields :: Get(r, f) == Prune(Get(r, f));
    }
    RecordExtensionality(RemoveEmpty(p), p);
  }

  // ---------------------------------------------------------------- sorting

  /** `parseInt(code, 16)`, None for NaN. */
  function SortKey(r: CodepointData): Option<int> {
    JsParseInt16(r.code)
  }

  /** The difference of two parsed keys; a NaN on either side makes the
      difference NaN, which the sort algorithm counts as +0 (equal). */
  function CompareKeys(a: Option<int>, b: Option<int>): (r: int)
    ensures a.Some? && b.Some? ==> (r <= 0 <==> a.value <= b.value) && (r < 0 <==> a.value < b.value)
    ensures a.None? || b.None? ==> r == 0
  {
    if a.Some? && b.Some? then a.value - b.value else 0
  }

  /** The comparator `parseInt(a.code, 16) - parseInt(b.code, 16)`. */
  function Compare(a: CodepointData, b: CodepointData): int {
    CompareKeys(SortKey(a), SortKey(b))
  }

  predicate AllKeyed<T>(key: T -> Option<int>, s: seq<T>) {
    forall i | 0 <= i < |s| :: key(s[i]).Some?
  }

  /** Ascending by key, every pair compared. */
  predicate SortedBy<T>(key: T -> Option<int>, s: seq<T>) {
    forall i, j | 0 <= i < j < |s| :: CompareKeys(key(s[i]), key(s[j])) <= 0
  }

  /** Ascending by hexadecimal value of `code`. */
  predicate Sorted(s: seq<CodepointData>) {
    SortedBy(SortKey, s)
  }

  /** Insert `x` after every element that does not compare greater: the
      step of a stable insertion sort. */
  function Insert<T(==)>(key: T -> Option<int>, x: T, s: seq<T>): (r: seq<T>)
    ensures multiset(r) == multiset(s) + multiset{x}
    ensures |r| == |s| + 1
  {
    if s == [] then [x]
    else if CompareKeys(key(x), key(s[0])) < 0 then [x] + s
    else
      assert s == [s[0]] + s[1..];
      [s[0]] + Insert(key, x, s[1..])
  }

  /** A stable insertion sort taking the elements in their listed order. */
  function SortBy<T(==)>(key: T -> Option<int>, s: seq<T>): (r: seq<T>)
    ensures multiset(r) == multiset(s)
    ensures |r| == |s|
  {
    if s == [] then []
    else
      assert s == s[..|s| - 1] + [s[|s| - 1]];
      Insert(key, s[|s| - 1], SortBy(key, s[..|s| - 1]))
  }

  /** `Array.prototype.sort` with the code comparator: a permutation of the
      input. */
  function SortByCode(s: seq<CodepointData>): (r: seq<CodepointData>)
    ensures multiset(r) == multiset(s)
    ensures |r| == |s|
  {
    SortBy(SortKey, s)
  }

  /** Inserting into a sorted sequence of keyed elements keeps it sorted. */
  lemma {:induction false} InsertSorted<T>(key: T -> Option<int>, x: T, s: seq<T>)
    requires key(x).Some? && AllKeyed(key, s) && SortedBy(key, s)
    ensures SortedBy(key, Insert(key, x, s))
    decreases |s|
  {
    if s == [] {
    } else if CompareKeys(key(x), key(s[0])) < 0 {
      forall j | 0 <= j < |s| ensures CompareKeys(key(x), key(s[j])) <= 0 {
        if j > 0 {
          assert CompareKeys(key(s[0]), key(s[j])) <= 0;
        }
      }
      ConsSorted(key, x, s);
    } else {
      var t := s[1..];
      assert AllKeyed(key, t) && SortedBy(key, t);
      InsertSorted(key, x, t);
      var u := Insert(key, x, t);
      InsertMembers(key, x, t);
      forall j | 0 <= j < |u|
        ensures CompareKeys(key(s[0]), key(u[j])) <= 0
      {
        if u[j] != x {
          var i :| 0 <= i < |t| && t[i] == u[j];
          assert t[i] == s[i + 1];
        }
      }
      ConsSorted(key, s[0], u);
    }
  }

  /** Every element of an insertion is the inserted one or one of the list. */
  lemma InsertMembers<T>(key: T -> Option<int>, x: T, s: seq<T>)
    ensures forall j | 0 <= j < |Insert(key, x, s)| :: Insert(key, x, s)[j] == x || Insert(key, x, s)[j] in s
  {
    var r := Insert(key, x, s);
    forall j | 0 <= j < |r| ensures r[j] == x || r[j] in s {
      assert r[j] in multiset(r);
    }
  }

  /** An element no greater than any of a sorted list can go in front. */
  lemma ConsSorted<T>(key: T -> Option<int>, h: T, u: seq<T>)
    requires SortedBy(key, u)
    requires forall j | 0 <= j < |u| :: CompareKeys(key(h), key(u[j])) <= 0
    ensures SortedBy(key, [h] + u)
  {
    var r := [h] + u;
    forall a, b | 0 <= a < b < |r|
      ensures CompareKeys(key(r[a]), key(r[b])) <= 0
    {
      assert r[b] == u[b - 1];
      if a > 0 {
        assert r[a] == u[a - 1];
      }
    }
  }

  /** When every key parses, the sort leaves the elements in ascending
      order of key. */
  lemma {:induction false} SortBySorted<T>(key: T -> Option<int>, s: seq<T>)
    requires AllKeyed(key, s)
    ensures SortedBy(key, SortBy(key, s))
    decreases |s|
  {
    if s != [] {
      var init := s[..|s| - 1];
      assert AllKeyed(key, init);
      SortBySorted(key, init);
      var sorted := SortBy(key, init);
      forall i | 0 <= i < |sorted|
        ensures key(sorted[i]).Some?
      {
        assert sorted[i] in multiset(init);
      }
      InsertSorted(key, s[|s| - 1], sorted);
    }
  }

  // ---------------------------------------------------------------- output

  /** `order` lists every key of the map exactly once, as `Object.values`
      does. */
  predicate IsListing(order: seq<string>, keys: set<string>) {
    && (forall i | 0 <= i < |order| :: order[i] in keys)
    && (forall k | k in keys :: k in order)
    && (forall i, j | 0 <= i < j < |order| :: order[i] != order[j])
  }

  /** A listing has exactly as many entries as there are keys. */
  lemma {:induction false} ListingSize(order: seq<string>, keys: set<string>)
    requires IsListing(order, keys)
    ensures |order| == |keys|
    decreases |order|
  {
    if order != [] {
      var last := order[|order| - 1];
      var init := order[..|order| - 1];
      assert last !in init;
      assert IsListing(init, keys - {last}) by {
        forall k | k in keys - {last}
          ensures k in init
        {
          var i :| 0 <= i < |order| && order[i] == k;
          assert i != |order| - 1;
          assert init[i] == k;
        }
      }
      ListingSize(init, keys - {last});
    } else {
      assert forall k | k in keys :: false;
      assert keys == {};
    }
  }

  /** The map's records in listing order. */
  function Values(m: CodepointMap, order: seq<string>): (r: seq<CodepointData>)
    requires forall i | 0 <= i < |order| :: order[i] in m
    ensures |r| == |order| && forall i | 0 <= i < |order| :: r[i] == m[order[i]]
  {
    seq(|order|, i requires 0 <= i < |order| => m[order[i]])
  }

  /** `removeEmpty` applied to each record of the sorted array, in place. */
  function PruneAll(s: seq<CodepointData>): (r: seq<CodepointData>)
    ensures |r| == |s| && forall i | 0 <= i < |s| :: r[i] == RemoveEmpty(s[i])
  {
    seq(|s|, i requires 0 <= i < |s| => RemoveEmpty(s[i]))
  }

  /** Pruning changes no code, so it keeps the sorted order and the length. */
  lemma PruneKeepsOrder(s: seq<CodepointData>)
    ensures |PruneAll(s)| == |s|
    ensures forall i | 0 <= i < |s| :: PruneAll(s)[i].code == s[i].code
    ensures Sorted(PruneAll(s)) <==> Sorted(s)
  {
    var p := PruneAll(s);
    assert forall i, j | 0 <= i < j < |s| :: Compare(p[i], p[j]) == Compare(s[i], s[j]);
  }

  /** Every pruned record has nothing left to prune. */
  lemma PruneAllClean(s: seq<CodepointData>)
    ensures forall i | 0 <= i < |s| :: NothingToPrune(PruneAll(s)[i])
  {
    forall i | 0 <= i < |s|
      ensures NothingToPrune(PruneAll(s)[i])
    {
      RemoveEmptyFixedPoints(s[i]);
    }
  }

  /** When every record's code parses, the listed values sort ascending. */
  lemma SortedWhenKeyed(m: CodepointMap, order: seq<string>)
    requires IsListing(order, m.Keys)
    ensures (forall k | k in m :: SortKey(m[k]).Some?) ==> Sorted(SortByCode(Values(m, order)))
  {
    if forall k | k in m :: SortKey(m[k]).Some? {
      SortBySorted(SortKey, Values(m, order));
    }
  }

  /** The output array: the map's records in listing order, sorted by code,
      then pruned. It has one record per key, ascending when every code
      parses, each with nothing left to prune. */
  function Output(m: CodepointMap, order: seq<string>): (r: seq<CodepointData>)
    requires IsListing(order, m.Keys)
    ensures |r| == |m|
    ensures forall i | 0 <= i < |r| :: NothingToPrune(r[i])
    ensures (forall k | k in m :: SortKey(m[k]).Some?) ==> Sorted(r)
  {
    ListingSize(order, m.Keys);
    var sorted := SortByCode(Values(m, order));
    PruneKeepsOrder(sorted);
    SortedWhenKeyed(m, order);
    PruneAllClean(sorted);
    PruneAll(sorted)
  }

  /** The output holds, before pruning, exactly the map's records: the sort
      is a permutation of the listed values. */
  lemma OutputIsPermutation(m: CodepointMap, order: seq<string>)
    requires IsListing(order, m.Keys)
    ensures Output(m, order) == PruneAll(SortByCode(Values(m, order)))
    ensures multiset(SortByCode(Values(m, order))) == multiset(Values(m, order))
    ensures forall k | k in m :: m[k] in SortByCode(Values(m, order))
  {
    var values := Values(m, order);
    forall k | k in m
      ensures m[k] in SortByCode(values)
    {
      var i :| 0 <= i < |order| && order[i] == k;
      assert values[i] == m[k];
      assert m[k] in multiset(values);
    }
  }

  // ---------------------------------------------------------------- pipeline

  /** What the run reads: the map saved by an earlier run, if there is one,
      the parsed repertoire entries, and the lines of the three text files. */
  datatype Sources = Sources(
    cached: Option<CodepointMap>,
    repertoire: seq<Repertoire.CharAttrs>,
    indexLines: seq<string>,
    namesLines: seq<string>,
    scriptLines: seq<string>)

  /** The map as saved (before any enrichment), the enriched map, and every
      warning in the order given. */
  datatype Run = Run(saved: CodepointMap, enriched: CodepointMap, warnings: seq<Warning>)

  /** The base map: the saved one when it exists, else built from the
      repertoire. */
  function BaseMap(src: Sources): (r: Result<Repertoire.Built, Crash>)
    ensures src.cached.Some? ==> r == Success(Repertoire.Built(src.cached.value, []))
    ensures src.cached.None? ==>
      (r.Failure? <==> exists i | 0 <= i < |src.repertoire| :: Repertoire.DeriveRecord(src.repertoire[i]).Failure?)
  {
    if src.cached.Some? then Success(Repertoire.Built(src.cached.value, []))
    else Repertoire.XmlToMap(src.repertoire)
  }

  /** The three enrichers in their fixed order over the saved map: the
      index, the names list, then the script extensions, each warning in
      the order given. No record is added or removed and no scalar changes. */
  function EnrichAll(saved: CodepointMap, indexLines: seq<string>, namesLines: seq<string>,
                     scriptLines: seq<string>): (r: (CodepointMap, seq<Warning>))
    ensures PreservesRecords(saved, r.0)
  {
    var (m1, w1) := IndexEnricher.Enrich(saved, indexLines);
    var (m2, w2) := NamesList.Enrich(m1, namesLines);
    var (m3, w3) := ScriptExtensions.Enrich(m2, scriptLines);
    PreservesRecordsTransitive(saved, m1, m2);
    PreservesRecordsTransitive(saved, m2, m3);
    (m3, w1 + w2 + w3)
  }

  /** The fixed order: load or build, save, then enrich. No enricher adds or
      removes a record or changes a scalar. */
  function Pipeline(src: Sources): (r: Result<Run, Crash>)
    ensures r.Success? ==> PreservesRecords(r.value.saved, r.value.enriched)
    ensures r.Success? ==> |r.value.enriched| == |r.value.saved|
    ensures src.cached.Some? ==> r.Success? && r.value.saved == src.cached.value
    ensures src.cached.None? ==>
      (r.Failure? <==> exists i | 0 <= i < |src.repertoire| :: Repertoire.DeriveRecord(src.repertoire[i]).Failure?)
  {
    var base :- BaseMap(src);
    Success(RunFrom(base, src))
  }

  /** The run once the base map is in hand: save it, then enrich it. */
  function RunFrom(base: Repertoire.Built, src: Sources): (r: Run)
    ensures r.saved == base.cpMap
    ensures r.enriched == EnrichAll(base.cpMap, src.indexLines, src.namesLines, src.scriptLines).0
  {
    var (enriched, warnings) := EnrichAll(base.cpMap, src.indexLines, src.namesLines, src.scriptLines);
    Run(base.cpMap, enriched, base.warnings + warnings)
  }

  /** A freshly built map still has each record under its own code after
      enrichment, so the output order is the order of the keys' values. */
  lemma PipelineKeepsCodes(src: Sources)
    requires src.cached.None? && Pipeline(src).Success?
    ensures Repertoire.CodesMatchKeys(Pipeline(src).value.enriched)
    ensures Pipeline(src).value.enriched.Keys == Repertoire.EntryCodes(src.repertoire)
  {
  }

  /** A second run that finds the map the first one saved enriches it to
      the same result: the map is saved before any enrichment. */
  lemma RestartFromSaved(src: Sources)
    requires Pipeline(src).Success?
    ensures var again := Pipeline(src.(cached := Some(Pipeline(src).value.saved)));
      again.Success? && again.value.saved == Pipeline(src).value.saved
      && again.value.enriched == Pipeline(src).value.enriched
  {
    var base := BaseMap(src).value;
    var src2 := src.(cached := Some(base.cpMap));
    assert Pipeline(src) == Success(RunFrom(base, src));
    assert Pipeline(src2) == Success(RunFrom(Repertoire.Built(base.cpMap, []), src2));
  }

  /** The maps after the first and the second enricher. */
  function AfterIndex(saved: CodepointMap, indexLines: seq<string>): CodepointMap {
    IndexEnricher.Enrich(saved, indexLines).0
  }

  function AfterNames(saved: CodepointMap, indexLines: seq<string>, namesLines: seq<string>): CodepointMap {
    NamesList.Enrich(AfterIndex(saved, indexLines), namesLines).0
  }

  /** Each stage's reference, for field `f` of record `k`: the index
      appends to `indexEntries` only, the names list to its four fields
      only, the script extensions to `scriptExtensions` only. */
  lemma Stages(saved: CodepointMap, indexLines: seq<string>, namesLines: seq<string>,
               scriptLines: seq<string>, k: string, f: ListField)
    requires k in saved
    ensures var m1 := AfterIndex(saved, indexLines);
      k in m1 && Get(m1[k], f) == if f == IndexEntries
        then Accumulate(Get(saved[k], f), IndexEnricher.EntriesFor(indexLines, k)) else Get(saved[k], f)
    ensures var m1 := AfterIndex(saved, indexLines);
      var m2 := AfterNames(saved, indexLines, namesLines);
      k in m2 && Get(m2[k], f) == if f in NamesList.NamesFields
        then Accumulate(Get(m1[k], f), NamesList.AddsFor(saved.Keys, None, namesLines, k, f)) else Get(m1[k], f)
    ensures var m2 := AfterNames(saved, indexLines, namesLines);
      var m3 := EnrichAll(saved, indexLines, namesLines, scriptLines).0;
      k in m3 && Get(m3[k], f) == if f == ScriptExtensions
        then Accumulate(Get(m2[k], f), ScriptExtensions.ScriptsFor(scriptLines, k)) else Get(m2[k], f)
  {
    var m1 := AfterIndex(saved, indexLines);
    var m2 := AfterNames(saved, indexLines, namesLines);
    IndexEnricher.EnrichAccumulates(saved, indexLines, 1);
    NamesList.EnrichAccumulates(NamesList.NamesState(m1, None), namesLines, 1);
    ScriptExtensions.EnrichAccumulates(m2, scriptLines, 1);
    if f !in NamesList.NamesFields {
      NamesList.OnlyNamesFields(saved.Keys, None, namesLines, k, f);
    }
  }

  /** After all three enrichers a record's `indexEntries` is its saved
      value followed by every phrase the index gives it. */
  lemma IndexEntriesAfterAll(saved: CodepointMap, indexLines: seq<string>, namesLines: seq<string>,
                             scriptLines: seq<string>, k: string)
    requires k in saved
    ensures Get(EnrichAll(saved, indexLines, namesLines, scriptLines).0[k], IndexEntries)
         == Accumulate(Get(saved[k], IndexEntries), IndexEnricher.EntriesFor(indexLines, k))
  {
    assert IndexEntries !in NamesList.NamesFields;
    Stages(saved, indexLines, namesLines, scriptLines, k, IndexEntries);
  }

  /** After all three enrichers a record's `scriptExtensions` is its saved
      value followed by every script the file gives it. */
  lemma ScriptsAfterAll(saved: CodepointMap, indexLines: seq<string>, namesLines: seq<string>,
                        scriptLines: seq<string>, k: string)
    requires k in saved
    ensures Get(EnrichAll(saved, indexLines, namesLines, scriptLines).0[k], ScriptExtensions)
         == Accumulate(Get(saved[k], ScriptExtensions), ScriptExtensions.ScriptsFor(scriptLines, k))
  {
    assert ScriptExtensions !in NamesList.NamesFields;
    Stages(saved, indexLines, namesLines, scriptLines, k, ScriptExtensions);
  }

  /** After all three enrichers each of the names list's four fields is its
      saved value followed by what the names list appends to it. */
  lemma NamesFieldAfterAll(saved: CodepointMap, indexLines: seq<string>, namesLines: seq<string>,
                           scriptLines: seq<string>, k: string, f: ListField)
    requires k in saved && f in NamesList.NamesFields
    ensures Get(EnrichAll(saved, indexLines, namesLines, scriptLines).0[k], f)
         == Accumulate(Get(saved[k], f), NamesList.AddsFor(saved.Keys, None, namesLines, k, f))
  {
    assert f != IndexEntries && f != ScriptExtensions;
    Stages(saved, indexLines, namesLines, scriptLines, k, f);
  }

  /** No enricher touches `notes`, `tags` or `decomposition`. */
  lemma UntouchedAfterAll(saved: CodepointMap, indexLines: seq<string>, namesLines: seq<string>,
                          scriptLines: seq<string>, k: string, f: ListField)
    requires k in saved && f !in NamesList.NamesFields && f != IndexEntries && f != ScriptExtensions
    ensures Get(EnrichAll(saved, indexLines, namesLines, scriptLines).0[k], f) == Get(saved[k], f)
  {
    Stages(saved, indexLines, namesLines, scriptLines, k, f);
  }
}

=== FILE: fold.dfy ===
/** The shape the three enrichers share: a step over one numbered line,
    folded over the lines of a file from the first to the last. The line
    number of each line is one more than that of the line before it; each
    step may report warnings, which are collected in order. */
module LineFold {
  import opened Diagnostics
  import opened Records

  /** The state after `lines` (numbered from `lineNo`) and the warnings
      given along the way. */
  function Fold<S>(step: (S, nat, string) -> (S, seq<Warning>), s: S, lines: seq<string>, lineNo: nat): (S, seq<Warning>)
    decreases |lines|
  {
    if lines == [] then (s, [])
    else
      var first := step(s, lineNo, lines[0]);
      var rest := Fold(step, first.0, lines[1..], lineNo + 1);
      (rest.0, first.1 + rest.1)
  }

  /** Folding a file in two parts is folding it whole: the second part starts
      from the state the first left, its lines numbered on from there. */
  lemma {:induction false} FoldSplit<S>(step: (S, nat, string) -> (S, seq<Warning>), s: S,
                                         a: seq<string>, b: seq<string>, lineNo: nat)
    ensures Fold(step, s, a + b, lineNo).0 == Fold(step, Fold(step, s, a, lineNo).0, b, lineNo + |a|).0
    ensures Fold(step, s, a + b, lineNo).1
         == Fold(step, s, a, lineNo).1 + Fold(step, Fold(step, s, a, lineNo).0, b, lineNo + |a|).1
    decreases |a|
  {
    if a == [] {
      assert a + b == b;
    } else {
      var first := step(s, lineNo, a[0]);
      assert (a + b)[0] == a[0];
      assert (a + b)[1..] == a[1..] + b;
      FoldSplit(step, first.0, a[1..], b, lineNo + 1);
      var restA := Fold(step, first.0, a[1..], lineNo + 1);
      var tail := Fold(step, restA.0, b, lineNo + 1 + |a[1..]|);
      assert first.1 + (restA.1 + tail.1) == (first.1 + restA.1) + tail.1;
    }
  }

  /** A property every step keeps holds after the whole fold, and a property
      of every warning a step gives holds of every warning of the fold. */
  lemma {:induction false} FoldInvariant<S>(step: (S, nat, string) -> (S, seq<Warning>), inv: S -> bool,
                                             ok: Warning -> bool, s: S, lines: seq<string>, lineNo: nat)
    requires inv(s)
    requires forall t, n, l | inv(t) :: inv(step(t, n, l).0)
    requires forall t, n, l, w | inv(t) && w in step(t, n, l).1 :: ok(w)
    ensures inv(Fold(step, s, lines, lineNo).0)
    ensures forall w | w in Fold(step, s, lines, lineNo).1 :: ok(w)
    decreases |lines|
  {
    if lines != [] {
      var first := step(s, lineNo, lines[0]);
      FoldInvariant(step, inv, ok, first.0, lines[1..], lineNo + 1);
    }
  }

  /** At most `k` warnings per line give at most `k` per line overall. */
  lemma {:induction false} FoldWarningBound<S>(step: (S, nat, string) -> (S, seq<Warning>), k: nat,
                                                s: S, lines: seq<string>, lineNo: nat)
    requires forall t, n, l :: |step(t, n, l).1| <= k
    ensures |Fold(step, s, lines, lineNo).1| <= k * |lines|
    decreases |lines|
  {
    if lines != [] {
      var first := step(s, lineNo, lines[0]);
      FoldWarningBound(step, k, first.0, lines[1..], lineNo + 1);
    }
  }

  /** Everything the lines contribute to record `k` when each line `l`
      contributes `adds(l, k)`, in file order. */
  function Gathered(adds: (string, string) -> seq<string>, lines: seq<string>, k: string): seq<string>
    decreases |lines|
  {
    if lines == [] then [] else adds(lines[0], k) + Gathered(adds, lines[1..], k)
  }

  /** A step over maps that appends `adds(l, k)` to field `f` of every record
      `k` and changes nothing else, folded over a file, appends to each
      record everything the file contributes to it, in file order. */
  lemma {:induction false} FoldAccumulates(step: (CodepointMap, nat, string) -> (CodepointMap, seq<Warning>),
                                           adds: (string, string) -> seq<string>, f: ListField,
                                           m: CodepointMap, lines: seq<string>, lineNo: nat)
    requires forall t, n, l :: step(t, n, l).0.Keys == t.Keys
    requires forall t, n, l, k | k in t && k in step(t, n, l).0 ::
      Get(step(t, n, l).0[k], f) == Accumulate(Get(t[k], f), adds(l, k))
    requires forall t, n, l, k, g: ListField | k in t && k in step(t, n, l).0 && g != f ::
      Get(step(t, n, l).0[k], g) == Get(t[k], g)
    ensures var r := Fold(step, m, lines, lineNo).0;
      && r.Keys == m.Keys
      && (forall k | k in m :: Get(r[k], f) == Accumulate(Get(m[k], f), Gathered(adds, lines, k)))
      && (forall k, g: ListField | k in m && g != f :: Get(r[k], g) == Get(m[k], g))
    decreases |lines|
  {
    if lines != [] {
      var m1 := step(m, lineNo, lines[0]).0;
      var r := Fold(step, m, lines, lineNo).0;
      FoldAccumulates(step, adds, f, m1, lines[1..], lineNo + 1);
      forall k | k in m
        ensures Get(r[k], f) == Accumulate(Get(m[k], f), Gathered(adds, lines, k))
      {
        AccumulateTwice(Get(m[k], f), adds(lines[0], k), Gathered(adds, lines[1..], k));
      }
    }
  }
}

=== FILE: hex.dfy ===
/** Hexadecimal text: digit values, `Number.prototype.toString(16)`, the
    JavaScript `parseInt(s, 16)` reading (NaN as None), and the codepoint key
    format `n.toString(16).toUpperCase().padStart(4, "0")`. */
module Hex {
  import opened Wrappers
  import opened Text

  predicate IsHexDigit(c: char) {
    '0' <= c <= '9' || 'a' <= c <= 'f' || 'A' <= c <= 'F'
  }

  predicate IsLowerHexDigit(c: char) {
    '0' <= c <= '9' || 'a' <= c <= 'f'
  }

  predicate IsUpperHexDigit(c: char) {
    '0' <= c <= '9' || 'A' <= c <= 'F'
  }

  predicate AllHex(s: string) {
    forall i | 0 <= i < |s| :: IsHexDigit(s[i])
  }

  function DigitValue(c: char): (v: nat)
    requires IsHexDigit(c)
    ensures v < 16
  {
    if '0' <= c <= '9' then c as int - '0' as int
    else if 'a' <= c <= 'f' then c as int - 'a' as int + 10
    else c as int - 'A' as int + 10
  }

  /** The lower-case digit for `d`, as `toString(16)` and Python's `%x` print it. */
  function LowerDigit(d: nat): (c: char)
    requires d < 16
    ensures IsLowerHexDigit(c) && DigitValue(c) == d
  {
    if d < 10 then ('0' as int + d) as char else ('a' as int + d - 10) as char
  }

  /** The number a string of hexadecimal digits denotes, most significant first. */
  function ValueOf(s: string): nat
    requires AllHex(s)
  {
    if s == [] then 0 else ValueOf(s[..|s| - 1]) * 16 + DigitValue(s[|s| - 1])
  }

  function Pow16(k: nat): (p: nat)
    ensures p >= 1
  {
    if k == 0 then 1 else 16 * Pow16(k - 1)
  }

  /** `n.toString(16)` / Python `"%x" % n` for a non-negative `n`: lower-case
      digits without leading zeros that read back as `n`. */
  function HexLower(n: nat): (r: string)
    ensures |r| >= 1
    ensures forall i | 0 <= i < |r| :: IsLowerHexDigit(r[i])
    ensures AllHex(r)
    ensures n == 0 ==> r == "0"
    ensures n > 0 ==> r[0] != '0'
    ensures ValueOf(r) == n
    decreases n
  {
    if n < 16 then [LowerDigit(n)]
    else
      var high := HexLower(n / 16);
      var r := high + [LowerDigit(n % 16)];
      assert r[..|r| - 1] == high;
      r
  }

  /** The digit count of `n` in hexadecimal is at most `k` exactly when
      `n < 16^k`. */
  lemma {:induction false} HexLowerLength(n: nat, k: nat)
    requires k >= 1
    ensures |HexLower(n)| <= k <==> n < Pow16(k)
    decreases n
  {
    if n >= 16 {
      if k == 1 {
        assert |HexLower(n)| == |HexLower(n / 16)| + 1;
      } else {
        HexLowerLength(n / 16, k - 1);
        assert |HexLower(n)| == |HexLower(n / 16)| + 1;
      }
    }
  }

  /** Four hexadecimal digits hold exactly the values below 0x10000. */
  lemma FourDigitRange(n: int)
    ensures n >= 0 ==> (|HexLower(n)| <= 4 <==> n < 0x10000)
  {
    if n >= 0 {
      HexLowerLength(n, 4);
      assert Pow16(4) == 0x10000;
    }
  }

  /** Appending a digit shifts the value by one hexadecimal place. */
  lemma ValueOfSnoc(s: string, c: char)
    requires AllHex(s) && IsHexDigit(c)
    ensures AllHex(s + [c]) && ValueOf(s + [c]) == ValueOf(s) * 16 + DigitValue(c)
  {
    assert (s + [c])[..|s|] == s;
  }

  /** A leading zero digit does not change the value. */
  lemma {:induction false} ValueOfLeadingZero(s: string)
    requires AllHex(s)
    ensures AllHex(['0'] + s) && ValueOf(['0'] + s) == ValueOf(s)
    decreases |s|
  {
    if s != [] {
      var t := s[..|s| - 1];
      ValueOfLeadingZero(t);
      assert (['0'] + s)[..|s|] == ['0'] + t;
    }
  }

  /** Any number of leading zero digits does not change the value. */
  lemma {:induction false} ValueOfZeroPadding(z: nat, s: string)
    requires AllHex(s)
    ensures AllHex(Repeat('0', z) + s) && ValueOf(Repeat('0', z) + s) == ValueOf(s)
    decreases z
  {
    if z > 0 {
      var t := Repeat('0', z - 1) + s;
      ValueOfZeroPadding(z - 1, s);
      assert Repeat('0', z) == ['0'] + Repeat('0', z - 1);
      assert Repeat('0', z) + s == ['0'] + t;
      ValueOfLeadingZero(t);
    } else {
      assert Repeat('0', z) + s == s;
    }
  }

  /** Upper-casing hexadecimal digits does not change their value. */
  lemma {:induction false} ValueOfUpper(s: string)
    requires AllHex(s)
    ensures AllHex(AsciiUpper(s)) && ValueOf(AsciiUpper(s)) == ValueOf(s)
    decreases |s|
  {
    if s != [] {
      var t := s[..|s| - 1];
      ValueOfUpper(t);
      assert AsciiUpper(s)[..|s| - 1] == AsciiUpper(t);
    }
  }

  /** The longest prefix of `s` made of hexadecimal digits. */
  function HexPrefix(s: string): (r: string)
    ensures |r| <= |s| && r == s[..|r|] && AllHex(r)
    ensures |r| < |s| ==> !IsHexDigit(s[|r|])
  {
    if |s| > 0 && IsHexDigit(s[0]) then
      var rest := HexPrefix(s[1..]);
      assert [s[0]] + rest == s[..|rest| + 1];
      [s[0]] + rest
    else ""
  }

  /** JavaScript `parseInt(s, 16)`: leading white space is skipped, an
      optional sign and an optional `0x`/`0X` prefix are read, then the
      longest run of hexadecimal digits; no digit at all gives NaN (None). */
  function JsParseInt16(s: string): Option<int> {
    ParseSignedHex(DropLeading(s, IsJsSpace))
  }

  /** What `parseInt(s, 16)` reads once white space is skipped: an optional
      sign, then the unsigned part. */
  function ParseSignedHex(t: string): Option<int> {
    if |t| > 0 && (t[0] == '-' || t[0] == '+') then
      match ParseUnsignedHex(t[1..])
      case None => None
      case Some(m) => var n: int := m; Some(if t[0] == '-' then -n else n)
    else ParseUnsignedHex(t)
  }

  /** An optional `0x`/`0X` prefix, then the longest run of hexadecimal
      digits; no digit at all gives NaN (None). */
  function ParseUnsignedHex(u: string): Option<nat> {
    if |u| >= 2 && u[0] == '0' && (u[1] == 'x' || u[1] == 'X') then LeadingHexValue(u[2..])
    else LeadingHexValue(u)
  }

  /** The value of the longest run of hexadecimal digits `v` starts with. */
  function LeadingHexValue(v: string): Option<nat> {
    var digits := HexPrefix(v);
    if digits == [] then None else Some(ValueOf(digits))
  }

  /** `n.toString(16)` for any integer: a minus sign before the digits of |n|. */
  function JsToString16(n: int): string {
    if n < 0 then "-" + HexLower(-n) else HexLower(n)
  }

  /** Upper-cased `toString(16)` digits of a non-negative number. */
  lemma UpperDigits(n: nat)
    ensures |AsciiUpper(HexLower(n))| == |HexLower(n)|
    ensures forall i | 0 <= i < |HexLower(n)| :: IsUpperHexDigit(AsciiUpper(HexLower(n))[i])
    ensures n > 0 ==> AsciiUpper(HexLower(n))[0] != '0'
    ensures AllHex(AsciiUpper(HexLower(n))) && ValueOf(AsciiUpper(HexLower(n))) == n
  {
    ValueOfUpper(HexLower(n));
  }

  /** The script-extensions key for codepoint `n`:
      `n.toString(16).toUpperCase().padStart(4, "0")`. For `n >= 0` the key
      is upper-case hexadecimal, at least four digits, and zero-padded only
      up to four digits. */
  function FormatKey(n: int): (r: string)
    ensures |r| >= 4
    ensures n >= 0 ==> forall i | 0 <= i < |r| :: IsUpperHexDigit(r[i])
    ensures n >= 0 && |r| > 4 ==> r[0] != '0'
    ensures n >= 0 ==> (|r| == 4 <==> n < 0x10000)
  {
    if n >= 0 then
      UpperDigits(n);
      FourDigitRange(n);
      PadStart(AsciiUpper(HexLower(n)), 4, '0')
    else
      PadStart(AsciiUpper("-" + HexLower(-n)), 4, '0')
  }

  /** `parseInt(s, 16)` of a non-empty all-digit string is its value. */
  lemma ParseAllHex(k: string)
    requires |k| >= 1 && AllHex(k)
    ensures JsParseInt16(k) == Some(ValueOf(k))
  {
    NoLeadingSpace(k);
    UnsignedAllHex(k);
  }

  /** A string starting with a digit has no white space to skip. */
  lemma NoLeadingSpace(k: string)
    requires |k| >= 1 && IsHexDigit(k[0])
    ensures DropLeading(k, IsJsSpace) == k
  {
  }

  /** An all-digit string has no sign and no `0x` prefix, and is read whole. */
  lemma UnsignedAllHex(k: string)
    requires |k| >= 1 && AllHex(k)
    ensures ParseSignedHex(k) == Some(ValueOf(k))
  {
    assert IsHexDigit(k[0]);
    assert ParseSignedHex(k) == ParseUnsignedHex(k);
    assert |k| >= 2 ==> IsHexDigit(k[1]);
    assert ParseUnsignedHex(k) == LeadingHexValue(k);
    HexPrefixAll(k);
  }

  /** The digit run of an all-digit string is the whole string. */
  lemma HexPrefixAll(k: string)
    requires AllHex(k)
    ensures HexPrefix(k) == k
  {
  }

  /** Reading a key back with `parseInt(key, 16)` gives the codepoint:
      formatting and parsing are inverse on non-negative integers. */
  lemma FormatKeyRoundTrip(n: nat)
    ensures JsParseInt16(FormatKey(n)) == Some(n)
  {
    FormatKeyValue(n);
    ParseAllHex(FormatKey(n));
  }

  /** The key of a number is all digits and has the number's value. */
  lemma FormatKeyValue(n: nat)
    ensures |FormatKey(n)| >= 1 && AllHex(FormatKey(n)) && ValueOf(FormatKey(n)) == n
  {
    var digits := AsciiUpper(HexLower(n));
    UpperDigits(n);
    var k := FormatKey(n);
    assert k == Repeat('0', |k| - |digits|) + digits;
    ValueOfZeroPadding(|k| - |digits|, digits);
  }

  /** Distinct non-negative codepoints get distinct keys. */
  lemma FormatKeyInjective(a: nat, b: nat)
    requires FormatKey(a) == FormatKey(b)
    ensures a == b
  {
    FormatKeyRoundTrip(a);
    FormatKeyRoundTrip(b);
  }
}

=== FILE: index_enricher.dfy ===
/** The index enricher: each line of the alphabetical index names a phrase
    and, after a tab, the codepoint it indexes; the phrase is appended to that
    record's `indexEntries`. The file is a fold of one pure step over its
    lines, numbered from 1. */
module IndexEnricher {
  import opened Wrappers
  import opened Text
  import opened Diagnostics
  import opened Records
  import opened LineFold

  /** Codes the index uses as jokes; they are skipped even when present. */
  const DenyList: set<string> := {"BOOP", "DOOD", "DEAF"}

  /** How one index line reads. */
  datatype IndexLine =
    /** Blank (only white space) or a `#` comment. */
    | Ignored
    /** Fewer than two tab-separated fields. */
    | Malformed
    /** The first two tab-separated fields. */
    | Entry(phrase: string, code: string)

  predicate IsIgnored(line: string) {
    JsTrim(line) == "" || StartsWith(line, "#")
  }

  /** Classify a line: blank or comment lines first, then the tab split. An
      entry's phrase is the text before the first tab and its code the text
      up to the next tab. */
  function Parse(line: string): (r: IndexLine)
    ensures r.Ignored? <==> IsIgnored(line)
    ensures r.Malformed? <==> !IsIgnored(line) && !Contains(line, "\t")
    ensures r.Entry? ==> !Contains(r.phrase, "\t") && !Contains(r.code, "\t")
    ensures r.Entry? ==> StartsWith(line, r.phrase + "\t" + r.code)
    ensures r.Entry? ==> FirstTwoFields(line, "\t", r.phrase, r.code)
  {
    if IsIgnored(line) then Ignored
    else
      var fields := Split(line, "\t");
      SplitSingleIff(line, "\t");
      if |fields| < 2 then Malformed
      else
        SplitFirstTwo(line, "\t");
        Entry(fields[0], fields[1])
  }

  /** Conversely, a line that is not ignored reads as the entry of its first
      two tab-separated fields, whatever way they are found. */
  lemma EntryFields(line: string, phrase: string, code: string)
    requires !IsIgnored(line) && FirstTwoFields(line, "\t", phrase, code)
    ensures Parse(line) == Entry(phrase, code)
  {
    SplitOfFirstTwo(line, '\t', phrase, code);
  }

  /** The phrases a line contributes to record `k`: its phrase when it is an
      entry for `k` and `k` is not a joke code. */
  function LineEntries(line: string, k: string): seq<string> {
    EntriesOf(Parse(line), k)
  }

  /** The phrases a read line contributes to record `k`. */
  function EntriesOf(p: IndexLine, k: string): seq<string> {
    match p
    case Entry(phrase, code) => if code == k && code !in DenyList then [phrase] else []
    case _ => []
  }

  /** Process line number `lineNo`. A hit appends the phrase to the end of
      the target's `indexEntries` (created if absent); no other record and no
      other field changes, and no key is added. */
  function Step(m: CodepointMap, lineNo: nat, line: string): (r: (CodepointMap, seq<Warning>))
    ensures PreservesRecords(m, r.0)
    ensures |r.1| <= 1
    ensures forall k | k in m ::
      Get(r.0[k], IndexEntries) == Accumulate(Get(m[k], IndexEntries), LineEntries(line, k))
    ensures forall k, g: ListField | k in m && g != IndexEntries :: Get(r.0[k], g) == Get(m[k], g)
  {
    Apply(m, lineNo, line, Parse(line))
  }

  /** The step once the line has been read: the same guarantees, stated of
      the read line. */
  function Apply(m: CodepointMap, lineNo: nat, line: string, p: IndexLine): (r: (CodepointMap, seq<Warning>))
    ensures PreservesRecords(m, r.0)
    ensures |r.1| <= 1
    ensures forall k | k in m ::
      Get(r.0[k], IndexEntries) == Accumulate(Get(m[k], IndexEntries), EntriesOf(p, k))
    ensures forall k, g: ListField | k in m && g != IndexEntries :: Get(r.0[k], g) == Get(m[k], g)
  {
    match p
    case Ignored => (m, [])
    case Malformed => (m, [MalformedLine(lineNo, line)])
    case Entry(phrase, code) =>
      if code in DenyList then (m, [])
      else if code !in m then (m, if EndsWith(code, "0") then [] else [IndexCodeNotFound(code)])
      else (PushAt(m, code, IndexEntries, [phrase]), [])
  }

  /** Blank and comment lines change nothing and say nothing; a line without
      a tab changes nothing and reports itself as malformed. */
  lemma SkippedLines(m: CodepointMap, lineNo: nat, line: string)
    ensures IsIgnored(line) ==> Step(m, lineNo, line) == (m, [])
    ensures !IsIgnored(line) && !Contains(line, "\t") ==>
      Step(m, lineNo, line) == (m, [MalformedLine(lineNo, line)])
  {
  }

  /** A joke code is skipped even when it is a key of the map. */
  lemma DenyListSkipped(m: CodepointMap, lineNo: nat, line: string)
    requires Parse(line).Entry? && Parse(line).code in DenyList
    ensures Step(m, lineNo, line) == (m, [])
  {
  }

  /** A code absent from the map adds no key and changes nothing; the
      warning is given exactly when the code does not end in '0'. */
  lemma MissWarnsUnlessRangeStart(m: CodepointMap, lineNo: nat, line: string)
    requires Parse(line).Entry? && Parse(line).code !in m && Parse(line).code !in DenyList
    ensures Step(m, lineNo, line).0 == m
    ensures Step(m, lineNo, line).1 == [] <==> EndsWith(Parse(line).code, "0")
    ensures Step(m, lineNo, line).1 != [] ==> Step(m, lineNo, line).1 == [IndexCodeNotFound(Parse(line).code)]
  {
  }

  /** The warnings the index enricher can give against a map with keys
      `keys`: a malformed line, or a missing code that does not end in '0'. */
  predicate IndexWarning(w: Warning, keys: set<string>) {
    || w.MalformedLine?
    || (w.IndexCodeNotFound? && w.code !in keys && !EndsWith(w.code, "0") && w.code !in DenyList)
  }

  /** Every warning a line gives is about that line or about a missing code
      that does not end in '0'. */
  lemma StepWarnings(m: CodepointMap, lineNo: nat, line: string)
    ensures forall w | w in Step(m, lineNo, line).1 ::
      w == MalformedLine(lineNo, line) || (w.IndexCodeNotFound? && IndexWarning(w, m.Keys))
  {
    ApplyWarnings(m, lineNo, line, Parse(line));
  }

  /** The same, for any reading of the line. */
  lemma ApplyWarnings(m: CodepointMap, lineNo: nat, line: string, p: IndexLine)
    ensures forall w | w in Apply(m, lineNo, line, p).1 ::
      w == MalformedLine(lineNo, line) || (w.IndexCodeNotFound? && IndexWarning(w, m.Keys))
  {
  }

  /** Each step keeps what the map started with: the keys and every
      record's scalars. */
  lemma StepKeepsRecords(m: CodepointMap)
    ensures forall t, n, l | PreservesRecords(m, t) :: PreservesRecords(m, Step(t, n, l).0)
  {
    forall t, n, l | PreservesRecords(m, t)
      ensures PreservesRecords(m, Step(t, n, l).0)
    {
      PreservesRecordsTransitive(m, t, Step(t, n, l).0);
    }
  }

  /** A step over a map with the keys of `m` gives only the index
      enricher's kinds of warning against those keys. */
  lemma StepWarningKinds(m: CodepointMap)
    ensures forall t, n, l, w | PreservesRecords(m, t) && w in Step(t, n, l).1 :: IndexWarning(w, m.Keys)
  {
    forall t, n, l, w | PreservesRecords(m, t) && w in Step(t, n, l).1
      ensures IndexWarning(w, m.Keys)
    {
      StepWarnings(t, n, l);
    }
  }

  /** The lines from number `lineNo` on, folded over the map: no key is
      added or lost, no scalar changes, and at most one warning per line. */
  function EnrichFrom(m: CodepointMap, lines: seq<string>, lineNo: nat): (r: (CodepointMap, seq<Warning>))
    ensures PreservesRecords(m, r.0)
    ensures |r.1| <= |lines|
    ensures forall w | w in r.1 :: IndexWarning(w, m.Keys)
  {
    StepKeepsRecords(m);
    StepWarningKinds(m);
    FoldInvariant((t: CodepointMap, n: nat, l: string) => Step(t, n, l), t => PreservesRecords(m, t),
                  w => IndexWarning(w, m.Keys), m, lines, lineNo);
    FoldWarningBound((t: CodepointMap, n: nat, l: string) => Step(t, n, l), 1, m, lines, lineNo);
    Fold((t: CodepointMap, n: nat, l: string) => Step(t, n, l), m, lines, lineNo)
  }

  /** The whole index file. */
  function Enrich(m: CodepointMap, lines: seq<string>): (r: (CodepointMap, seq<Warning>))
    ensures PreservesRecords(m, r.0)
  {
    EnrichFrom(m, lines, 1)
  }

  /** Every phrase the lines give record `k`, in file order. */
  function EntriesFor(lines: seq<string>, k: string): seq<string> {
    Gathered((l, j) => LineEntries(l, j), lines, k)
  }

  /** The fold against its reference: each record ends up with its prior
      `indexEntries` followed by every phrase the file gives it, duplicates
      and all, and every other field as it was. */
  lemma EnrichAccumulates(m: CodepointMap, lines: seq<string>, lineNo: nat)
    ensures var r := EnrichFrom(m, lines, lineNo).0;
      && r.Keys == m.Keys
      && (forall k | k in m ::
            Get(r[k], IndexEntries) == Accumulate(Get(m[k], IndexEntries), EntriesFor(lines, k)))
      && (forall k, g: ListField | k in m && g != IndexEntries :: Get(r[k], g) == Get(m[k], g))
  {
    StepAppendsOnly();
    FoldAccumulates((t: CodepointMap, n: nat, l: string) => Step(t, n, l), (l, j) => LineEntries(l, j), IndexEntries, m, lines, lineNo);
  }

  /** Step's contract for every map at once, in the form the fold needs. */
  lemma StepAppendsOnly()
    ensures forall t, n, l :: Step(t, n, l).0.Keys == t.Keys
    ensures forall t, n, l, k | k in t && k in Step(t, n, l).0 ::
      Get(Step(t, n, l).0[k], IndexEntries) == Accumulate(Get(t[k], IndexEntries), LineEntries(l, k))
    ensures forall t, n, l, k, g: ListField | k in t && k in Step(t, n, l).0 && g != IndexEntries ::
      Get(Step(t, n, l).0[k], g) == Get(t[k], g)
  {
  }

  /** A joke code never gains an entry, whatever the file says. */
  lemma {:induction false} DenyListNeverGains(lines: seq<string>, k: string)
    requires k in DenyList
    ensures EntriesFor(lines, k) == []
    decreases |lines|
  {
    if lines != [] {
      DenyListNeverGains(lines[1..], k);
    }
  }

  /** Processing a file in two parts is processing it whole: appends are
      cumulative and line numbers carry on. */
  lemma EnrichSplit(m: CodepointMap, a: seq<string>, b: seq<string>, lineNo: nat)
    ensures EnrichFrom(m, a + b, lineNo).0 == EnrichFrom(EnrichFrom(m, a, lineNo).0, b, lineNo + |a|).0
    ensures EnrichFrom(m, a + b, lineNo).1
         == EnrichFrom(m, a, lineNo).1 + EnrichFrom(EnrichFrom(m, a, lineNo).0, b, lineNo + |a|).1
  {
    FoldSplit((t: CodepointMap, n: nat, l: string) => Step(t, n, l), m, a, b, lineNo);
  }
}

=== FILE: names_list.dfy ===
/** The names-list enricher: block headers select a record (the cursor) and
    the tab-indented annotation lines under a header append comments, cross
    references, variants and approximations to it. The file is a fold of one
    step over its lines, with the cursor as part of the state. */
module NamesList {
  import opened Wrappers
  import opened Text
  import opened Diagnostics
  import opened Records
  import opened LineFold

  /** The map and the key of the record the last header selected, if any. */
  datatype NamesState = NamesState(m: CodepointMap, cursor: Option<string>)

  /** The record the cursor selects: the source holds a reference to a
      record of the map, so a key that is not in the map selects nothing. */
  function Current(st: NamesState): (r: Option<string>)
    ensures r.Some? ==> r.value in st.m && st.cursor == r
    ensures st.cursor.Some? && st.cursor.value in st.m ==> r == st.cursor
  {
    if st.cursor.Some? && st.cursor.value in st.m then st.cursor else None
  }

  /** How one names-list line reads. */
  datatype NamesLine =
    /** Blank, a `;` comment or an `@` heading: the block ends. */
    | Reset
    /** A line not starting with a tab: a codepoint and, after a tab, its
        description when there is one. */
    | Header(code: string, description: Option<string>)
    /** A tab-indented line: the type character at offset 1 and the trimmed
        text from offset 3. */
    | Annotation(lineType: string, payload: string)

  predicate IsReset(line: string) {
    JsTrim(line) == "" || StartsWith(line, ";") || StartsWith(line, "@")
  }

  function Parse(line: string): (r: NamesLine)
    ensures r.Reset? <==> IsReset(line)
    ensures r.Header? <==> !IsReset(line) && !StartsWith(line, "\t")
    ensures r.Header? ==> StartsWith(line, r.code) && !Contains(r.code, "\t")
    ensures r.Header? ==> (r.description.Some? <==> Contains(line, "\t"))
    ensures r.Header? && r.description.Some? ==> StartsWith(line, r.code + "\t" + r.description.value)
    ensures r.Header? && r.description.None? ==> r.code == line
    ensures r.Header? && r.description.Some? ==> FirstTwoFields(line, "\t", r.code, r.description.value)
    ensures r.Annotation? ==> |line| >= 1 && line[0] == '\t'
    ensures r.Annotation? ==> r.lineType == (if |line| >= 2 then [line[1]] else "")
    ensures r.Annotation? ==> r.payload == (if |line| >= 3 then JsTrim(line[3..]) else "")
  {
    if IsReset(line) then Reset
    else if !StartsWith(line, "\t") then
      var fields := Split(line, "\t");
      SplitSingleIff(line, "\t");
      JoinHead(fields, "\t");
      if |fields| >= 2 then
        SplitPrefix(line, "\t");
        SplitFirstTwo(line, "\t");
        Header(fields[0], Some(fields[1]))
      else Header(fields[0], None)
    else
      Annotation(Slice(line, 1, 2), JsTrim(SliceFrom(line, 3)))
  }

  /** Conversely, a header line with a tab reads as its first two
      tab-separated fields, whatever way they are found. */
  lemma HeaderFields(line: string, code: string, description: string)
    requires !IsReset(line) && !StartsWith(line, "\t")
    requires FirstTwoFields(line, "\t", code, description)
    ensures Parse(line) == Header(code, Some(description))
  {
    SplitOfFirstTwo(line, '\t', code, description);
  }

  /** What an annotation line does to the selected record. */
  datatype Action =
    | Append(field: ListField, text: string)
    | Nothing
    | UnknownType

  /** The four fields the names list writes to. */
  const NamesFields: set<ListField> := {Comments, Related, Variants, Approximations}

  /** The one-character dispatch. `%` appends the corrected name and then
      falls through into the `:` case, which adds nothing: decompositions
      are not processed. */
  function Dispatch(lineType: string, payload: string): (r: Action)
    ensures r.Append? ==> lineType in {"*", "=", "x", "~", "#", "%"} && r.field in NamesFields
    ensures r.Nothing? <==> lineType == ":"
    ensures r.UnknownType? <==> lineType !in {"*", "=", "x", "~", "#", "%", ":"}
    ensures r.Append? && r.field == Comments ==> lineType in {"*", "=", "%"}
  {
    match lineType
    case "*" => Append(Comments, payload)
    case "=" => Append(Comments, "Formal Alias: " + payload)
    case "x" => Append(Related, payload)
    case "~" => Append(Variants, payload)
    case "#" => Append(Approximations, payload)
    case "%" => Append(Comments, "Corrected name: " + payload)
    case ":" => Nothing
    case _ => UnknownType
  }

  /** Whether a header's description excuses a missing codepoint. */
  predicate IsPlaceholder(description: Option<string>) {
    description == Some("<not a character>") || description == Some("<reserved>")
  }

  /** The cursor after a parsed line, given the keys of the map: it is
      reset by a block end, set by a header to its code when that is a key,
      and kept by annotation lines. */
  function CursorOf(keys: set<string>, cursor: Option<string>, p: NamesLine): Option<string> {
    match p
    case Reset => None
    case Header(code, _) => if code in keys then Some(code) else None
    case Annotation(_, _) => cursor
  }

  function NextCursor(keys: set<string>, cursor: Option<string>, line: string): Option<string> {
    CursorOf(keys, cursor, Parse(line))
  }

  /** The text a parsed line appends to field `f` of record `k`, when the
      cursor before it is `cursor`. */
  function AddsOf(keys: set<string>, cursor: Option<string>, p: NamesLine, k: string, f: ListField): seq<string> {
    match p
    case Annotation(t, payload) =>
      if cursor == Some(k) && k in keys then
        match Dispatch(t, payload)
        case Append(g, text) => if g == f then [text] else []
        case _ => []
      else []
    case _ => []
  }

  function LineAdds(keys: set<string>, cursor: Option<string>, line: string, k: string, f: ListField): seq<string> {
    AddsOf(keys, cursor, Parse(line), k, f)
  }

  /** The effect of a parsed line. Data changes only on an annotation under
      a selected record, and then only by appending one entry to one field
      of that record. */
  function Apply(st: NamesState, p: NamesLine): (r: (NamesState, seq<Warning>))
    ensures PreservesRecords(st.m, r.0.m)
    ensures r.0.cursor == CursorOf(st.m.Keys, st.cursor, p)
    ensures |r.1| <= 1
    ensures forall k, f: ListField | k in st.m ::
      Get(r.0.m[k], f) == Accumulate(Get(st.m[k], f), AddsOf(st.m.Keys, st.cursor, p, k, f))
  {
    match p
    case Reset => (st.(cursor := None), [])
    case Header(code, description) =>
      if code in st.m then (st.(cursor := Some(code)), [])
      else (st.(cursor := None), if IsPlaceholder(description) then [] else [NamesListCodeNotFound(code, description)])
    case Annotation(lineType, payload) =>
      match Current(st)
      case None => (st, [])
      case Some(k) =>
        match Dispatch(lineType, payload)
        case Append(f, text) => (st.(m := PushAt(st.m, k, f, [text])), [])
        case Nothing => (st, [])
        case UnknownType => (st, [UnknownLineType(lineType, st.m[k].code)])
  }

  /** Process one line: no key is added and no scalar (in particular
      `code`) changes; the cursor moves as the line kind dictates; each
      record's fields grow by exactly what the line gives them. */
  function Step(st: NamesState, lineNo: nat, line: string): (r: (NamesState, seq<Warning>))
    ensures PreservesRecords(st.m, r.0.m)
    ensures r.0.cursor == NextCursor(st.m.Keys, st.cursor, line)
    ensures |r.1| <= 1
    ensures forall k, f: ListField | k in st.m ::
      Get(r.0.m[k], f) == Accumulate(Get(st.m[k], f), LineAdds(st.m.Keys, st.cursor, line, k, f))
  {
    Apply(st, Parse(line))
  }

  /** Block ends reset the cursor and change no data. */
  lemma ResetLine(st: NamesState, lineNo: nat, line: string)
    requires IsReset(line)
    ensures Step(st, lineNo, line) == (st.(cursor := None), [])
  {
  }

  /** A header changes no data and sets the cursor to the lookup of its
      code; a failed lookup warns unless the description is a placeholder. */
  lemma HeaderLine(st: NamesState, lineNo: nat, line: string)
    requires Parse(line).Header?
    ensures Step(st, lineNo, line).0.m == st.m
    ensures Step(st, lineNo, line).0.cursor == if Parse(line).code in st.m then Some(Parse(line).code) else None
    ensures Step(st, lineNo, line).1 != [] <==> Parse(line).code !in st.m && !IsPlaceholder(Parse(line).description)
  {
  }

  /** An annotation with no selected record changes nothing. */
  lemma OrphanAnnotation(st: NamesState, lineNo: nat, line: string)
    requires Parse(line).Annotation? && Current(st).None?
    ensures Step(st, lineNo, line) == (st, [])
  {
  }

  /** The appending cases of the dispatch: `*` gives a comment, `=` a
      "Formal Alias:" comment, `x` a related entry, `~` a variant and `#` an
      approximation, each of the trimmed payload. */
  lemma DispatchCases(payload: string)
    ensures Dispatch("*", payload) == Append(Comments, payload)
    ensures Dispatch("=", payload) == Append(Comments, "Formal Alias: " + payload)
    ensures Dispatch("x", payload) == Append(Related, payload)
    ensures Dispatch("~", payload) == Append(Variants, payload)
    ensures Dispatch("#", payload) == Append(Approximations, payload)
  {
  }

  /** `%` appends "Corrected name: " and the payload to `comments`, then the
      `:` case adds nothing more. */
  lemma CorrectedNameFallsThrough(payload: string)
    ensures Dispatch("%", payload) == Append(Comments, "Corrected name: " + payload)
    ensures Dispatch(":", payload) == Nothing
  {
  }

  /** An unknown type character changes nothing and names the record's code
      in its warning. */
  lemma UnknownTypeWarns(st: NamesState, lineNo: nat, line: string)
    requires Parse(line).Annotation? && Current(st).Some?
    requires Dispatch(Parse(line).lineType, Parse(line).payload).UnknownType?
    ensures Step(st, lineNo, line).0 == st
    ensures Step(st, lineNo, line).1 == [UnknownLineType(Parse(line).lineType, st.m[Current(st).value].code)]
  {
    var p := Parse(line);
    assert Step(st, lineNo, line) == Apply(st, p);
    match Dispatch(p.lineType, p.payload)
    case UnknownType =>
      assert Apply(st, p) == (st, [UnknownLineType(p.lineType, st.m[Current(st).value].code)]);
  }

  /** Each step keeps the keys and scalars the map started with. */
  lemma StepKeepsRecords(m: CodepointMap)
    ensures forall t: NamesState, n, l | PreservesRecords(m, t.m) :: PreservesRecords(m, Step(t, n, l).0.m)
  {
    forall t: NamesState, n, l | PreservesRecords(m, t.m)
      ensures PreservesRecords(m, Step(t, n, l).0.m)
    {
      PreservesRecordsTransitive(m, t.m, Step(t, n, l).0.m);
    }
  }

  /** The lines from number `lineNo` on: no key is added or lost, no scalar
      changes, and at most one warning per line. */
  function EnrichFrom(st: NamesState, lines: seq<string>, lineNo: nat): (r: (NamesState, seq<Warning>))
    ensures PreservesRecords(st.m, r.0.m)
    ensures |r.1| <= |lines|
  {
    StepKeepsRecords(st.m);
    FoldInvariant((t: NamesState, n: nat, l: string) => Step(t, n, l), (t: NamesState) => PreservesRecords(st.m, t.m),
                  w => true, st, lines, lineNo);
    FoldWarningBound((t: NamesState, n: nat, l: string) => Step(t, n, l), 1, st, lines, lineNo);
    Fold((t: NamesState, n: nat, l: string) => Step(t, n, l), st, lines, lineNo)
  }

  /** The whole file, starting with no record selected. */
  function Enrich(m: CodepointMap, lines: seq<string>): (r: (CodepointMap, seq<Warning>))
    ensures PreservesRecords(m, r.0)
  {
    var out := EnrichFrom(NamesState(m, None), lines, 1);
    (out.0.m, out.1)
  }

  /** The cursor after a run of lines, from the keys alone. */
  function CursorAfter(keys: set<string>, cursor: Option<string>, lines: seq<string>): Option<string>
    decreases |lines|
  {
    if lines == [] then cursor else CursorAfter(keys, NextCursor(keys, cursor, lines[0]), lines[1..])
  }

  /** Everything a run of lines appends to field `f` of record `k`, in file
      order, computed from the keys alone. */
  function AddsFor(keys: set<string>, cursor: Option<string>, lines: seq<string>, k: string, f: ListField): seq<string>
    decreases |lines|
  {
    if lines == [] then []
    else LineAdds(keys, cursor, lines[0], k, f) + AddsFor(keys, NextCursor(keys, cursor, lines[0]), lines[1..], k, f)
  }

  /** The fold against its reference: every field of every record ends up
      with what it had followed by every entry the file appends to it, in
      file order; appends from several blocks accumulate and nothing is
      overwritten. */
  lemma {:induction false} EnrichAccumulates(st: NamesState, lines: seq<string>, lineNo: nat)
    ensures var r := EnrichFrom(st, lines, lineNo).0;
      && r.m.Keys == st.m.Keys
      && r.cursor == CursorAfter(st.m.Keys, st.cursor, lines)
      && forall k, f: ListField | k in st.m ::
           Get(r.m[k], f) == Accumulate(Get(st.m[k], f), AddsFor(st.m.Keys, st.cursor, lines, k, f))
    decreases |lines|
  {
    if lines != [] {
      var s1 := Step(st, lineNo, lines[0]).0;
      var r := EnrichFrom(st, lines, lineNo).0;
      EnrichAccumulates(s1, lines[1..], lineNo + 1);
      assert s1.m.Keys == st.m.Keys;
      forall k, f: ListField | k in st.m
        ensures Get(r.m[k], f) == Accumulate(Get(st.m[k], f), AddsFor(st.m.Keys, st.cursor, lines, k, f))
      {
        AccumulateTwice(Get(st.m[k], f), LineAdds(st.m.Keys, st.cursor, lines[0], k, f),
                        AddsFor(st.m.Keys, s1.cursor, lines[1..], k, f));
      }
    }
  }

  /** The names list appends to no field outside its four, whatever the
      lines say. */
  lemma {:induction false} OnlyNamesFields(keys: set<string>, cursor: Option<string>, lines: seq<string>,
                                           k: string, f: ListField)
    requires f !in NamesFields
    ensures AddsFor(keys, cursor, lines, k, f) == []
    decreases |lines|
  {
    if lines != [] {
      OnlyNamesFields(keys, NextCursor(keys, cursor, lines[0]), lines[1..], k, f);
    }
  }

  /** Processing a file in two parts is processing it whole: the cursor and
      the appends carry over from the first part to the second. */
  lemma EnrichSplit(st: NamesState, a: seq<string>, b: seq<string>, lineNo: nat)
    ensures EnrichFrom(st, a + b, lineNo).0 == EnrichFrom(EnrichFrom(st, a, lineNo).0, b, lineNo + |a|).0
  {
    FoldSplit((t: NamesState, n: nat, l: string) => Step(t, n, l), st, a, b, lineNo);
  }
}

=== FILE: records.dfy ===
/** The per-codepoint record and the keyed map the enrichers share. Required
    fields are plain strings; each optional field is an Option, None standing
    for an absent (undefined or deleted) property. An element of a
    `caseVariants` list may itself be `undefined` (None), which JSON writes
    as null. */
module Records {
  import opened Wrappers

  datatype CodepointData = CodepointData(
    age: string,
    approximations: Option<seq<string>>,
    bidi: string,
    block: string,
    caseVariants: Option<map<string, seq<Option<string>>>>,
    category: string,
    code: string,
    combine: string,
    comments: Option<seq<string>>,
    decomposition: Option<seq<string>>,
    indexEntries: Option<seq<string>>,
    mirror: Option<string>,
    name: string,
    notes: Option<seq<string>>,
    oldname: Option<string>,
    related: Option<seq<string>>,
    script: string,
    scriptExtensions: Option<seq<string>>,
    tags: Option<seq<string>>,
    title: string,
    variants: Option<seq<string>>)

  /** The map from codepoint key to record. */
  type CodepointMap = map<string, CodepointData>

  /** The nine optional string-sequence fields of a record. */
  datatype ListField =
    | Approximations | Comments | Decomposition | IndexEntries | Notes
    | Related | ScriptExtensions | Tags | Variants

  function Get(r: CodepointData, f: ListField): Option<seq<string>> {
    match f
    case Approximations => r.approximations
    case Comments => r.comments
    case Decomposition => r.decomposition
    case IndexEntries => r.indexEntries
    case Notes => r.notes
    case Related => r.related
    case ScriptExtensions => r.scriptExtensions
    case Tags => r.tags
    case Variants => r.variants
  }

  /** Every field that is not a string sequence: the required strings,
      `caseVariants`, `mirror` and `oldname`. */
  predicate SameScalars(a: CodepointData, b: CodepointData) {
    && a.age == b.age && a.bidi == b.bidi && a.block == b.block
    && a.caseVariants == b.caseVariants && a.category == b.category
    && a.code == b.code && a.combine == b.combine && a.mirror == b.mirror
    && a.name == b.name && a.oldname == b.oldname && a.script == b.script
    && a.title == b.title
  }

  /** Two records agreeing on every scalar and every list field are equal. */
  lemma RecordExtensionality(a: CodepointData, b: CodepointData)
    requires SameScalars(a, b)
    requires forall f: ListField :: Get(a, f) == Get(b, f)
    ensures a == b
  {
    assert Get(a, Approximations) == Get(b, Approximations);
    assert Get(a, Comments) == Get(b, Comments);
    assert Get(a, Decomposition) == Get(b, Decomposition);
    assert Get(a, IndexEntries) == Get(b, IndexEntries);
    assert Get(a, Notes) == Get(b, Notes);
    assert Get(a, Related) == Get(b, Related);
    assert Get(a, ScriptExtensions) == Get(b, ScriptExtensions);
    assert Get(a, Tags) == Get(b, Tags);
    assert Get(a, Variants) == Get(b, Variants);
  }

  /** The record with list field `f` replaced by `v` and nothing else changed. */
  function With(r: CodepointData, f: ListField, v: Option<seq<string>>): (r': CodepointData)
    ensures Get(r', f) == v
    ensures forall g: ListField | g != f :: Get(r', g) == Get(r, g)
    ensures SameScalars(r, r')
  {
    match f
    case Approximations => r.(approximations := v)
    case Comments => r.(comments := v)
    case Decomposition => r.(decomposition := v)
    case IndexEntries => r.(indexEntries := v)
    case Notes => r.(notes := v)
    case Related => r.(related := v)
    case ScriptExtensions => r.(scriptExtensions := v)
    case Tags => r.(tags := v)
    case Variants => r.(variants := v)
  }

  /** The enrichers' "create the list if it is absent, then push the items". */
  function Push(o: Option<seq<string>>, items: seq<string>): (r: Option<seq<string>>)
    ensures r.Some?
    ensures |r.value| == |o.GetOr([])| + |items|
    ensures r.value[..|o.GetOr([])|] == o.GetOr([]) && r.value[|o.GetOr([])|..] == items
  {
    Some(o.GetOr([]) + items)
  }

  /** The effect of a whole run of pushes whose items, concatenated, are
      `adds`: nothing when there are none (an absent list stays absent),
      otherwise the items after whatever was there. */
  function Accumulate(o: Option<seq<string>>, adds: seq<string>): Option<seq<string>> {
    if adds == [] then o else Push(o, adds)
  }

  /** A non-empty push followed by more pushes is one accumulation. */
  lemma PushThenAccumulate(o: Option<seq<string>>, items: seq<string>, adds: seq<string>)
    requires items != []
    ensures Accumulate(Push(o, items), adds) == Accumulate(o, items + adds)
  {
    if adds != [] {
      assert o.GetOr([]) + items + adds == o.GetOr([]) + (items + adds);
    } else {
      assert items + adds == items;
    }
  }

  /** Pushes that follow one another accumulate their items in order. */
  lemma AccumulateTwice(o: Option<seq<string>>, a: seq<string>, b: seq<string>)
    ensures Accumulate(Accumulate(o, a), b) == Accumulate(o, a + b)
  {
    if a != [] && b != [] {
      assert o.GetOr([]) + a + b == o.GetOr([]) + (a + b);
    } else if a == [] {
      assert a + b == b;
    } else {
      assert a + b == a;
    }
  }

  /** Push `items` onto list field `f` of record `k`. */
  function PushAt(m: CodepointMap, k: string, f: ListField, items: seq<string>): (m': CodepointMap)
    requires k in m
    ensures m'.Keys == m.Keys
    ensures forall j | j in m && j != k :: m'[j] == m[j]
    ensures Get(m'[k], f) == Push(Get(m[k], f), items)
    ensures forall g: ListField | g != f :: Get(m'[k], g) == Get(m[k], g)
    ensures SameScalars(m[k], m'[k])
  {
    m[k := With(m[k], f, Push(Get(m[k], f), items))]
  }

  /** `after` has the keys of `before` and every record keeps its scalars:
      what every enricher guarantees. */
  predicate PreservesRecords(before: CodepointMap, after: CodepointMap) {
    && after.Keys == before.Keys
    && forall k | k in before :: SameScalars(before[k], after[k])
  }

  lemma PreservesRecordsTransitive(a: CodepointMap, b: CodepointMap, c: CodepointMap)
    requires PreservesRecords(a, b) && PreservesRecords(b, c)
    ensures PreservesRecords(a, c)
  {
  }
}

=== FILE: repertoire.dfy ===
/** The repertoire loader: one record per entry of the flattened character
    repertoire (src/XmlToMap.ts). The XML parser is a collaborator; its output
    for one `<char>` element arrives as a `CharAttrs` attribute bag. */
module Repertoire {
  import opened Wrappers
  import opened Text
  import opened Diagnostics
  import opened Records

  /** One `<name-alias alias=".." type=".."/>` child. */
  datatype AliasEntry = AliasEntry(alias: string, kind: string)

  /** The parser gives a single alias child as a bare object and several as
      an array; the property is missing when there is none. */
  datatype NameAliases = NoAliases | OneAlias(entry: AliasEntry) | AliasArray(entries: seq<AliasEntry>)

  /** The attributes of one `<char>` element. `flags` holds the binary
      properties (`WSpace`, `Emoji`, `Dep`, ... with values "Y"/"N"); the
      attributes copied into required record fields are always present in
      the flattened repertoire. */
  datatype CharAttrs = CharAttrs(
    cp: Option<string>, firstCp: Option<string>,
    flags: map<string, string>,
    nt: Option<string>,
    na: Option<string>, na1: Option<string>, nameAliases: NameAliases,
    jsn: Option<string>,
    suc: Option<string>, slc: Option<string>, stc: Option<string>,
    uc: Option<string>, lc: Option<string>, tc: Option<string>,
    ucp: Option<string>, lcp: Option<string>, tcp: Option<string>,
    dm: Option<string>, bpt: Option<string>, bpb: Option<string>, bmg: Option<string>,
    age: string, bc: string, blk: string, gc: string, ccc: string, sc: string)

  /** JavaScript truthiness of an optional string: present and non-empty. */
  predicate Truthy(o: Option<string>) {
    o.Some? && o.value != ""
  }

  /** `v && v.length > 0 && v !== "#"`: an attribute with a real value
      ("#" stands for "the codepoint itself"). */
  predicate HasValue(o: Option<string>) {
    Truthy(o) && o.value != "#"
  }

  /** JavaScript template-literal text of an optional string. */
  function TemplateText(o: Option<string>): string {
    if o.Some? then o.value else "undefined"
  }

  // ---------------------------------------------------------------- tags

  predicate FlagSet(c: CharAttrs, attr: string) {
    attr in c.flags && c.flags[attr] == "Y"
  }

  /** The tags of a table of (attribute, tag) pairs, in table order: each
      tag whose attribute is set. */
  function FlagTags(c: CharAttrs, table: seq<(string, string)>): (r: seq<string>)
    ensures forall t | t in r :: t in Labels(table)
  {
    if table == [] then []
    else (if FlagSet(c, table[0].0) then [table[0].1] else []) + FlagTags(c, table[1..])
  }

  function Labels(table: seq<(string, string)>): set<string> {
    set i | 0 <= i < |table| :: table[i].1
  }

  /** The numeric-type switch: at most one of Decimal, Digit, Numeric. */
  function NumericTag(nt: Option<string>): seq<string> {
    if nt == Some("De") then ["Decimal"]
    else if nt == Some("Di") then ["Digit"]
    else if nt == Some("Nu") then ["Numeric"]
    else []
  }

  const GeneralFlags: seq<(string, string)> :=
    [("WSpace", "Whitespace"), ("Emoji", "Emoji"), ("Dep", "Deprecated"),
     ("QMark", "Quote"), ("Dash", "Dash")]

  /** `Other_Lowercase` tests `Lower`, exactly as the source does. */
  const CaseFlags: seq<(string, string)> :=
    [("Upper", "Uppercase"), ("Lower", "Lowercase"),
     ("OUpper", "Other_Uppercase"), ("Lower", "Other_Lowercase")]

  const OtherFlags: seq<(string, string)> :=
    [("Term", "Terminal_Punctuation"), ("STerm", "Sentence_Terminal"),
     ("Dia", "Diacritic"), ("Ext", "Extender"), ("SD", "Soft_Dotted"),
     ("Alpha", "Alphabetic"), ("OAlpha", "Other_Alphabetic"),
     ("Math", "Math"), ("OMath", "Other_Math"),
     ("Hex", "Hexadecimal"), ("AHex", "ASCII_Hexadecimal"),
     ("RI", "Regional_Indicator"), ("NChar", "Noncharacter_Code_Point"),
     ("VS", "Variation_Selector")]

  /** The tags derived from binary properties, in the source's order. */
  function PropertyTags(c: CharAttrs): seq<string> {
    FlagTags(c, GeneralFlags) + NumericTag(c.nt) + FlagTags(c, CaseFlags) + FlagTags(c, OtherFlags)
  }

  /** The numeric and lowercase labels occur in no flag group but their own. */
  lemma LabelsDisjoint()
    ensures forall x | x in {"Decimal", "Digit", "Numeric", "Lowercase", "Other_Lowercase"} ::
      x !in Labels(GeneralFlags) && x !in Labels(OtherFlags)
    ensures forall x | x in {"Decimal", "Digit", "Numeric"} :: x !in Labels(CaseFlags)
  {
  }

  /** A tag is produced exactly when some row of the table carries it and
      that row's attribute is set. */
  lemma {:induction false} FlagTagsMember(c: CharAttrs, table: seq<(string, string)>, x: string)
    ensures x in FlagTags(c, table) <==>
      exists i | 0 <= i < |table| :: table[i].1 == x && FlagSet(c, table[i].0)
  {
    if table != [] {
      FlagTagsMember(c, table[1..], x);
      var head := if FlagSet(c, table[0].0) then [table[0].1] else [];
      assert FlagTags(c, table) == head + FlagTags(c, table[1..]);
      if exists i | 0 <= i < |table[1..]| :: table[1..][i].1 == x && FlagSet(c, table[1..][i].0) {
        var i :| 0 <= i < |table[1..]| && table[1..][i].1 == x && FlagSet(c, table[1..][i].0);
        assert table[i + 1] == table[1..][i];
      }
      if exists i | 0 <= i < |table| :: table[i].1 == x && FlagSet(c, table[i].0) {
        var i :| 0 <= i < |table| && table[i].1 == x && FlagSet(c, table[i].0);
        if i > 0 {
          assert table[1..][i - 1] == table[i];
        }
      }
    }
  }

  /** Membership in the concatenated groups is membership in one of them. */
  lemma InGroups(g: seq<string>, n: seq<string>, k: seq<string>, o: seq<string>, x: string)
    ensures x in g + n + k + o <==> x in g || x in n || x in k || x in o
  {
  }

  /** The numeric tag follows `nt` exactly, so at most one of the three
      appears. */
  lemma NumericTagExclusive(c: CharAttrs)
    ensures "Decimal" in PropertyTags(c) <==> c.nt == Some("De")
    ensures "Digit" in PropertyTags(c) <==> c.nt == Some("Di")
    ensures "Numeric" in PropertyTags(c) <==> c.nt == Some("Nu")
  {
    LabelsDisjoint();
    var g, n, k, o := FlagTags(c, GeneralFlags), NumericTag(c.nt), FlagTags(c, CaseFlags), FlagTags(c, OtherFlags);
    InGroups(g, n, k, o, "Decimal");
    InGroups(g, n, k, o, "Digit");
    InGroups(g, n, k, o, "Numeric");
  }

  /** Both case rows that carry a lowercase tag test `Lower`. */
  lemma CaseTagsLower(c: CharAttrs)
    ensures "Lowercase" in FlagTags(c, CaseFlags) <==> FlagSet(c, "Lower")
    ensures "Other_Lowercase" in FlagTags(c, CaseFlags) <==> FlagSet(c, "Lower")
  {
    FlagTagsMember(c, CaseFlags, "Lowercase");
    FlagTagsMember(c, CaseFlags, "Other_Lowercase");
    assert CaseFlags[1] == ("Lower", "Lowercase");
    assert CaseFlags[3] == ("Lower", "Other_Lowercase");
  }

  /** `Lowercase` is tagged exactly when `Lower` is set. */
  lemma LowercaseTag(c: CharAttrs)
    ensures "Lowercase" in PropertyTags(c) <==> FlagSet(c, "Lower")
  {
    LabelsDisjoint();
    CaseTagsLower(c);
    InGroups(FlagTags(c, GeneralFlags), NumericTag(c.nt), FlagTags(c, CaseFlags), FlagTags(c, OtherFlags), "Lowercase");
  }

  /** `Other_Lowercase` is tagged exactly when `Lower` is set: the source
      tests `Lower`, not `OLower`. */
  lemma OtherLowercaseTag(c: CharAttrs)
    ensures "Other_Lowercase" in PropertyTags(c) <==> FlagSet(c, "Lower")
  {
    LabelsDisjoint();
    CaseTagsLower(c);
    InGroups(FlagTags(c, GeneralFlags), NumericTag(c.nt), FlagTags(c, CaseFlags), FlagTags(c, OtherFlags), "Other_Lowercase");
  }

  /** Both lowercase tags test the `Lower` attribute, so each is present
      exactly when the other is. */
  lemma LowercaseTagsCoincide(c: CharAttrs)
    ensures "Other_Lowercase" in PropertyTags(c) <==> "Lowercase" in PropertyTags(c)
  {
    LowercaseTag(c);
    OtherLowercaseTag(c);
  }

  // ---------------------------------------------------------------- names

  /** `charData.na || charData.na1`. */
  function PrimaryName(c: CharAttrs): Option<string> {
    if Truthy(c.na) then c.na else c.na1
  }

  /** The alias entries the alias loop visits: an array as it is, a single
      object as a one-element array. */
  function AliasEntries(a: NameAliases): seq<AliasEntry> {
    match a
    case NoAliases => []
    case OneAlias(e) => [e]
    case AliasArray(es) => es
  }

  /** The name before placeholder expansion: the primary name, or, when it is
      falsy and aliases exist, the first alias (with a warning). Indexing a
      single alias object or an empty array crashes. */
  function NameSource(c: CharAttrs, cp: string): (r: Result<(Option<string>, seq<Warning>), Crash>)
    ensures r.Failure? <==> !Truthy(PrimaryName(c)) && (c.nameAliases.OneAlias? || c.nameAliases == AliasArray([]))
  {
    var primary := PrimaryName(c);
    if Truthy(primary) || c.nameAliases.NoAliases? then Success((primary, []))
    else match c.nameAliases
      case AliasArray(es) =>
        if |es| > 0 then Success((Some(es[0].alias), [NameFromAlias(cp, es[0].alias)]))
        else Failure(AliasNotIndexable(cp))
      case OneAlias(_) => Failure(AliasNotIndexable(cp))
  }

  /** A name ending in the placeholder `#` has it replaced by the codepoint. */
  function ExpandPlaceholder(name: string, cp: string): (r: string)
    ensures EndsWith(name, "#") ==> |r| == |name| - 1 + |cp| && r[|name| - 1..] == cp
    ensures EndsWith(name, "#") ==> r[..|name| - 1] == name[..|name| - 1]
    ensures !EndsWith(name, "#") ==> r == name
  {
    if EndsWith(name, "#") then name[..|name| - 1] + cp else name
  }

  /** Name resolution up to the alias loop; an unresolved name crashes. */
  function ResolveName(c: CharAttrs, cp: string): (r: Result<(string, seq<Warning>), Crash>)
  {
    var (name, warnings) :- NameSource(c, cp);
    if name.None? then Failure(NameUndefined(cp))
    else Success((ExpandPlaceholder(name.value, cp), warnings))
  }

  // ---------------------------------------------------------------- aliases

  /** What the alias loop carries: the name, notes, tags and warnings. */
  datatype AliasState = AliasState(name: string, notes: seq<string>, tags: seq<string>, warnings: seq<Warning>)

  /** One iteration of the alias loop. Only an abbreviation touches the name,
      only a correction or a figment touches the tags, and only an unknown type
      warns; each adds at most one note. */
  function AliasStep(cp: string, st: AliasState, e: AliasEntry): (r: AliasState)
    ensures r.name != st.name ==> e.kind == "abbreviation"
    ensures r.warnings != st.warnings <==> e.kind !in {"correction", "abbreviation", "control", "alternate", "figment"}
    ensures |st.notes| <= |r.notes| <= |st.notes| + 1 && r.notes[..|st.notes|] == st.notes
  {
    if e.kind == "correction" then
      st.(notes := st.notes + ["Corrected from: " + e.alias], tags := st.tags + ["Corrected"])
    else if e.kind == "abbreviation" then
      if !Contains(st.name, "(") then st.(name := st.name + " (" + e.alias + ")")
      else if !Contains(st.name, "(" + e.alias + ")") then st.(notes := st.notes + ["Abbreviation: " + e.alias])
      else st
    else if e.kind == "control" then
      if e.alias != st.name && !Contains(st.name, e.alias + " (") then
        st.(notes := st.notes + ["Control Name: " + e.alias])
      else st
    else if e.kind == "alternate" then
      st.(notes := st.notes + ["Also known as: " + e.alias])
    else if e.kind == "figment" then
      st.(notes := st.notes + ["Figment Name: " + e.alias], tags := st.tags + ["Figment"])
    else
      st.(warnings := st.warnings + [UnknownAliasType(cp, e.kind)])
  }

  /** What each alias type does to the notes and tags: a correction adds one
      "Corrected from:" note and one "Corrected" tag, a figment one "Figment
      Name:" note and one "Figment" tag, an alternate one "Also known as:"
      note, a control alias one "Control Name:" note unless it is the name or
      occurs as "alias (" in it, and an unknown type nothing but a warning. */
  lemma AliasKinds(cp: string, st: AliasState, e: AliasEntry)
    ensures var r := AliasStep(cp, st, e);
      && (e.kind == "correction" ==>
            r.notes == st.notes + ["Corrected from: " + e.alias] && r.tags == st.tags + ["Corrected"])
      && (e.kind == "figment" ==>
            r.notes == st.notes + ["Figment Name: " + e.alias] && r.tags == st.tags + ["Figment"])
      && (e.kind == "alternate" ==> r.notes == st.notes + ["Also known as: " + e.alias] && r.tags == st.tags)
      && (e.kind == "control" ==>
            r.tags == st.tags
            && r.notes == st.notes + (if e.alias != st.name && !Contains(st.name, e.alias + " (")
                                      then ["Control Name: " + e.alias] else []))
      && (e.kind !in {"correction", "abbreviation", "control", "alternate", "figment"} ==>
            r.name == st.name && r.notes == st.notes && r.tags == st.tags)
  {
  }

  /** The alias loop, left to right. */
  function ApplyAliases(cp: string, st: AliasState, es: seq<AliasEntry>): AliasState
    decreases |es|
  {
    if es == [] then st else ApplyAliases(cp, AliasStep(cp, st, es[0]), es[1..])
  }

  /** The tag each alias type contributes, independent of the name. */
  function AliasTags(es: seq<AliasEntry>): seq<string> {
    if es == [] then []
    else (if es[0].kind == "correction" then ["Corrected"]
          else if es[0].kind == "figment" then ["Figment"] else [])
         + AliasTags(es[1..])
  }

  /** The alias text of the first abbreviation entry, if any. */
  function FirstAbbreviation(es: seq<AliasEntry>): Option<string> {
    if es == [] then None
    else if es[0].kind == "abbreviation" then Some(es[0].alias)
    else FirstAbbreviation(es[1..])
  }

  /** The entries whose type is unknown, as warnings. */
  function UnknownAliasWarnings(cp: string, es: seq<AliasEntry>): seq<Warning> {
    if es == [] then []
    else (if es[0].kind in {"correction", "abbreviation", "control", "alternate", "figment"} then []
          else [UnknownAliasType(cp, es[0].kind)])
         + UnknownAliasWarnings(cp, es[1..])
  }

  /** The loop appends exactly one "Corrected" tag per correction and one
      "Figment" tag per figment, in entry order, whatever the name. */
  lemma {:induction false} AliasTagsAppended(cp: string, st: AliasState, es: seq<AliasEntry>)
    ensures ApplyAliases(cp, st, es).tags == st.tags + AliasTags(es)
    decreases |es|
  {
    if es != [] {
      var next := AliasStep(cp, st, es[0]);
      AliasTagsAppended(cp, next, es[1..]);
      assert next.tags == st.tags + AliasTags([es[0]]);
      assert AliasTags(es) == AliasTags([es[0]]) + AliasTags(es[1..]);
    }
  }

  /** The loop keeps the notes it starts with and adds at most one per
      alias. */
  lemma {:induction false} AliasNotesAppended(cp: string, st: AliasState, es: seq<AliasEntry>)
    ensures var n := ApplyAliases(cp, st, es).notes;
      |st.notes| <= |n| <= |st.notes| + |es| && n[..|st.notes|] == st.notes
    decreases |es|
  {
    if es != [] {
      var next := AliasStep(cp, st, es[0]);
      AliasNotesAppended(cp, next, es[1..]);
      var n := ApplyAliases(cp, st, es).notes;
      assert n[..|next.notes|][..|st.notes|] == n[..|st.notes|];
    }
  }

  /** The loop warns once per entry of unknown type and for nothing else. */
  lemma {:induction false} AliasWarningsAppended(cp: string, st: AliasState, es: seq<AliasEntry>)
    ensures ApplyAliases(cp, st, es).warnings == st.warnings + UnknownAliasWarnings(cp, es)
    decreases |es|
  {
    if es != [] {
      var next := AliasStep(cp, st, es[0]);
      AliasWarningsAppended(cp, next, es[1..]);
      assert UnknownAliasWarnings(cp, es) == UnknownAliasWarnings(cp, [es[0]]) + UnknownAliasWarnings(cp, es[1..]);
    }
  }

  /** The parenthesised suffix an abbreviation adds always contains "(". */
  lemma AbbreviatedHasParen(name: string, alias: string)
    ensures Contains(name + " (" + alias + ")", "(")
  {
    var s := name + " (" + alias + ")";
    assert s[|name| + 1..|name| + 2] == "(";
    OccurrenceContains(s, "(", |name| + 1);
  }

  /** At most one abbreviation rewrites the name: the first one, and only
      when the name had no "(" to begin with. */
  lemma {:induction false} AbbreviationRewritesOnce(cp: string, st: AliasState, es: seq<AliasEntry>)
    ensures ApplyAliases(cp, st, es).name ==
      (if !Contains(st.name, "(") && FirstAbbreviation(es).Some?
       then st.name + " (" + FirstAbbreviation(es).value + ")"
       else st.name)
    decreases |es|
  {
    if es != [] {
      var next := AliasStep(cp, st, es[0]);
      AbbreviationRewritesOnce(cp, next, es[1..]);
      if es[0].kind == "abbreviation" && !Contains(st.name, "(") {
        AbbreviatedHasParen(st.name, es[0].alias);
      }
    }
  }

  // ---------------------------------------------------------------- case, decomposition, notes

  /** `m[key] = v` when there is a value to assign. */
  function Put<V>(m: map<string, V>, key: string, v: Option<V>): map<string, V> {
    if v.Some? then m[key := v.value] else m
  }

  /** The six case assignments in source order: the three simple mappings,
      then the three full mappings. A later assignment to a kind replaces an
      earlier one, so each kind holds its full value, else its simple one. */
  function CaseAssignments<V>(su: Option<V>, sl: Option<V>, st: Option<V>,
                              fu: Option<V>, fl: Option<V>, ft: Option<V>): (m: map<string, V>)
    ensures m.Keys <= {"uppercase", "lowercase", "titlecase"}
    ensures "uppercase" in m <==> fu.Some? || su.Some?
    ensures "uppercase" in m ==> m["uppercase"] == if fu.Some? then fu.value else su.value
    ensures "lowercase" in m <==> fl.Some? || sl.Some?
    ensures "lowercase" in m ==> m["lowercase"] == if fl.Some? then fl.value else sl.value
    ensures "titlecase" in m <==> ft.Some? || st.Some?
    ensures "titlecase" in m ==> m["titlecase"] == if ft.Some? then ft.value else st.value
  {
    var m1 := Put(map[], "uppercase", su);
    var m2 := Put(m1, "lowercase", sl);
    var m3 := Put(m2, "titlecase", st);
    var m4 := Put(m3, "uppercase", fu);
    var m5 := Put(m4, "lowercase", fl);
    Put(m5, "titlecase", ft)
  }

  /** A simple mapping as a one-element list, when it has a value. */
  function SimpleKind(simple: Option<string>): Option<seq<string>> {
    if HasValue(simple) then Some([simple.value]) else None
  }

  /** A full mapping split on spaces, when it has a value. */
  function FullKind(full: Option<string>): Option<seq<string>> {
    if HasValue(full) then Some(Split(full.value, " ")) else None
  }

  /** The simple mapping for a case kind unless the full mapping is set, as
      the six assignments in source order leave it. */
  function KindMapping(simple: Option<string>, full: Option<string>): Option<seq<string>> {
    if HasValue(full) then Some(Split(full.value, " "))
    else if HasValue(simple) then Some([simple.value])
    else None
  }

  /** `caseVariants` with the simple branches storing the tested simple
      mapping (`suc`/`slc`/`stc`); absent when no kind is set. */
  function CaseVariants(c: CharAttrs): (r: Option<map<string, seq<string>>>)
    ensures r.None? <==> !(HasValue(c.suc) || HasValue(c.slc) || HasValue(c.stc)
                           || HasValue(c.uc) || HasValue(c.lc) || HasValue(c.tc))
    ensures r.Some? ==> r.value.Keys <= {"uppercase", "lowercase", "titlecase"}
  {
    var m := CaseAssignments(SimpleKind(c.suc), SimpleKind(c.slc), SimpleKind(c.stc),
                             FullKind(c.uc), FullKind(c.lc), FullKind(c.tc));
    if |m.Keys| > 0 then Some(m) else None
  }

  /** For each kind the full mapping, split on spaces, overrides the simple
      one, and a kind with neither is absent. */
  lemma FullMappingOverridesSimple(c: CharAttrs)
    requires CaseVariants(c).Some?
    ensures var m := CaseVariants(c).value;
      && ("uppercase" in m <==> KindMapping(c.suc, c.uc).Some?)
      && ("uppercase" in m ==> m["uppercase"] == KindMapping(c.suc, c.uc).value)
      && ("lowercase" in m <==> KindMapping(c.slc, c.lc).Some?)
      && ("lowercase" in m ==> m["lowercase"] == KindMapping(c.slc, c.lc).value)
      && ("titlecase" in m <==> KindMapping(c.stc, c.tc).Some?)
      && ("titlecase" in m ==> m["titlecase"] == KindMapping(c.stc, c.tc).value)
  {
  }

  /** The case variants exactly as the source writes them: the simple
      branches store `ucp`/`lcp`/`tcp` (None standing for `undefined`). */
  function CaseVariantsAsWritten(c: CharAttrs): (r: map<string, seq<Option<string>>>)
    ensures r.Keys <= {"uppercase", "lowercase", "titlecase"}
  {
    CaseAssignments(StoredKind(c.suc, c.ucp), StoredKind(c.slc, c.lcp), StoredKind(c.stc, c.tcp),
                    LiftedKind(c.uc), LiftedKind(c.lc), LiftedKind(c.tc))
  }

  /** As written, a simple branch tests one attribute and stores another. */
  function StoredKind(simple: Option<string>, stored: Option<string>): Option<seq<Option<string>>> {
    if HasValue(simple) then Some([stored]) else None
  }

  /** A full mapping split on spaces, every element present. */
  function LiftedKind(full: Option<string>): Option<seq<Option<string>>> {
    if HasValue(full) then Some(Lift(Split(full.value, " "))) else None
  }

  function Lift(s: seq<string>): (r: seq<Option<string>>)
    ensures |r| == |s| && forall i | 0 <= i < |s| :: r[i] == Some(s[i])
  {
    seq(|s|, i requires 0 <= i < |s| => Some(s[i]))
  }

  /** A character with only a simple uppercase mapping (`suc`) and no `ucp`
      attribute: as written its uppercase variant is `[undefined]`, while the
      tested mapping is "0041". */
  lemma SimpleCaseStoresUndefined()
    ensures var c := SimpleOnlyUppercase();
      && CaseVariantsAsWritten(c)["uppercase"] == [None]
      && CaseVariants(c) == Some(map["uppercase" := ["0041"]])
  {
    var c := SimpleOnlyUppercase();
    assert HasValue(c.suc) && !HasValue(c.uc) && !HasValue(c.slc) && !HasValue(c.stc);
    assert !HasValue(c.lc) && !HasValue(c.tc);
  }

  /** The example of SimpleCaseStoresUndefined: U+0061 with `suc="0041"` and no
      full mapping. */
  function SimpleOnlyUppercase(): CharAttrs {
    CharAttrs(Some("0061"), None, map[], None, Some("LATIN SMALL LETTER A"), None, NoAliases, None,
              Some("0041"), None, None, None, None, None, None, None, None,
              None, None, None, None, "1.1", "L", "ASCII", "Ll", "0", "Latn")
  }

  /** `caseVariants` as the record stores it: the as-written map, absent
      when no kind has a value. */
  function StoredCaseVariants(c: CharAttrs): (r: Option<map<string, seq<Option<string>>>>)
    ensures r.None? <==> !(HasValue(c.suc) || HasValue(c.slc) || HasValue(c.stc)
                           || HasValue(c.uc) || HasValue(c.lc) || HasValue(c.tc))
    ensures r.Some? ==> r.value == CaseVariantsAsWritten(c)
  {
    var m := CaseVariantsAsWritten(c);
    AsWrittenPerKind(c);
    if |m.Keys| > 0 then Some(m) else None
  }

  /** Where `ucp`/`lcp`/`tcp` carry the simple mappings, the stored case
      variants are the corrected ones with every element present. */
  lemma StoredAgreesWhenPresent(c: CharAttrs)
    requires c.ucp == c.suc && c.lcp == c.slc && c.tcp == c.stc
    ensures StoredCaseVariants(c).Some? <==> CaseVariants(c).Some?
    ensures CaseVariants(c).Some? ==>
      && StoredCaseVariants(c).value.Keys == CaseVariants(c).value.Keys
      && forall kind | kind in CaseVariants(c).value ::
           StoredCaseVariants(c).value[kind] == Lift(CaseVariants(c).value[kind])
  {
    CaseVariantsAgreeWhenPresent(c);
    CaseKeysAgree(c);
  }

  /** As written and corrected, the same kinds are present: the simple
      branches test the same attributes either way. */
  lemma CaseKeysAgree(c: CharAttrs)
    ensures CaseVariants(c).Some? ==> CaseVariantsAsWritten(c).Keys == CaseVariants(c).value.Keys
  {
    AssignedKeys(StoredKind(c.suc, c.ucp), StoredKind(c.slc, c.lcp), StoredKind(c.stc, c.tcp),
                 LiftedKind(c.uc), LiftedKind(c.lc), LiftedKind(c.tc),
                 SimpleKind(c.suc), SimpleKind(c.slc), SimpleKind(c.stc),
                 FullKind(c.uc), FullKind(c.lc), FullKind(c.tc));
  }

  /** Which kinds the six assignments set depends only on which values are
      present. */
  lemma AssignedKeys<V, W>(su: Option<V>, sl: Option<V>, st: Option<V>, fu: Option<V>, fl: Option<V>, ft: Option<V>,
                           su': Option<W>, sl': Option<W>, st': Option<W>, fu': Option<W>, fl': Option<W>, ft': Option<W>)
    requires su.Some? == su'.Some? && sl.Some? == sl'.Some? && st.Some? == st'.Some?
    requires fu.Some? == fu'.Some? && fl.Some? == fl'.Some? && ft.Some? == ft'.Some?
    ensures CaseAssignments(su, sl, st, fu, fl, ft).Keys == CaseAssignments(su', sl', st', fu', fl', ft').Keys
  {
    var m := CaseAssignments(su, sl, st, fu, fl, ft);
    var m' := CaseAssignments(su', sl', st', fu', fl', ft');
    assert m.Keys <= {"uppercase", "lowercase", "titlecase"};
    assert m'.Keys <= {"uppercase", "lowercase", "titlecase"};
  }

  /** One kind as written: the full mapping split on spaces, else the
      stored simple attribute when the tested one has a value. */
  function KindAsWritten(simple: Option<string>, stored: Option<string>, full: Option<string>): Option<seq<Option<string>>> {
    if HasValue(full) then Some(Lift(Split(full.value, " ")))
    else if HasValue(simple) then Some([stored])
    else None
  }

  /** As written, each kind is present when its simple or full mapping has a
      value, and holds the stored attribute when only the simple one does. */
  lemma AsWrittenPerKind(c: CharAttrs)
    ensures var m := CaseVariantsAsWritten(c);
      && ("uppercase" in m <==> KindAsWritten(c.suc, c.ucp, c.uc).Some?)
      && ("uppercase" in m ==> m["uppercase"] == KindAsWritten(c.suc, c.ucp, c.uc).value)
      && ("lowercase" in m <==> KindAsWritten(c.slc, c.lcp, c.lc).Some?)
      && ("lowercase" in m ==> m["lowercase"] == KindAsWritten(c.slc, c.lcp, c.lc).value)
      && ("titlecase" in m <==> KindAsWritten(c.stc, c.tcp, c.tc).Some?)
      && ("titlecase" in m ==> m["titlecase"] == KindAsWritten(c.stc, c.tcp, c.tc).value)
  {
  }

  /** When the stored attribute is the tested one, a kind as written is the
      corrected kind with every element present. */
  lemma KindAgrees(simple: Option<string>, full: Option<string>)
    ensures KindAsWritten(simple, simple, full).Some? <==> KindMapping(simple, full).Some?
    ensures KindMapping(simple, full).Some? ==>
      KindAsWritten(simple, simple, full).value == Lift(KindMapping(simple, full).value)
  {
    if !HasValue(full) && HasValue(simple) {
      assert Lift([simple.value]) == [simple];
    }
  }

  /** Where `ucp`/`lcp`/`tcp` carry the simple mappings, the as-written and
      the corrected case variants agree kind by kind. */
  lemma CaseVariantsAgreeWhenPresent(c: CharAttrs)
    requires c.ucp == c.suc && c.lcp == c.slc && c.tcp == c.stc
    ensures CaseVariants(c).Some? ==> forall kind | kind in CaseVariants(c).value ::
      kind in CaseVariantsAsWritten(c) && CaseVariantsAsWritten(c)[kind] == Lift(CaseVariants(c).value[kind])
    ensures CaseVariants(c).None? <==> CaseVariantsAsWritten(c) == map[]
  {
    AsWrittenPerKind(c);
    KindAgrees(c.suc, c.uc);
    KindAgrees(c.slc, c.lc);
    KindAgrees(c.stc, c.tc);
    var w := CaseVariantsAsWritten(c);
    if CaseVariants(c).Some? {
      FullMappingOverridesSimple(c);
    } else {
      assert "uppercase" !in w && "lowercase" !in w && "titlecase" !in w;
      assert w.Keys == {};
    }
  }

  /** `dm` split on spaces, when it has a value. */
  function Decomposition(c: CharAttrs): (r: Option<seq<string>>)
    ensures r.Some? <==> HasValue(c.dm)
    ensures r.Some? ==> Join(r.value, " ") == c.dm.value
  {
    if HasValue(c.dm) then Some(Split(c.dm.value, " ")) else None
  }

  function HangulNote(jsn: Option<string>): seq<string> {
    if Truthy(jsn) then ["Hangul Syllable Type: " + jsn.value] else []
  }

  /** Two notes for a paired bracket: its type ("Open" exactly for `o`) and
      its partner; none when `bpt` is empty, missing or "n". */
  function BracketNotes(c: CharAttrs): (r: seq<string>)
    ensures |r| == if Truthy(c.bpt) && c.bpt.value != "n" then 2 else 0
    ensures |r| == 2 ==> (r[0] == "Bidi Paired Bracket Type: Open" <==> c.bpt == Some("o"))
  {
    if Truthy(c.bpt) && c.bpt.value != "n" then
      ["Bidi Paired Bracket Type: " + (if c.bpt.value == "o" then "Open" else "Closed"),
       "Bidi Paired Bracket: U+" + TemplateText(c.bpb)]
    else []
  }

  // ---------------------------------------------------------------- one entry

  datatype EntryResult =
    | Skipped(warnings: seq<Warning>)
    | Derived(record: CodepointData, warnings: seq<Warning>)

  /** `x === '' ? undefined : x`. */
  function EmptyToAbsent(o: Option<string>): Option<string> {
    if o == Some("") then None else o
  }

  /** What the loop relies on of an entry's outcome: it is skipped exactly
      when `cp` is falsy, and a derived record's code is its `cp`. */
  predicate Consistent(c: CharAttrs, r: Result<EntryResult, Crash>) {
    && (r.Success? && r.value.Derived? ==> Truthy(c.cp) && r.value.record.code == c.cp.value)
    && (!Truthy(c.cp) <==> r.Success? && r.value.Skipped?)
  }

  /** The body of the repertoire loop for one entry. */
  function DeriveRecord(c: CharAttrs): (r: Result<EntryResult, Crash>)
    ensures Consistent(c, r)
  {
    if !Truthy(c.cp) then
      Success(Skipped(if Truthy(c.firstCp) then [] else [EntryWithoutCodePoint]))
    else
      var cp := c.cp.value;
      var (resolved, nameWarnings) :- ResolveName(c, cp);
      var st := ApplyAliases(cp, AliasState(resolved, [], PropertyTags(c), nameWarnings), AliasEntries(c.nameAliases));
      var notes := st.notes + HangulNote(c.jsn) + BracketNotes(c);
      Success(Derived(CodepointData(
        age := c.age,
        approximations := None,
        bidi := c.bc,
        block := c.blk,
        caseVariants := StoredCaseVariants(c),
        category := c.gc,
        code := cp,
        combine := c.ccc,
        comments := Some([]),
        decomposition := Decomposition(c),
        indexEntries := Some([]),
        mirror := EmptyToAbsent(c.bmg),
        name := st.name,
        notes := Some(notes),
        oldname := EmptyToAbsent(c.na1),
        related := Some([]),
        script := c.sc,
        scriptExtensions := None,
        tags := Some(st.tags),
        title := if Truthy(c.na1) then c.na1.value else st.name,
        variants := Some([])), st.warnings))
  }

  /** An entry crashes the loop exactly when it has a codepoint, its primary
      name is falsy, and either its aliases cannot be indexed or there are
      none, `na` is falsy and `na1` is absent. */
  lemma CrashIff(c: CharAttrs)
    ensures DeriveRecord(c).Failure? <==>
      && Truthy(c.cp)
      && !Truthy(PrimaryName(c))
      && (match c.nameAliases
          case NoAliases => PrimaryName(c).None?
          case OneAlias(_) => true
          case AliasArray(es) => es == [])
  {
  }

  /** Without a codepoint an entry is skipped; the warning is given exactly
      when `first-cp` is also falsy. */
  lemma SkipRule(c: CharAttrs)
    requires !Truthy(c.cp)
    ensures DeriveRecord(c) == Success(Skipped(if Truthy(c.firstCp) then [] else [EntryWithoutCodePoint]))
  {
  }

  /** The name of a derived record: `na`, else `na1`, else the first alias,
      else empty; a trailing "#" replaced by the codepoint; then the first
      abbreviation alias in parentheses when that name has none. The title is
      `na1` when it is non-empty, else that final name; the tags are the
      property tags followed by one tag per correction or figment alias. */
  lemma DerivedName(c: CharAttrs)
    requires DeriveRecord(c).Success? && DeriveRecord(c).value.Derived?
    ensures var rec := DeriveRecord(c).value.record;
      var es := AliasEntries(c.nameAliases);
      var base := if Truthy(PrimaryName(c)) then PrimaryName(c).value
                  else if c.nameAliases.AliasArray? && |es| > 0 then es[0].alias
                  else "";
      var named := ExpandPlaceholder(base, c.cp.value);
      && rec.name == (if !Contains(named, "(") && FirstAbbreviation(es).Some?
                      then named + " (" + FirstAbbreviation(es).value + ")" else named)
      && rec.title == (if Truthy(c.na1) then c.na1.value else rec.name)
      && rec.tags == Some(PropertyTags(c) + AliasTags(es))
  {
    var cp := c.cp.value;
    var (resolved, w) := ResolveName(c, cp).value;
    var start := AliasState(resolved, [], PropertyTags(c), w);
    AbbreviationRewritesOnce(cp, start, AliasEntries(c.nameAliases));
    AliasTagsAppended(cp, start, AliasEntries(c.nameAliases));
  }

  /** The remaining fields of a derived record: the nine required strings
      copied from their attributes, `caseVariants` and `decomposition` from
      their derivations, the bracket notes last among the notes, `mirror`
      and `oldname` absent when empty, the four enricher lists present and
      empty, `approximations` and `scriptExtensions` absent. */
  lemma DerivedFields(c: CharAttrs)
    requires DeriveRecord(c).Success? && DeriveRecord(c).value.Derived?
    ensures var rec := DeriveRecord(c).value.record;
      && rec.age == c.age && rec.bidi == c.bc && rec.block == c.blk && rec.category == c.gc
      && rec.combine == c.ccc && rec.script == c.sc
      && rec.caseVariants == StoredCaseVariants(c)
      && rec.decomposition == Decomposition(c)
      && rec.notes.Some? && |BracketNotes(c)| <= |rec.notes.value|
      && rec.notes.value[|rec.notes.value| - |BracketNotes(c)|..] == BracketNotes(c)
      && rec.mirror == (if c.bmg == Some("") then None else c.bmg)
      && rec.oldname == (if c.na1 == Some("") then None else c.na1)
      && rec.comments == Some([]) && rec.indexEntries == Some([])
      && rec.related == Some([]) && rec.variants == Some([])
      && rec.approximations.None? && rec.scriptExtensions.None?
    ensures var n := DeriveRecord(c).value.record.notes.value;
      var b := |BracketNotes(c)|;
      var h := if Truthy(c.jsn) then 1 else 0;
      && h + b <= |n| && |n| - h - b <= |AliasEntries(c.nameAliases)|
      && (Truthy(c.jsn) ==> n[|n| - b - 1] == "Hangul Syllable Type: " + c.jsn.value)
  {
    var (resolved, w) := ResolveName(c, c.cp.value).value;
    AliasNotesAppended(c.cp.value, AliasState(resolved, [], PropertyTags(c), w), AliasEntries(c.nameAliases));
  }

  // ---------------------------------------------------------------- the loop

  datatype Built = Built(cpMap: CodepointMap, warnings: seq<Warning>)

  /** The codepoints of the entries that have one. */
  function EntryCodes(entries: seq<CharAttrs>): set<string> {
    set i | 0 <= i < |entries| && Truthy(entries[i].cp) :: entries[i].cp.value
  }

  predicate CodesMatchKeys(m: CodepointMap) {
    forall k | k in m :: m[k].code == k
  }

  lemma EntryCodesCons(entries: seq<CharAttrs>)
    requires entries != []
    ensures EntryCodes(entries) ==
      (if Truthy(entries[0].cp) then {entries[0].cp.value} else {}) + EntryCodes(entries[1..])
  {
    var rest := entries[1..];
    forall k | k in EntryCodes(entries)
      ensures k in (if Truthy(entries[0].cp) then {entries[0].cp.value} else {}) + EntryCodes(rest)
    {
      var i :| 0 <= i < |entries| && Truthy(entries[i].cp) && entries[i].cp.value == k;
      if i > 0 {
        assert rest[i - 1] == entries[i];
      }
    }
    forall k | k in EntryCodes(rest) ensures k in EntryCodes(entries) {
      var i :| 0 <= i < |rest| && Truthy(rest[i].cp) && rest[i].cp.value == k;
      assert entries[i + 1] == rest[i];
    }
  }

  /** The repertoire loop over the entries, storing each derived record under
      its codepoint (a later entry replaces an earlier one with the same
      codepoint). The first crashing entry ends the run. On success the keys
      are those of `m` plus every entry codepoint, and every record added is
      stored under its own code. */
  function BuildMap(m: CodepointMap, entries: seq<CharAttrs>): (r: Result<Built, Crash>)
    ensures r.Failure? <==> exists i | 0 <= i < |entries| :: DeriveRecord(entries[i]).Failure?
    ensures r.Success? ==> r.value.cpMap.Keys == m.Keys + EntryCodes(entries)
    ensures r.Success? && CodesMatchKeys(m) ==> CodesMatchKeys(r.value.cpMap)
  {
    var rs := seq(|entries|, i requires 0 <= i < |entries| => DeriveRecord(entries[i]));
    assert forall i | 0 <= i < |entries| :: rs[i] == DeriveRecord(entries[i]);
    StoreAllCodes(m, entries, rs);
    StoreAll(m, entries, rs)
  }

  /** The loop, given the outcome `rs[i]` of each entry. */
  function StoreAll(m: CodepointMap, entries: seq<CharAttrs>, rs: seq<Result<EntryResult, Crash>>): (r: Result<Built, Crash>)
    requires |rs| == |entries|
    requires forall i | 0 <= i < |entries| :: Consistent(entries[i], rs[i])
    ensures r.Failure? <==> exists i | 0 <= i < |rs| :: rs[i].Failure?
    ensures r.Success? ==> r.value.cpMap.Keys == m.Keys + EntryCodes(entries)
    decreases |entries|
  {
    if entries == [] then Success(Built(m, []))
    else
      EntryCodesCons(entries);
      assert forall i | 1 <= i < |entries| :: entries[i] == entries[1..][i - 1] && rs[i] == rs[1..][i - 1];
      assert Consistent(entries[0], rs[0]);
      match rs[0]
      case Failure(e) => Failure(e)
      case Success(Skipped(w)) =>
        (match StoreAll(m, entries[1..], rs[1..])
         case Failure(e) => Failure(e)
         case Success(b) => Success(Built(b.cpMap, w + b.warnings)))
      case Success(Derived(rec, w)) =>
        (match StoreAll(m[entries[0].cp.value := rec], entries[1..], rs[1..])
         case Failure(e) => Failure(e)
         case Success(b) => Success(Built(b.cpMap, w + b.warnings)))
  }

  /** The loop stores every derived record under its own code. */
  lemma {:induction false} StoreAllCodes(m: CodepointMap, entries: seq<CharAttrs>, rs: seq<Result<EntryResult, Crash>>)
    requires |rs| == |entries|
    requires forall i | 0 <= i < |entries| :: Consistent(entries[i], rs[i])
    ensures StoreAll(m, entries, rs).Success? && CodesMatchKeys(m) ==> CodesMatchKeys(StoreAll(m, entries, rs).value.cpMap)
    decreases |entries|
  {
    if entries != [] {
      assert forall i | 1 <= i < |entries| :: entries[i] == entries[1..][i - 1] && rs[i] == rs[1..][i - 1];
      assert Consistent(entries[0], rs[0]);
      match rs[0]
      case Failure(_) =>
      case Success(Skipped(_)) =>
        StoreAllCodes(m, entries[1..], rs[1..]);
      case Success(Derived(rec, _)) =>
        StoreAllCodes(m[entries[0].cp.value := rec], entries[1..], rs[1..]);
    }
  }

  /** `XmlToMap`: the map built from an empty one. Every stored record's code
      is its key, and the keys are exactly the entry codepoints. */
  function XmlToMap(entries: seq<CharAttrs>): (r: Result<Built, Crash>)
    ensures r.Success? ==> CodesMatchKeys(r.value.cpMap) && r.value.cpMap.Keys == EntryCodes(entries)
    ensures r.Failure? <==> exists i | 0 <= i < |entries| :: DeriveRecord(entries[i]).Failure?
  {
    BuildMap(map[], entries)
  }
}

=== FILE: script_extensions.dfy ===
/** The script-extensions enricher: each data line gives a codepoint or an
    inclusive hexadecimal range and, after `;`, a space-separated list of
    scripts; the scripts are appended to `scriptExtensions` of every
    codepoint of the range that has a record. */
module ScriptExtensions {
  import opened Wrappers
  import opened Text
  import opened Hex
  import opened Diagnostics
  import opened Records
  import opened LineFold

  /** How one line reads. The bounds are `parseInt(…, 16)` of the range's
      ends (None for NaN); a single codepoint is both bounds. */
  datatype ScriptLine =
    | Ignored
    | Malformed
    | Entry(codes: string, start: Option<int>, end: Option<int>, scripts: seq<string>)

  predicate IsIgnored(line: string) {
    JsTrim(line) == "" || StartsWith(line, "#")
  }

  /** The scripts of field 1: the text before its first `#`, trimmed, split
      on single spaces, in order. */
  function ScriptList(field: string): (r: seq<string>)
    ensures |r| >= 1
    ensures Join(r, " ") == JsTrim(Split(field, "#")[0])
    ensures !Contains(Join(r, " "), "#")
  {
    TrimContains(Split(field, "#")[0], "#");
    Split(JsTrim(Split(field, "#")[0]), " ")
  }

  /** The bounds of field 0 (already trimmed): both ends of an `a..b` range,
      or the one codepoint twice. */
  function Bounds(codes: string): (r: (Option<int>, Option<int>))
    ensures Contains(codes, "..") ==>
      r == (JsParseInt16(Split(codes, "..")[0]), JsParseInt16(Split(codes, "..")[1]))
    ensures !Contains(codes, "..") ==> r.0 == r.1 == JsParseInt16(codes)
  {
    if Contains(codes, "..") then
      var parts := Split(codes, "..");
      SplitSingleIff(codes, "..");
      (JsParseInt16(parts[0]), JsParseInt16(parts[1]))
    else (JsParseInt16(codes), JsParseInt16(codes))
  }

  function Parse(line: string): (r: ScriptLine)
    ensures r.Ignored? <==> IsIgnored(line)
    ensures r.Malformed? <==> !IsIgnored(line) && !Contains(line, ";")
    ensures r.Entry? ==> |r.scripts| >= 1 && r.codes == JsTrim(r.codes)
    ensures r.Entry? ==> var f := Split(line, ";");
      && |f| >= 2 && FirstTwoFields(line, ";", f[0], f[1])
      && r.codes == JsTrim(f[0]) && (r.start, r.end) == Bounds(r.codes) && r.scripts == ScriptList(f[1])
  {
    if IsIgnored(line) then Ignored
    else
      var fields := Split(line, ";");
      SplitSingleIff(line, ";");
      if |fields| < 2 then Malformed
      else
        var codes := JsTrim(fields[0]);
        TrimIdempotent(fields[0]);
        SplitFirstTwo(line, ";");
        var (start, end) := Bounds(codes);
        Entry(codes, start, end, ScriptList(fields[1]))
  }

  /** Conversely, a line that is not ignored reads as its first two
      `;`-separated fields, whatever way they are found: the trimmed codes of
      field 0 with their bounds, and the scripts of field 1. */
  lemma EntryFields(line: string, codes: string, scripts: string)
    requires !IsIgnored(line) && FirstTwoFields(line, ";", codes, scripts)
    ensures var c := JsTrim(codes);
      Parse(line) == Entry(c, Bounds(c).0, Bounds(c).1, ScriptList(scripts))
  {
    SplitOfFirstTwo(line, ';', codes, scripts);
  }

  /** Trimming twice is trimming once. */
  lemma TrimIdempotent(s: string)
    ensures JsTrim(JsTrim(s)) == JsTrim(s)
  {
    var d := DropLeading(s, IsJsSpace);
    var t := JsTrim(s);
    if t != [] {
      assert t[0] == d[0];
      assert DropLeading(t, IsJsSpace) == t;
    }
  }

  /** Visit codepoint `cp`: append the scripts to its record when its key is
      in the map, otherwise warn. */
  function Visit(m: CodepointMap, cp: int, scripts: seq<string>): (r: (CodepointMap, seq<Warning>))
    ensures PreservesRecords(m, r.0)
    ensures FormatKey(cp) in m ==> r == (PushAt(m, FormatKey(cp), ScriptExtensions, scripts), [])
    ensures FormatKey(cp) !in m ==> r == (m, [ScriptExtensionCodeNotFound(FormatKey(cp))])
  {
    var key := FormatKey(cp);
    if key in m then (PushAt(m, key, ScriptExtensions, scripts), [])
    else (m, [ScriptExtensionCodeNotFound(key)])
  }

  /** Visiting `cp` appends the scripts to the record whose key is
      `FormatKey(cp)` and to no other, and changes no other field. */
  lemma VisitEffect(m: CodepointMap, cp: int, scripts: seq<string>)
    requires |scripts| >= 1
    ensures var r := Visit(m, cp, scripts).0;
      && (forall k | k in m ::
            Get(r[k], ScriptExtensions)
            == Accumulate(Get(m[k], ScriptExtensions), if FormatKey(cp) == k then scripts else []))
      && (forall k, g: ListField | k in m && g != ScriptExtensions :: Get(r[k], g) == Get(m[k], g))
  {
    var r := Visit(m, cp, scripts).0;
    forall k | k in m
      ensures Get(r[k], ScriptExtensions)
              == Accumulate(Get(m[k], ScriptExtensions), if FormatKey(cp) == k then scripts else [])
    {
      if FormatKey(cp) == k {
        assert Get(r[k], ScriptExtensions) == Push(Get(m[k], ScriptExtensions), scripts);
      } else {
        assert r[k] == m[k];
      }
    }
  }

  /** `for (cp = lo; cp <= hi; cp++)`: every integer of the inclusive range,
      in ascending order; nothing when `lo > hi`. */
  function VisitRange(m: CodepointMap, lo: int, hi: int, scripts: seq<string>): (r: (CodepointMap, seq<Warning>))
    ensures PreservesRecords(m, r.0)
    ensures lo > hi ==> r == (m, [])
    ensures |r.1| <= if lo > hi then 0 else hi - lo + 1
    decreases hi - lo + 1
  {
    if lo > hi then (m, [])
    else
      var first := Visit(m, lo, scripts);
      var rest := VisitRange(first.0, lo + 1, hi, scripts);
      PreservesRecordsTransitive(m, first.0, rest.0);
      (rest.0, first.1 + rest.1)
  }

  /** What the range gives record `k`: the scripts once for every codepoint
      of the range whose key is `k`. */
  function RangeAdds(lo: int, hi: int, k: string, scripts: seq<string>): seq<string>
    decreases hi - lo + 1
  {
    if lo > hi then [] else (if FormatKey(lo) == k then scripts else []) + RangeAdds(lo + 1, hi, k, scripts)
  }

  /** The range walk against its reference: each record's
      `scriptExtensions` gains what the range gives it, and every other
      field is unchanged. */
  lemma {:induction false} VisitRangeAccumulates(m: CodepointMap, lo: int, hi: int, scripts: seq<string>)
    requires |scripts| >= 1
    ensures var r := VisitRange(m, lo, hi, scripts).0;
      && (forall k | k in m ::
            Get(r[k], ScriptExtensions) == Accumulate(Get(m[k], ScriptExtensions), RangeAdds(lo, hi, k, scripts)))
      && (forall k, g: ListField | k in m && g != ScriptExtensions :: Get(r[k], g) == Get(m[k], g))
    decreases hi - lo + 1
  {
    if lo <= hi {
      var m1 := Visit(m, lo, scripts).0;
      var r := VisitRange(m, lo, hi, scripts).0;
      VisitRangeAccumulates(m1, lo + 1, hi, scripts);
      VisitEffect(m, lo, scripts);
      forall k | k in m
        ensures Get(r[k], ScriptExtensions) == Accumulate(Get(m[k], ScriptExtensions), RangeAdds(lo, hi, k, scripts))
      {
        var here := if FormatKey(lo) == k then scripts else [];
        AccumulateTwice(Get(m[k], ScriptExtensions), here, RangeAdds(lo + 1, hi, k, scripts));
      }
    }
  }

  /** Over a non-negative range a key is hit at most once: the scripts
      arrive once when the key's codepoint lies in the range, and not at all
      otherwise. */
  lemma {:induction false} RangeHitsOnce(lo: int, hi: int, n: nat, scripts: seq<string>)
    requires 0 <= lo
    ensures RangeAdds(lo, hi, FormatKey(n), scripts) == if lo <= n <= hi then scripts else []
    decreases hi - lo + 1
  {
    if lo <= hi {
      var k := FormatKey(n);
      RangeHitsOnce(lo + 1, hi, n, scripts);
      RangeAddsStep(lo, hi, k, scripts);
      if lo != n {
        KeysDiffer(lo, n);
      }
    }
  }

  /** The first codepoint of a non-empty range, then the rest. */
  lemma RangeAddsStep(lo: int, hi: int, k: string, scripts: seq<string>)
    requires lo <= hi
    ensures RangeAdds(lo, hi, k, scripts) == (if FormatKey(lo) == k then scripts else []) + RangeAdds(lo + 1, hi, k, scripts)
  {
  }

  /** Distinct codepoints have distinct keys. */
  lemma KeysDiffer(a: nat, b: nat)
    requires a != b
    ensures FormatKey(a) != FormatKey(b)
  {
    if FormatKey(a) == FormatKey(b) {
      FormatKeyInjective(a, b);
    }
  }

  /** A key that is no codepoint's key in the range gains nothing. */
  lemma {:induction false} RangeMisses(lo: int, hi: int, k: string, scripts: seq<string>)
    requires forall n | lo <= n <= hi :: FormatKey(n) != k
    ensures RangeAdds(lo, hi, k, scripts) == []
    decreases hi - lo + 1
  {
    if lo <= hi {
      RangeMisses(lo + 1, hi, k, scripts);
      RangeAddsStep(lo, hi, k, scripts);
      assert FormatKey(lo) != k;
    }
  }

  /** What a parsed line gives record `k`. */
  function ParsedAdds(p: ScriptLine, k: string): seq<string> {
    if p.Entry? && p.start.Some? && p.end.Some? then RangeAdds(p.start.value, p.end.value, k, p.scripts) else []
  }

  /** What a line gives record `k`. */
  function LineAdds(line: string, k: string): seq<string> {
    ParsedAdds(Parse(line), k)
  }

  /** The effect of a parsed line: the range walk when both bounds are
      numbers, and otherwise nothing beyond the malformed-line warning. */
  function Apply(m: CodepointMap, lineNo: nat, line: string, p: ScriptLine): (r: (CodepointMap, seq<Warning>))
    requires p.Entry? ==> |p.scripts| >= 1
    ensures PreservesRecords(m, r.0)
    ensures forall k | k in m ::
      Get(r.0[k], ScriptExtensions) == Accumulate(Get(m[k], ScriptExtensions), ParsedAdds(p, k))
    ensures forall k, g: ListField | k in m && g != ScriptExtensions :: Get(r.0[k], g) == Get(m[k], g)
  {
    match p
    case Ignored => (m, [])
    case Malformed => (m, [MalformedLine(lineNo, line)])
    case Entry(_, start, end, scripts) =>
      if start.Some? && end.Some? then
        VisitRangeAccumulates(m, start.value, end.value, scripts);
        VisitRange(m, start.value, end.value, scripts)
      else (m, [])
  }

  /** Process one line: nothing for blank and comment lines, a warning for
      a line without `;`, no iteration at all when a bound is NaN, and
      otherwise the range walk. Each record's `scriptExtensions` gains what
      the line gives it and nothing else changes. */
  function Step(m: CodepointMap, lineNo: nat, line: string): (r: (CodepointMap, seq<Warning>))
    ensures PreservesRecords(m, r.0)
    ensures IsIgnored(line) ==> r == (m, [])
    ensures !IsIgnored(line) && !Contains(line, ";") ==> r == (m, [MalformedLine(lineNo, line)])
    ensures forall k | k in m ::
      Get(r.0[k], ScriptExtensions) == Accumulate(Get(m[k], ScriptExtensions), LineAdds(line, k))
    ensures forall k, g: ListField | k in m && g != ScriptExtensions :: Get(r.0[k], g) == Get(m[k], g)
  {
    Apply(m, lineNo, line, Parse(line))
  }

  /** Step's contract for every map at once, in the form the fold needs. */
  lemma StepAppendsOnly()
    ensures forall t, n, l :: Step(t, n, l).0.Keys == t.Keys
    ensures forall t, n, l, k | k in t && k in Step(t, n, l).0 ::
      Get(Step(t, n, l).0[k], ScriptExtensions) == Accumulate(Get(t[k], ScriptExtensions), LineAdds(l, k))
    ensures forall t, n, l, k, g: ListField | k in t && k in Step(t, n, l).0 && g != ScriptExtensions ::
      Get(Step(t, n, l).0[k], g) == Get(t[k], g)
  {
  }

  lemma StepKeepsRecords(m: CodepointMap)
    ensures forall t, n, l | PreservesRecords(m, t) :: PreservesRecords(m, Step(t, n, l).0)
  {
    forall t, n, l | PreservesRecords(m, t)
      ensures PreservesRecords(m, Step(t, n, l).0)
    {
      PreservesRecordsTransitive(m, t, Step(t, n, l).0);
    }
  }

  /** The lines from number `lineNo` on: no key is added or lost and no
      scalar changes. */
  function EnrichFrom(m: CodepointMap, lines: seq<string>, lineNo: nat): (r: (CodepointMap, seq<Warning>))
    ensures PreservesRecords(m, r.0)
  {
    StepKeepsRecords(m);
    FoldInvariant((t: CodepointMap, n: nat, l: string) => Step(t, n, l), t => PreservesRecords(m, t),
                  w => true, m, lines, lineNo);
    Fold((t: CodepointMap, n: nat, l: string) => Step(t, n, l), m, lines, lineNo)
  }

  /** The whole file. */
  function Enrich(m: CodepointMap, lines: seq<string>): (r: (CodepointMap, seq<Warning>))
    ensures PreservesRecords(m, r.0)
  {
    EnrichFrom(m, lines, 1)
  }

  /** Everything the lines give record `k`, in file order. */
  function ScriptsFor(lines: seq<string>, k: string): seq<string> {
    Gathered((l, j) => LineAdds(l, j), lines, k)
  }

  /** The fold against its reference: each record ends up with its prior
      `scriptExtensions` followed by every script every line gives it, with
      no deduplication, and every other field as it was. */
  lemma EnrichAccumulates(m: CodepointMap, lines: seq<string>, lineNo: nat)
    ensures var r := EnrichFrom(m, lines, lineNo).0;
      && r.Keys == m.Keys
      && (forall k | k in m ::
            Get(r[k], ScriptExtensions) == Accumulate(Get(m[k], ScriptExtensions), ScriptsFor(lines, k)))
      && (forall k, g: ListField | k in m && g != ScriptExtensions :: Get(r[k], g) == Get(m[k], g))
  {
    StepAppendsOnly();
    FoldAccumulates((t: CodepointMap, n: nat, l: string) => Step(t, n, l), (l, j) => LineAdds(l, j),
                    ScriptExtensions, m, lines, lineNo);
  }
}

=== FILE: text.dfy ===
/** The string primitives of JavaScript and Python that the merge engine relies
    on, written out: trimming, prefix/suffix tests, substring search, `split`
    on a separator, clamped `slice`, ASCII case mapping and Python's
    `replace`. Strings are sequences of Unicode scalar values, so offsets
    count scalar values where JavaScript counts UTF-16 code units; the two
    agree on text in the Basic Multilingual Plane. */
module Text {
  import opened Wrappers

  /** Unicode general category Zs (space separators). */
  predicate IsSpaceSeparator(c: char) {
    c == ' ' || c == '\U{00A0}' || c == '\U{1680}' || ('\U{2000}' <= c <= '\U{200A}')
    || c == '\U{202F}' || c == '\U{205F}' || c == '\U{3000}'
  }

  /** ECMAScript WhiteSpace and LineTerminator: what `String.prototype.trim`
      removes and what `parseInt` skips. */
  predicate IsJsSpace(c: char) {
    IsSpaceSeparator(c) || c == '\t' || c == '\U{000B}' || c == '\U{000C}' || c == '\U{FEFF}'
    || c == '\n' || c == '\r' || c == '\U{2028}' || c == '\U{2029}'
  }

  /** Python's `str.isspace`: what `str.strip()` removes. */
  predicate IsPySpace(c: char) {
    IsSpaceSeparator(c) || ('\t' <= c <= '\r') || ('\U{001C}' <= c <= '\U{001F}')
    || c == '\U{0085}' || c == '\U{2028}' || c == '\U{2029}'
  }

  /** `s` without its longest prefix of characters satisfying `p`. */
  function DropLeading(s: string, p: char -> bool): (r: string)
    ensures |r| <= |s| && r == s[|s| - |r|..]
    ensures forall i | 0 <= i < |s| - |r| :: p(s[i])
    ensures r == [] || !p(r[0])
  {
    if |s| > 0 && p(s[0]) then
      var r := DropLeading(s[1..], p);
      assert s[1..][|s| - 1 - |r|..] == s[|s| - |r|..];
      assert forall i | 1 <= i < |s| - |r| :: s[i] == s[1..][i - 1];
      r
    else s
  }

  /** `s` without its longest suffix of characters satisfying `p`. */
  function DropTrailing(s: string, p: char -> bool): (r: string)
    ensures |r| <= |s| && r == s[..|r|]
    ensures forall i | |r| <= i < |s| :: p(s[i])
    ensures r == [] || !p(r[|r| - 1])
  {
    if |s| > 0 && p(s[|s| - 1]) then DropTrailing(s[..|s| - 1], p) else s
  }

  /** JavaScript `s.trim()`. */
  function JsTrim(s: string): string {
    DropTrailing(DropLeading(s, IsJsSpace), IsJsSpace)
  }

  /** Python `s.strip()`. */
  function PyStrip(s: string): string {
    DropTrailing(DropLeading(s, IsPySpace), IsPySpace)
  }

  /** Nothing to strip when neither end is a `p`-character. */
  lemma StripNothing(s: string, p: char -> bool)
    requires s == [] || (!p(s[0]) && !p(s[|s| - 1]))
    ensures DropTrailing(DropLeading(s, p), p) == s
  {
  }

  /** The test "is the character `c`". */
  function Is(c: char): char -> bool {
    x => x == c
  }

  /** Python `s.strip(c)` for a single character `c`. */
  function StripChar(s: string, c: char): string {
    DropTrailing(DropLeading(s, Is(c)), Is(c))
  }

  predicate AllSatisfy(s: string, p: char -> bool) {
    forall i | 0 <= i < |s| :: p(s[i])
  }

  /** Trimming leaves nothing exactly when every character is trimmable:
      `line.trim().length === 0` is the "blank line" test. */
  lemma TrimEmptyIff(s: string, p: char -> bool)
    ensures DropTrailing(DropLeading(s, p), p) == [] <==> AllSatisfy(s, p)
  {
    var d := DropLeading(s, p);
    if d != [] {
      assert !p(d[0]);
      assert d[0] == s[|s| - |d|];
    }
  }

  predicate StartsWith(s: string, prefix: string) {
    |prefix| <= |s| && s[..|prefix|] == prefix
  }

  predicate EndsWith(s: string, suffix: string) {
    |suffix| <= |s| && s[|s| - |suffix|..] == suffix
  }

  /** `sub` occurs in `s` at offset `i`. */
  predicate OccursAt(s: string, sub: string, i: int) {
    0 <= i && i + |sub| <= |s| && s[i..i + |sub|] == sub
  }

  /** JavaScript `s.indexOf(sub, from)` / Python `s.find(sub, from)`, with
      "-1" as None. */
  function IndexOfFrom(s: string, sub: string, from: nat): (r: Option<nat>)
    ensures r.Some? ==> from <= r.value && OccursAt(s, sub, r.value)
    ensures r.Some? ==> forall j | from <= j < r.value :: !OccursAt(s, sub, j)
    ensures r.None? ==> forall j | from <= j :: !OccursAt(s, sub, j)
    decreases |s| - from
  {
    if from + |sub| > |s| then None
    else if s[from..from + |sub|] == sub then Some(from)
    else IndexOfFrom(s, sub, from + 1)
  }

  function IndexOf(s: string, sub: string): Option<nat> {
    IndexOfFrom(s, sub, 0)
  }

  /** `s.indexOf(sub) !== -1` (JavaScript) / `sub in s` (Python). */
  predicate Contains(s: string, sub: string) {
    IndexOf(s, sub).Some?
  }

  lemma ContainsIff(s: string, sub: string)
    ensures Contains(s, sub) <==> exists j :: OccursAt(s, sub, j)
  {
  }

  /** An occurrence witnesses containment. */
  lemma OccurrenceContains(s: string, sub: string, j: int)
    requires OccursAt(s, sub, j)
    ensures Contains(s, sub)
  {
  }

  /** A string that has `sub` nowhere inside contains none of its own
      prefixes' occurrences either. */
  lemma NoOccurrenceInPrefix(s: string, sub: string, i: nat)
    requires |sub| > 0 && i <= |s|
    requires forall j | 0 <= j < i :: !OccursAt(s, sub, j)
    ensures !Contains(s[..i], sub)
  {
    if Contains(s[..i], sub) {
      var j := IndexOf(s[..i], sub).value;
      assert s[..i][j..j + |sub|] == s[j..j + |sub|];
      assert OccursAt(s, sub, j);
    }
  }

  /** What a slice contains, the whole string contains. */
  lemma ContainsSlice(s: string, sub: string, i: nat, j: nat)
    requires i <= j <= |s|
    ensures Contains(s[i..j], sub) ==> Contains(s, sub)
  {
    if Contains(s[i..j], sub) {
      var o := IndexOf(s[i..j], sub).value;
      assert s[i..j][o..o + |sub|] == s[i + o..i + o + |sub|];
      OccurrenceContains(s, sub, i + o);
    }
  }

  /** What a trimmed string contains, the untrimmed one contains. */
  lemma TrimContains(s: string, sub: string)
    ensures Contains(JsTrim(s), sub) ==> Contains(s, sub)
  {
    var d := DropLeading(s, IsJsSpace);
    var t := JsTrim(s);
    var off := |s| - |d|;
    assert d == s[off..];
    assert t == d[..|t|];
    assert t == s[off..off + |t|];
    ContainsSlice(s, sub, off, off + |t|);
  }

  /** The inverse of `Split`: the fields glued back with the separator. */
  function Join(parts: seq<string>, sep: string): string {
    if |parts| == 0 then ""
    else if |parts| == 1 then parts[0]
    else parts[0] + sep + Join(parts[1..], sep)
  }

  /** JavaScript `s.split(sep)` / Python `s.split(sep)` for a non-empty
      separator and no limit: the text between successive left-to-right,
      non-overlapping occurrences of `sep`. There is always at least one
      field; gluing the fields back with `sep` gives `s`, and no field
      contains `sep`. */
  function Split(s: string, sep: string): (r: seq<string>)
    requires |sep| > 0
    ensures |r| >= 1
    ensures Join(r, sep) == s
    ensures forall i | 0 <= i < |r| :: !Contains(r[i], sep)
    decreases |s|
  {
    match IndexOf(s, sep)
    case None =>
      assert forall j | 0 <= j < |s| :: !OccursAt(s, sep, j);
      NoOccurrenceInPrefix(s, sep, |s|);
      assert s[..|s|] == s;
      [s]
    case Some(i) =>
      NoOccurrenceInPrefix(s, sep, i);
      var rest := Split(s[i + |sep|..], sep);
      assert s == s[..i] + sep + s[i + |sep|..];
      [s[..i]] + rest
  }

  /** A split produces a single field exactly when the separator does not
      occur: "fewer than two fields" means "no separator in the line". */
  lemma SplitSingleIff(s: string, sep: string)
    requires |sep| > 0
    ensures |Split(s, sep)| == 1 <==> !Contains(s, sep)
  {
    match IndexOf(s, sep)
    case None =>
    case Some(i) =>
      assert |Split(s, sep)| == 1 + |Split(s[i + |sep|..], sep)|;
  }

  /** The first field of a split is the text before the first occurrence. */
  lemma SplitFirst(s: string, sep: string)
    requires |sep| > 0
    ensures Split(s, sep)[0] == (match IndexOf(s, sep) case Some(i) => s[..i] case None => s)
  {
  }

  /** A joined sequence begins with its first part. */
  lemma JoinHead(parts: seq<string>, sep: string)
    requires |parts| >= 1
    ensures StartsWith(Join(parts, sep), parts[0])
  {
    if |parts| > 1 {
      assert Join(parts, sep) == parts[0] + (sep + Join(parts[1..], sep));
    }
  }

  /** A join of at least two parts begins with the first two and the
      separator between them. */
  lemma JoinFirstTwo(parts: seq<string>, sep: string)
    requires |parts| >= 2
    ensures StartsWith(Join(parts, sep), parts[0] + sep + parts[1])
  {
    var rest := Join(parts[1..], sep);
    JoinHead(parts[1..], sep);
    assert Join(parts, sep) == parts[0] + sep + rest;
    assert rest == parts[1] + rest[|parts[1]|..];
    assert Join(parts, sep) == (parts[0] + sep + parts[1]) + rest[|parts[1]|..];
  }

  /** The line begins with its first two fields and the separator between
      them: `fields[0]` is the text before the first separator and
      `fields[1]` the text up to the next one. */
  lemma SplitPrefix(s: string, sep: string)
    requires |sep| > 0 && |Split(s, sep)| >= 2
    ensures StartsWith(s, Split(s, sep)[0] + sep + Split(s, sep)[1])
  {
    JoinFirstTwo(Split(s, sep), sep);
  }

  /** `a` and `b` are the first two `sep`-separated fields of `s`: the line
      starts with `a`, `sep`, `b`, neither holds `sep`, and `b` runs up to
      the end of the line or the next `sep`. */
  predicate FirstTwoFields(s: string, sep: string, a: string, b: string) {
    && StartsWith(s, a + sep + b) && !Contains(a, sep) && !Contains(b, sep)
    && (|a| + |sep| + |b| == |s| || OccursAt(s, sep, |a| + |sep| + |b|))
  }

  /** Fields 0 and 1 of `split` are the first two fields. */
  lemma SplitFirstTwo(s: string, sep: string)
    requires |sep| > 0 && |Split(s, sep)| >= 2
    ensures FirstTwoFields(s, sep, Split(s, sep)[0], Split(s, sep)[1])
  {
    JoinFirstTwoFields(Split(s, sep), sep);
  }

  /** Glued fields that hold no separator read back as their first two. */
  lemma JoinFirstTwoFields(parts: seq<string>, sep: string)
    requires |parts| >= 2 && !Contains(parts[0], sep) && !Contains(parts[1], sep)
    ensures FirstTwoFields(Join(parts, sep), sep, parts[0], parts[1])
  {
    var a, b := parts[0], parts[1];
    var rest := Join(parts[1..], sep);
    assert Join(parts, sep) == a + sep + rest;
    if |parts| > 2 {
      var tail := Join(parts[2..], sep);
      assert parts[1..][1..] == parts[2..];
      assert rest == b + sep + tail;
      assert Join(parts, sep) == (a + sep + b) + sep + tail;
      assert Join(parts, sep)[|a| + |sep| + |b|..][..|sep|] == sep;
    } else {
      assert rest == b;
    }
  }

  /** The first two fields, for a one-character separator, are what `split`
      returns as fields 0 and 1. */
  lemma SplitOfFirstTwo(s: string, c: char, a: string, b: string)
    requires FirstTwoFields(s, [c], a, b)
    ensures |Split(s, [c])| >= 2 && Split(s, [c])[0] == a && Split(s, [c])[1] == b
  {
    assert s[..|a| + 1 + |b|] == a + [c] + b;
    assert s[|a|] == (a + [c] + b)[|a|] == c;
    assert s[|a|..|a| + 1] == [c];
    OccurrenceContains(s, [c], |a|);
    SplitSingleIff(s, [c]);
    SplitFirstTwo(s, [c]);
    FirstTwoFieldsUnique(s, c, Split(s, [c])[0], Split(s, [c])[1], a, b);
  }

  /** A character not contained in `x` is at no position of `x`. */
  lemma NotAt(x: string, c: char, i: nat)
    requires !Contains(x, [c]) && i < |x|
    ensures x[i] != c
  {
    if x[i] == c {
      assert x[i..i + 1] == [c];
      OccurrenceContains(x, [c], i);
    }
  }

  /** For a one-character separator the first two fields are unique: any
      reading that meets `FirstTwoFields` is the same one. */
  lemma FirstTwoFieldsUnique(s: string, c: char, a: string, b: string, a': string, b': string)
    requires FirstTwoFields(s, [c], a, b) && FirstTwoFields(s, [c], a', b')
    ensures a == a' && b == b'
  {
    FirstFieldUnique(s, c, a, b, a', b');
    SecondFieldUnique(s, c, a, b, b');
  }

  /** Field 0 ends at the first separator. */
  lemma FirstFieldUnique(s: string, c: char, a: string, b: string, a': string, b': string)
    requires FirstTwoFields(s, [c], a, b) && FirstTwoFields(s, [c], a', b')
    ensures a == a'
  {
    assert s[..|a| + 1 + |b|] == a + [c] + b;
    assert s[..|a'| + 1 + |b'|] == a' + [c] + b';
    if |a| < |a'| {
      assert s[|a|] == c && s[|a|] == a'[|a|];
      NotAt(a', c, |a|);
    } else if |a'| < |a| {
      assert s[|a'|] == c && s[|a'|] == a[|a'|];
      NotAt(a, c, |a'|);
    }
    assert a == s[..|a|] == a';
  }

  /** With field 0 fixed, field 1 ends at the next separator. */
  lemma SecondFieldUnique(s: string, c: char, a: string, b: string, b': string)
    requires FirstTwoFields(s, [c], a, b) && FirstTwoFields(s, [c], a, b')
    ensures b == b'
  {
    var o := |a| + 1;
    assert s[..o + |b|] == a + [c] + b;
    assert s[..o + |b'|] == a + [c] + b';
    if |b| < |b'| {
      assert s[o + |b|..][..1] == [c];
      assert s[o + |b|] == c && s[o + |b|] == b'[|b|];
      NotAt(b', c, |b|);
    } else if |b'| < |b| {
      assert s[o + |b'|..][..1] == [c];
      assert s[o + |b'|] == c && s[o + |b'|] == b[|b'|];
      NotAt(b, c, |b'|);
    }
    assert b == s[o..o + |b|] == b';
  }

  /** Python `s.replace(pattern, replacement)` for a non-empty `pattern`: every
      non-overlapping occurrence, left to right, replaced. */
  function Replace(s: string, pattern: string, replacement: string): (r: string)
    requires |pattern| > 0
  {
    Join(Split(s, pattern), replacement)
  }

  /** JavaScript `s.slice(start, end)` for non-negative arguments: both
      bounds are clamped to the length and an inverted range is empty. */
  function Slice(s: string, start: nat, end: nat): (r: string)
    ensures |r| <= |s|
    ensures r != "" ==> start + |r| <= |s|
    ensures forall i | 0 <= i < |r| :: r[i] == s[start + i]
    ensures end <= |s| && start <= end ==> |r| == end - start
    ensures var e := if end < |s| then end else |s|;
            |r| == if start < e then e - start else 0
  {
    var e := if end < |s| then end else |s|;
    if start < e then s[start..e] else ""
  }

  /** JavaScript `s.slice(start)` for a non-negative start. */
  function SliceFrom(s: string, start: nat): (r: string)
    ensures start <= |s| ==> r == s[start..]
    ensures start > |s| ==> r == ""
  {
    Slice(s, start, |s|)
  }

  function AsciiLowerChar(c: char): char {
    if 'A' <= c <= 'Z' then (c as int + 32) as char else c
  }

  function AsciiUpperChar(c: char): char {
    if 'a' <= c <= 'z' then (c as int - 32) as char else c
  }

  /** Lower-casing, character by character, of the ASCII letters. */
  function AsciiLower(s: string): (r: string)
    ensures |r| == |s|
    ensures forall i | 0 <= i < |s| :: r[i] == AsciiLowerChar(s[i])
  {
    seq(|s|, i requires 0 <= i < |s| => AsciiLowerChar(s[i]))
  }

  /** Upper-casing, character by character, of the ASCII letters. */
  function AsciiUpper(s: string): (r: string)
    ensures |r| == |s|
    ensures forall i | 0 <= i < |s| :: r[i] == AsciiUpperChar(s[i])
  {
    seq(|s|, i requires 0 <= i < |s| => AsciiUpperChar(s[i]))
  }

  /** Every character `a` replaced by `b`. */
  function ReplaceChar(s: string, a: char, b: char): (r: string)
    ensures |r| == |s|
    ensures forall i | 0 <= i < |s| :: r[i] == (if s[i] == a then b else s[i])
  {
    seq(|s|, i requires 0 <= i < |s| => if s[i] == a then b else s[i])
  }

  /** `n` copies of `c`. */
  function Repeat(c: char, n: nat): (r: string)
    ensures |r| == n
    ensures forall i | 0 <= i < n :: r[i] == c
  {
    seq(n, _ => c)
  }

  /** JavaScript `s.padStart(width, c)` for a one-character pad string. */
  function PadStart(s: string, width: nat, c: char): (r: string)
    ensures |s| >= width ==> r == s
    ensures |s| < width ==> |r| == width
    ensures r == Repeat(c, |r| - |s|) + s
  {
    if |s| >= width then s else Repeat(c, width - |s|) + s
  }
}

=== FILE: wrappers.dfy ===
/** Failure-compatible wrappers used throughout the model: Option stands for a
    JavaScript/Python value that may be absent (undefined / missing key), and
    Result for a computation that may raise. */
module Wrappers {

  datatype Option<+T> = None | Some(value: T) {

    predicate IsFailure() {
      None?
    }

    function PropagateFailure<U>(): Option<U>
      requires None?
    {
      None
    }

    function Extract(): T
      requires Some?
    {
      value
    }

    /** The wrapped value, or `default` when absent. */
    function GetOr(default: T): T {
      match this
      case Some(v) => v
      case None => default
    }
  }

  datatype Result<+R, +E> = Success(value: R) | Failure(error: E) {

    predicate IsFailure() {
      Failure?
    }

    function PropagateFailure<U>(): Result<U, E>
      requires Failure?
    {
      Failure(error)
    }

    function Extract(): R
      requires Success?
    {
      value
    }
  }
}
